=== FILE: README.md ===
# AIRA chat engine — a Dafny model

AIRA is a document question-answering application. A React frontend talks to a FastAPI backend.
Users upload PDF, text and Markdown files. The backend validates each file, stores it, and keeps
its metadata in a JSON file. Chunk embeddings go into a vector collection. A chat turn searches
that collection, builds a prompt from the best chunks and the conversation so far, and streams the
language model's answer back to the browser as `data: <json>` lines. Each answer is followed by a
footer that lists its sources.

This project models that engine's logic as pure Dafny functions over immutable data. It covers
the following:

* **The stream.**
  * The server side (`ChatEndpoint`) turns generated chunks into `data: …\n\n` events, ending
    with exactly one terminal event, and saves the exchange into the session before the `done`
    event.
  * The JSON encoding of those events (`Json`) follows Python's `json.dumps` with
    `ensure_ascii`.
  * The browser's decoder (`StreamDecoder`, `Api`) is the line buffer of `sendChatMessage` as a
    fold over received chunks.
  * `ClientServer` joins the two sides. For every way the byte stream can be cut into chunks,
    the browser sees one `onChunk` per non-empty server chunk, then the terminal callback. The
    terminal callback is missing only for an error with an empty text.
* **The chat screen.**
  * `ChatController` is `Chat.tsx` as a state record with one transition per handler.
  * Its persistent cells follow `useLocalStorage` (`LocalStorage`). This includes the
    snapshot semantics of a functional update: the updater applies to the value captured when
    the setter was created.
* **Small frontend rules.** `ChatInput`, `SelectorView` (`DocumentContextSelector.tsx`),
  `Sidebar` (`useSidebar.ts`), `ModelSelector` and `FileTypeIcon`.
* **Backend services.**
  * `SessionStore`, `DocumentStore` and `VectorStore` are the session table, the document
    metadata file and the vector collection, each as a map.
  * `FileValidator` and `DocumentsApi` are the upload pipeline. The upload's size loop is a
    method with loop invariants. UTF-8 validity is in `Utf8`. `TextReader` is CPython's
    text-mode `read(1024)`, which the content check relies on.
  * `SearchApi` and `Retrieval` are the search endpoint and the retrieval service.
  * `Rag` assembles the prompt and the source footer.

Everything outside the program is an input to the functions:

* outcomes of the network, `localStorage`, the file system and the databases;
* the embedding service and the language model;
* random ids and the clock.

`Wrappers`, `Text`, `Sorting` and `Http` are shared vocabulary: options, results, string
helpers, an insertion sort, and HTTP error values. `Variants` names the two readings of a
program line listed under "## Findings": as written and as intended. The upload and the search
take the reading as a parameter, so the model states both behaviours.

Lower-casing is modelled on ASCII letters only (`Text.Lower`). This is exact for every comparison
the program makes with it:

* Every pattern matched against a lowered string is pure ASCII: `.pdf`, `.txt`, `.md`, `pdf`,
  `md`, `txt`, `embedding` and `no results`.
* Python's `str.lower` and JavaScript's `toLowerCase` map only two non-ASCII characters into
  ASCII. KELVIN SIGN goes to `k` and LATIN CAPITAL LETTER I WITH DOT ABOVE goes to `i` followed
  by a combining dot.
* Neither `k` nor a lone `i` completes any of those patterns. For a lone `i` this holds because
  a combining dot always follows it.

## Model

| member | source | states |
|---|---|---|
| Api.RequestBody | frontend/src/services/api.ts:86-90 | The chat request body has exactly the keys `message`, `session_id` and `top_k`. The model and document ids given to the call are never sent. |
| Api.ThrownMessage | frontend/src/services/api.ts:132-134 | A thrown `Error` is reported by its message. Any other thrown value is reported as "Unknown error". |
| Api.FailureMessage | frontend/src/services/api.ts:93-96 | The error text of a non-ok response is the body's non-empty `detail`. An unparsable body gives the fallback text. A parsed body without a detail gives the fallback text, `: ` and the status text. |
| Api.SendChatMessage | frontend/src/services/api.ts:80-134 | A failed fetch, a non-ok response and a missing body each give exactly one `onError` with the right message. An ok streamed body gives the callbacks of the decoded lines. |
| Api.StreamLines | frontend/src/services/api.ts:104-131 | The callbacks of a whole stream are those of the complete lines of all chunks concatenated. |
| Api.DeleteChatSession | frontend/src/services/api.ts:61-71 | Deleting a chat session throws iff the response is neither ok nor 404, or the fetch itself threw. |
| StreamDecoder.Dispatch | frontend/src/services/api.ts:119-125 | A payload gives at most one callback. A non-empty `content` gives `onChunk`; otherwise a true `done` gives `onComplete`; otherwise a non-empty `error` gives `onError`. A payload with none of these gives nothing. |
| StreamDecoder.HandleLine | frontend/src/services/api.ts:115-118 | A line gives at most one callback, and one not starting with `data: ` gives none. |
| StreamDecoder.HandleLinesAppend | frontend/src/services/api.ts:114-130 | Handling lines is a homomorphism: the callbacks of `a + b` are those of `a` followed by those of `b`. |
| StreamDecoder.Feed | frontend/src/services/api.ts:110-112 | After a chunk the buffer holds no newline, and earlier callbacks are kept as a prefix. |
| StreamDecoder.FeedLines | frontend/src/services/api.ts:110-130 | One chunk emits the callbacks of the complete lines of buffer plus chunk and keeps the text after the last newline. |
| StreamDecoder.FeedAll | frontend/src/services/api.ts:106-131 | Reading the whole stream keeps the buffer newline-free and only appends callbacks. |
| StreamDecoder.FeedAllText | frontend/src/services/api.ts:106-131 | After any chunk sequence the callbacks are those of the complete lines of everything received, and the buffer is its unterminated tail. |
| StreamDecoder.BoundaryIndependence | frontend/src/services/api.ts:104-131 | Two chunk sequences with the same concatenation leave the decoder in the same state: same callbacks, same buffer. |
| StreamDecoder.OneChunk | frontend/src/services/api.ts:104-131 | Feeding chunks one by one equals feeding their concatenation as a single chunk. |
| StreamDecoder.BufferIsTail | frontend/src/services/api.ts:110-112 | The retained buffer is exactly the text after the last newline received so far. |
| StreamDecoder.NonDataLineSilent | frontend/src/services/api.ts:115 | A line not starting with `data: `, including the blank separator, produces no callback. |
| StreamDecoder.UnparsableSkipped | frontend/src/services/api.ts:117-128 | An unparsable `data:` line is skipped, and the lines before and after it are still handled. |
| StreamDecoder.UnparsableLineSilent | frontend/src/services/api.ts:117-128 | An unparsable `data:` line produces no callback. |
| StreamDecoder.UnterminatedTailIgnored | frontend/src/services/api.ts:107-108 | Text after the last newline when the stream ends produces no callback. |
| Json.EscapeStringRoundTrip | backend/api/chat.py:136 | Parsing the body of a JSON string literal written by `json.dumps` gives back the original string, including surrogate pairs, and stops at the closing quote. |
| Json.EncodeFramePrintable | backend/api/chat.py:136-157 | An encoded frame is printable ASCII and has no newline, so it fits on one `data:` line. |
| Json.ParseEncodedFrame | frontend/src/services/api.ts:118 | The browser's `JSON.parse` of each of the server's three frame shapes gives the payload the server meant. |
| ChatEndpoint.ParseChatRequest | backend/api/chat.py:25-29 | A request parses only with string `message` and `session_id`. `top_k` is taken from the body when present and defaults to 5. |
| ChatEndpoint.GetSessionEndpoint | backend/api/chat.py:75-77 | Getting a session answers 404 "Session not found" iff the session is absent, and otherwise the stored session. |
| ChatEndpoint.DeleteSessionEndpoint | backend/api/chat.py:99-103 | Deleting a session never errors. The status is "deleted" iff the session existed, else "not_found". The id is absent afterwards and nothing else changes. |
| ChatEndpoint.Event | backend/api/chat.py:136-157 | Every event is `data: ` + single-line JSON + a blank line, and its JSON parses back to the frame's payload. |
| ChatEndpoint.ContentFrames | backend/api/chat.py:128-136 | There is one content frame per generated chunk, in generation order. |
| ChatEndpoint.PriorHistory | backend/api/chat.py:119-120 | The prior history is the stored messages, or empty for an unknown session. |
| ChatEndpoint.ChatMessage | backend/api/chat.py:119-157 | The RAG call gets the message, prior history and `top_k`. The frames are the content frames followed by exactly one terminal frame: `done` iff generation and saving both succeeded, otherwise `error` with the failure's text. The session is saved only on the `done` path. |
| ChatEndpoint.Exchange | backend/api/chat.py:139-148 | The saved history is the prior history plus the user message plus one assistant message that concatenates every chunk. |
| ChatEndpoint.OneTerminalFrame | backend/api/chat.py:126-157 | The last frame is the only one that is not a content frame. |
| ChatEndpoint.SavedAfterDone | backend/api/chat.py:139-153 | On success the `done` frame comes after the session has been updated with the full exchange. |
| ClientServer.StreamRoundTrip | backend/api/chat.py:126-157 | However the event text is cut into chunks, the browser calls `onChunk` once per non-empty server chunk, in order. Then it makes the terminal callback, unless that is an error with an empty text. The buffer ends empty. |
| ClientServer.DeliveredReply | frontend/src/services/api.ts:104-131 | The callbacks delivered for any chunking of a reply are the chunk callbacks followed by the terminal ones. |
| ClientServer.AnswerReachesBothSides | frontend/src/components/Chat.tsx:75-131 | An accepted question whose reply succeeds has three effects. The browser's history becomes the pre-submit history plus one assistant message holding the concatenated chunks, so the user message is lost. Loading stops. The server stores prior history plus the user and assistant messages. |
| ClientServer.EmptyErrorLeavesLoading | frontend/src/services/api.ts:123-125 | An exception with an empty message produces an `error` frame the browser ignores, so the chat stays loading. |
| LocalStorage.Load | frontend/src/hooks/useLocalStorage.ts:15-26 | The initial value is the parsed stored value when storage is readable, the key is present and parsing succeeds, and otherwise the initial value. |
| LocalStorage.SetValue | frontend/src/hooks/useLocalStorage.ts:29-57 | The state always becomes the new value, which for an updater is `f` applied to the captured snapshot. Storage gets its serialization only when the write succeeds and is unchanged on a quota or other write error. Nothing is thrown to the caller. |
| LocalStorage.Remove | frontend/src/hooks/useLocalStorage.ts:60-67 | Removal deletes only the key: the remaining keys are exactly the others, with their texts. The state resets to the initial value. If removal throws, the state and storage are unchanged. |
| LocalStorage.WriteReadBack | frontend/src/hooks/useLocalStorage.ts:33-40 | After a successful write, a fresh mount of the same key reads back the stored value. |
| LocalStorage.RemoveReadBack | frontend/src/hooks/useLocalStorage.ts:60-67 | After removal, a fresh mount reads the initial value. |
| LocalStorage.SameSetterTwice | frontend/src/hooks/useLocalStorage.ts:29-57 | Two functional updates through the same setter do not compose: the second is applied to the snapshot, so the first update is lost. |
| ChatController.Mount | frontend/src/components/Chat.tsx:17-21 | The chat mounts not loading, with an empty accumulator and selection, over the given storage. Each persistent cell holds the parsed stored value when storage is readable and the key's text parses. Otherwise it holds its default. |
| ChatController.StoreSession | frontend/src/components/Chat.tsx:36 | Storing a session id changes only the session cell and storage. |
| ChatController.PersistedSessionKept | frontend/src/components/Chat.tsx:17-31 | A reload whose storage holds a usable session id mounts with that id and makes no create call. |
| ChatController.CreatedSessionSurvivesReload | frontend/src/components/Chat.tsx:17-42 | A session created and stored on a first visit is the one a reload mounts with, and the reload creates no other (for a codec that reads back what it writes). |
| ChatController.InitSession | frontend/src/components/Chat.tsx:26-42 | With a persisted session id, nothing is created and nothing changes. Otherwise a session is created and its id stored; a failed create changes nothing. |
| ChatController.Toggle | frontend/src/components/Chat.tsx:44-54 | Toggling flips the membership of the given id and keeps every other id's membership. |
| ChatController.ToggleTwice | frontend/src/components/Chat.tsx:44-54 | Toggling the same id twice restores the selection. |
| ChatController.ToggleAll | frontend/src/components/Chat.tsx:56-64 | Toggle-all turns an empty selection into the set of all current document ids, and any non-empty selection into the empty set. |
| ChatController.Mention | frontend/src/components/Chat.tsx:66-73 | A mention only adds: the result is a superset holding the id and nothing else new. |
| ChatController.MentionIdempotent | frontend/src/components/Chat.tsx:66-73 | Mentioning the same id twice is the same as once. |
| ChatController.EffectiveContext | frontend/src/components/Chat.tsx:94 | The request's document ids are undefined iff the selection is empty, and otherwise exactly the selection. |
| ChatController.Submit | frontend/src/components/Chat.tsx:75-96 | A refused submission changes nothing and sends nothing. A submission is refused for blank text, a missing session or an active load. An accepted one appends one user message, starts loading, empties the accumulator and captures the pre-submit history. It calls the client with the session, model and effective context. |
| ChatController.Finish | frontend/src/components/Chat.tsx:105-126 | The end of a reply appends it to the captured history, clears the accumulator and stops loading. |
| ChatController.OnCallback | frontend/src/components/Chat.tsx:100-127 | A chunk extends the accumulator by exactly that chunk. Done appends the accumulated text and error appends "Error: " + message, both onto the captured history. Both end loading. |
| ChatController.Deliver | frontend/src/components/Chat.tsx:96-130 | A run of callbacks never changes the session or the selection and keeps the streamed text consistent with the accumulator. |
| ChatController.ChunksAccumulate | frontend/src/components/Chat.tsx:100-103 | Chunk callbacks only extend the accumulator by their concatenation. History, loading and storage are untouched. |
| ChatController.DeliverAppend | frontend/src/components/Chat.tsx:96-130 | Delivering `a + b` is delivering `a` and then `b`. |
| ChatController.ChunksThenDone | frontend/src/components/Chat.tsx:100-114 | Chunks followed by done append one assistant message holding all chunks since submit, and stop loading. |
| ChatController.SubmitThenDone | frontend/src/components/Chat.tsx:86-111 | After submit and a complete reply, the history is the pre-submit history plus the assistant message only: the user message is overwritten. |
| ChatController.ChunksThenError | frontend/src/components/Chat.tsx:117-126 | Chunks followed by an error append only "Error: " + message to the captured history, and stop loading. |
| ChatController.NewConversation | frontend/src/components/Chat.tsx:133-156 | A new conversation fires a delete of the old session only if there was one. It clears history, storage entry and accumulator, and keeps loading and selection. The new session id depends only on the create call. |
| ChatInput.HandleSubmit | frontend/src/components/ChatInput.tsx:13-19 | The input is submitted iff its trimmed text is non-empty and the input is enabled. The sent text is exactly the input without its leading and trailing whitespace. The field is cleared after sending and unchanged otherwise. |
| ChatInput.SendDisabled | frontend/src/components/ChatInput.tsx:38 | The Send button is disabled iff the input is disabled or blank after trimming. |
| ChatInput.ButtonMatchesSubmit | frontend/src/components/ChatInput.tsx:15-38 | The button is enabled exactly when submitting would send. |
| ChatInput.SentMessageAccepted | frontend/src/components/ChatInput.tsx:16 | A sent message passes the chat's blank-text gate whenever a session exists and nothing is loading. |
| Sidebar.Init | frontend/src/hooks/useSidebar.ts:16-17 | The panel starts not peeking. It is open unless readable storage holds `false`. |
| Sidebar.Toggle | frontend/src/hooks/useSidebar.ts:19-22 | Toggle flips the captured open flag, stops peeking, writes the flag when storage allows, and keeps peek only when closed. |
| Sidebar.Close | frontend/src/hooks/useSidebar.ts:24-27 | Close sets both flags false. |
| Sidebar.StartPeek | frontend/src/hooks/useSidebar.ts:29-33 | Peeking starts only when the panel is closed, and peek-only-when-closed is preserved. |
| Sidebar.StopPeek | frontend/src/hooks/useSidebar.ts:35-37 | Stop-peek clears peeking and touches nothing else. |
| Sidebar.ToggleTwice | frontend/src/hooks/useSidebar.ts:19-22 | Toggling twice restores the open flag. |
| Sidebar.CloseIdempotent | frontend/src/hooks/useSidebar.ts:24-27 | Closing twice is closing once. |
| Sidebar.ToggleSurvivesReload | frontend/src/hooks/useSidebar.ts:16-22 | A toggled state is what a reload reads back. |
| ModelSelector.FirstContaining | frontend/src/components/ModelSelector.tsx:24-25 | The result is the first model name containing the pattern, or none. |
| ModelSelector.Preferred | frontend/src/components/ModelSelector.tsx:24-26 | The choice is the first name containing `llama3`. Without one, it is the first name containing `llama`. Without that, it is the first name if that is non-empty, and otherwise none. |
| ModelSelector.PreferredOrder | frontend/src/components/ModelSelector.tsx:24-26 | Without a `llama3` name, the choice is the first name containing `llama`. |
| ModelSelector.ErrorText | frontend/src/components/ModelSelector.tsx:33-53 | An `Error`'s message is shown, and anything else shows the fallback text. |
| ModelSelector.FetchModels | frontend/src/components/ModelSelector.tsx:15-38 | Loading ends after either outcome. On success the list is stored and the preferred model is selected, with exactly one notification. An empty result notifies nothing. A failure sets the error. |
| ModelSelector.SelectModel | frontend/src/components/ModelSelector.tsx:43-56 | The selection changes and the parent is notified iff the call succeeds. A failure keeps the prior selection and sets the error. Selecting ends afterwards. |
| ModelSelector.EmptyListSelectsNothing | frontend/src/components/ModelSelector.tsx:27-32 | An empty model list leaves the selection "" and calls nothing. |
| FileTypeIcon.Extension | frontend/src/components/FileTypeIcon.tsx:9 | The extension is no longer than the name. |
| FileTypeIcon.Classify | frontend/src/components/FileTypeIcon.tsx:11-20 | The icon is PDF, Markdown or text iff the extension is `pdf`, `md` or `txt`, and generic otherwise. |
| FileTypeIcon.ExtensionAfterLastDot | frontend/src/components/FileTypeIcon.tsx:9 | The extension is the lowered text after the last dot. |
| FileTypeIcon.NoDotWholeName | frontend/src/components/FileTypeIcon.tsx:9 | A name without a dot is its own extension, lowered. |
| FileTypeIcon.LastSegmentOnly | frontend/src/components/FileTypeIcon.tsx:9 | Only the last dot-separated segment matters, so `x.pdf.txt` is text. |
| FileTypeIcon.CaseInsensitive | frontend/src/components/FileTypeIcon.tsx:9 | Lowering the name does not change its icon. |
| SelectorView.Label | frontend/src/components/DocumentContextSelector.tsx:53 | The label is "All" iff nothing is selected, and "1 doc" for one. Otherwise it is the count followed by " docs". |
| SelectorView.LabelDeterminesCount | frontend/src/components/DocumentContextSelector.tsx:53 | Equal labels mean equal selection sizes. |
| SelectorView.ToggleAllText | frontend/src/components/DocumentContextSelector.tsx:67 | The button reads "Deselect All" iff the selection is empty, otherwise "Select All". |
| SelectorView.Rows | frontend/src/components/DocumentContextSelector.tsx:86-96 | There is one row per document, in order, checked iff its id is selected. |
| SelectorView.Render | frontend/src/components/DocumentContextSelector.tsx:40-96 | The caption, the button text and one checkbox per document, checked iff selected. "No documents uploaded" shows iff the list is empty, and the default note shows iff nothing is selected. |
| SelectorView.ClickRowFlips | frontend/src/components/DocumentContextSelector.tsx:86-96 | Clicking a row flips exactly the rows with that id. |
| SelectorView.ToggleAllRows | frontend/src/components/DocumentContextSelector.tsx:67 | Toggle-all from nothing checks every row. From a selection it unchecks every row and shows "All". |
| SessionStore.Create | backend/services/session_service.py:28-42 | A new session has empty messages and `created_at` = `updated_at`. No other session changes. |
| SessionStore.Get | backend/services/session_service.py:45-56 | `get_session` returns the stored row iff the id exists. |
| SessionStore.UpdateMessages | backend/services/session_service.py:59-91 | After the update the id holds exactly the given messages, whether or not it existed. An existing session keeps `created_at`. `updated_at` becomes now. Other ids are untouched. |
| SessionStore.Delete | backend/services/session_service.py:94-112 | `delete_session` reports true iff the id was present, leaves it absent and touches nothing else. |
| SessionStore.DeleteTwice | backend/services/session_service.py:94-112 | A repeated delete reports false. |
| SessionStore.GetAfterUpdate | backend/services/session_service.py:59-91 | A get after an update returns the new messages. |
| SessionStore.GetAfterCreate | backend/services/session_service.py:28-56 | A get after a create returns the fresh empty session. |
| DocumentStore.LoadMetadata | backend/services/document_service.py:18-28 | A missing or unreadable metadata file reads as empty. |
| DocumentStore.TextPath | backend/services/document_service.py:47 | The extracted-text path is the text directory, `/`, the document id, then `.txt`. |
| DocumentStore.TextPathInjective | backend/services/document_service.py:47 | Different documents never share a text path. |
| DocumentStore.SaveDocument | backend/services/document_service.py:37-69 | Saving sets exactly the record of that id, returns it, and writes the text file so that it decodes to the extracted text. Other records and files are unchanged. |
| DocumentStore.GetDocument | backend/services/document_service.py:80-83 | `get_document` returns the record iff the id is present. |
| DocumentStore.ListDocuments | backend/services/document_service.py:72-77 | The listing is a permutation of all records, ordered by upload date, newest first. |
| DocumentStore.ListingHoldsEveryRecord | backend/services/document_service.py:72-77 | A record is listed iff it is stored. |
| DocumentStore.DeleteDocument | backend/services/document_service.py:86-109 | Deleting an absent id reports false and changes nothing. Otherwise it removes only that record and both of its files. |
| DocumentStore.SaveGetDelete | backend/services/document_service.py:37-109 | A saved record can be got back, and after deleting it, it is gone. |
| DocumentStore.DeleteTwice | backend/services/document_service.py:86-109 | A repeated delete reports false. |
| FileValidator.MatchedExtension | backend/services/file_validator.py:1-7 | An allowed extension is found iff the lowered filename ends with `.pdf`, `.txt` or `.md`. |
| FileValidator.ExtensionCaseInsensitive | backend/services/file_validator.py:7 | The extension check does not depend on letter case. |
| FileValidator.ValidateMagic | backend/services/file_validator.py:10-30 | An unreadable file fails, and a `%PDF` header passes. Any other file passes iff `read(1024)` raises no decoding error. That means its first 8192 bytes decode, possibly ending in bytes the decoder holds back (a cut sequence, or `ED A0..BF`). In addition, either they yield 1024 characters or the whole file is well-formed UTF-8. |
| FileValidator.PdfAccepted | backend/services/file_validator.py:13-18 | Any content behind a `%PDF` header is accepted. |
| FileValidator.TextAccepted | backend/services/file_validator.py:20-25 | The UTF-8 encoding of any text is accepted. |
| FileValidator.WholeFileIsText | backend/services/file_validator.py:20-27 | The read may reach the end of the file before it holds 1024 characters. Then a non-PDF file is accepted iff it is the UTF-8 encoding of some text. |
| FileValidator.LaterBytesUnread | backend/services/file_validator.py:22-24 | A file of at least 8192 bytes is judged by its first 8192 bytes alone. Whatever follows them changes nothing. |
| FileValidator.CutSequenceAfterLimitAccepted | backend/services/file_validator.py:22-25 | Text of 1024 or more characters, with no carriage return, followed by bytes the decoder holds back (a cut sequence, or `ED A0..BF`) is accepted, though it is not UTF-8. The read stops before the end of the file, where the held bytes would raise. |
| FileValidator.BrokenAfterTextRefused | backend/services/file_validator.py:22-27 | Bytes within the first chunk that the decoder can neither decode nor hold back make the file fail, even after 1024 characters. |
| FileValidator.BadByteAfterTextRefused | backend/services/file_validator.py:22-27 | A byte that can start no sequence, placed anywhere within the first chunk, makes the file fail. |
| FileValidator.LettersThenByteExamples | backend/services/file_validator.py:22-27 | After 1024 letters `a`: a final `C3` or a final `ED A0` is accepted; `FF`, or `ED A0` followed by another byte, is refused. |
| TextReader.Translate | backend/services/file_validator.py:23 | Universal-newline translation leaves no carriage return. It shortens the text by at most half. |
| TextReader.TranslateCarriageFree | backend/services/file_validator.py:23 | Text without a carriage return is not changed by the translation. |
| TextReader.NewlineDecode | backend/services/file_validator.py:23-24 | Only a non-final call holds a carriage return back. The output has no carriage return, and it is at least half as long as the input, less one. |
| TextReader.FullChunkEnough | backend/services/file_validator.py:24 | A full 8192-byte first chunk that decodes yields at least 1024 characters. |
| TextReader.ReadText | backend/services/file_validator.py:22-27 | The read loop raises no decoding error iff two things hold. The first chunk decodes, holding back at most a cut sequence or a final `ED A0..BF`. And either that chunk yields 1024 characters or the whole file is well-formed. |
| Utf8.Pending | backend/services/file_validator.py:24 | The bytes the decoder holds after a chunk are empty, one unfinished sequence of at most three bytes, or a final `ED A0..BF`. |
| Utf8.StreamPastHead | backend/services/file_validator.py:24 | A stream input that starts with a complete sequence decodes it and continues after it. |
| Utf8.ValidIffNothingPending | backend/services/file_validator.py:24 | A chunk that decodes is well-formed to its end iff the decoder holds nothing. |
| Utf8.StreamTextLength | backend/services/file_validator.py:24 | A chunk that decodes yields at least one character per four bytes, beyond a held tail of at most three. |
| Utf8.AfterWellFormed | backend/services/file_validator.py:24 | After well-formed bytes the decoder is at a character boundary. The following bytes decode alone, and the text is the concatenation. |
| Utf8.HeadOfLonger | backend/services/file_validator.py:24 | Bytes after a complete sequence do not change how that sequence decodes. |
| Utf8.EncodeLength | backend/services/file_validator.py:24 | A character takes at most four bytes. |
| Utf8.EncodeValid | backend/services/file_validator.py:22-27 | UTF-8 encoding produces well-formed UTF-8 (Table 3-7 of the Unicode Standard). |
| Utf8.EncodeDecode | backend/services/file_validator.py:22-27 | Decoding well-formed UTF-8 and encoding again gives the same bytes. |
| Utf8.DecodeEncode | backend/services/file_validator.py:22-27 | Encoding text and decoding it gives the same text. |
| Utf8.PrefixIsStream | backend/services/file_validator.py:24 | Any prefix of well-formed UTF-8 is acceptable to a streaming decoder that may wait for more bytes. |
| DocumentsApi.SplitExtension | backend/api/documents.py:32 | `splitext` gives either nothing or a dot-led suffix of the name with no further dot or slash. |
| DocumentsApi.AsWrittenExtension | backend/api/documents.py:32 | The lowered `splitext` extension is empty or a dot-led suffix of the lowered filename. |
| DocumentsApi.UploadExtension | backend/api/documents.py:24-34 | The stored extension is the allowed extension the lowered filename ends with. |
| DocumentsApi.AsWrittenAgrees | backend/api/documents.py:24-34 | The lowered `splitext` extension equals the validated one iff something other than dots precedes it. Otherwise it is empty. |
| DocumentsApi.DotOnlyNameLosesExtension | backend/api/documents.py:32 | `.pdf` passes validation, but `splitext` gives it no extension and so no text reader. |
| DocumentsApi.StoredExtension | backend/api/documents.py:32 | The stored extension is empty or a dot-led suffix of the lowered name. It equals the allowed extension whenever a non-dot character precedes it. Otherwise it is empty as written, and an allowed extension as intended. |
| DocumentsApi.DotOnlyUploadAsWritten | backend/api/documents.py:32-34 | As written, an upload named `.pdf` is stored under its bare id and its extraction fails, whatever the file holds. As intended, it keeps `.pdf`. |
| DocumentsApi.StoredPath | backend/api/documents.py:31-34 | The stored path is the upload directory, `/`, the document id, then the extension. |
| DocumentsApi.StoredAndTextPathsDiffer | backend/api/documents.py:34 | An upload's stored file never overwrites its text file. |
| DocumentsApi.ExtractorFor | backend/services/text_extractor.py:28-34 | `.pdf` uses the PDF reader, `.txt` and `.md` the text reader, and anything else has none. |
| DocumentsApi.AllowedHaveReaders | backend/services/text_extractor.py:28-34 | Every allowed extension has a reader. |
| DocumentsApi.ExtractionResult | backend/api/documents.py:67-74 | The status is "success" iff the extracted text is non-empty, and "failed" on empty text or any exception. It is never left "pending". |
| DocumentsApi.ReceiveFile | backend/api/documents.py:36-57 | The receive loop agrees with its functional outcome. On success the file holds exactly the bytes read; on any failure the partial file is gone. |
| DocumentsApi.TooLargeExactly | backend/api/documents.py:37-51 | Without I/O faults, an upload is refused with 413 iff its total size exceeds the maximum. An accepted size is the sum of chunk lengths. |
| DocumentsApi.AcceptedWithinLimit | backend/api/documents.py:37-80 | An accepted upload's recorded size is the sum of its chunk lengths and is at most 10 MiB. |
| DocumentsApi.Public | backend/api/documents.py:86-110 | Only id, filename, size and upload date are exposed. |
| DocumentsApi.Upload | backend/api/documents.py:20-91 | A bad extension is refused with 400 before any write, and a receive failure leaves no file. Once the bytes are received, the upload succeeds iff the stored file can be reopened and passes the content check. Otherwise it is refused with the invalid-content 400 and the file is deleted. A success stores the bytes under the id plus the extension of the chosen reading, records the received size, and changes no other file or record. Extraction uses that same extension. |
| DocumentsApi.StoreAndCheck | backend/api/documents.py:37-91 | After the name has passed: a receive failure answers with that error and leaves no file. Otherwise the content check decides success, and a success changes only this document's files and record. |
| DocumentsApi.CheckContent | backend/api/documents.py:59-91 | The stored file passes iff it reopens and passes the content check. A refused file is deleted with the invalid-content 400. An accepted one keeps its bytes and gets its record, and nothing else changes. |
| DocumentsApi.ListEndpoint | backend/api/documents.py:94-110 | The listing has one public entry per stored record, in the service's order. |
| DocumentsApi.ListEndpointComplete | backend/api/documents.py:94-110 | Every stored record appears in the listing, and every listed entry comes from a stored record. |
| DocumentsApi.DeleteEndpoint | backend/api/documents.py:113-124 | Deleting an unknown id answers 404 and changes nothing. Otherwise it answers "Document deleted". The document is absent afterwards either way. |
| DocumentsApi.DeleteEndpointTwice | backend/api/documents.py:113-124 | A repeated delete answers 404. |
| VectorStore.ChunkId | backend/services/vector_service.py:64-67 | A chunk id is the document id, `_chunk_`, then the chunk index. |
| VectorStore.ChunkIdInjective | backend/services/vector_service.py:64-67 | Different (document, index) pairs never share a chunk id. |
| VectorStore.ChunkIds | backend/services/vector_service.py:64-67 | There is one id per chunk, the i-th for index i. |
| VectorStore.ChunkIdsDistinct | backend/services/vector_service.py:64-67 | All ids of one document are distinct. |
| VectorStore.Metas | backend/services/vector_service.py:68-76 | Metadata i carries the document id, the filename, index i and the chunk count. |
| VectorStore.MetasInRange | backend/services/vector_service.py:68-76 | Every chunk index lies below the chunk count. |
| VectorStore.AddChunks | backend/services/vector_service.py:47-84 | Each chunk whose id is new is stored under that id with its text, embedding and metadata; the keys become the old ones plus the chunk ids; every record already present is kept unchanged, as the collection's `add` skips existing ids. |
| VectorStore.DeleteDocumentVectors | backend/services/vector_service.py:87-106 | No delete is issued when nothing matches. Otherwise exactly the document's records are removed, and the rest are kept unchanged. |
| VectorStore.AddThenDelete | backend/services/vector_service.py:47-106 | Adding a new document's chunks and then deleting the document restores the collection. |
| Retrieval.WhereClause | backend/services/retrieval_service.py:40-45 | There is no filter for an absent or empty list, `$eq` for one id, and `$in` with the whole list for two or more. |
| Retrieval.FilterAdmitsSelection | backend/services/retrieval_service.py:40-45 | A filter admits a document iff it is in the list, and an empty or absent list admits everything. |
| Retrieval.Relevance | backend/services/retrieval_service.py:76 | Relevance lies in (0, 1] and is 1 exactly at distance 0. |
| Retrieval.RelevanceReversesDistance | backend/services/retrieval_service.py:76 | Smaller distance means higher relevance, and conversely. |
| Retrieval.ChunkPosition | backend/services/retrieval_service.py:79-81 | The position is the one-based index, `/`, then the chunk count. |
| Retrieval.ChunkPositionInjective | backend/services/retrieval_service.py:79-81 | Different (index, count) pairs give different positions. |
| Retrieval.PositionInRange | backend/services/vector_service.py:68-76 | With the stored metadata, every position's numerator lies in 1..total. |
| Retrieval.Format | backend/services/retrieval_service.py:73-89 | A match becomes a result with its text, filename, document id, position and relevance. |
| Retrieval.FormatAll | backend/services/retrieval_service.py:73-89 | There is one result per match, in order. |
| Retrieval.Ranked | backend/services/retrieval_service.py:93 | The results are a permutation of the formatted matches, sorted by relevance, descending. |
| Retrieval.RankedAreMatches | backend/services/retrieval_service.py:73-93 | A result is returned iff it is the formatting of some match. |
| Retrieval.EmbeddingFailure | backend/services/retrieval_service.py:33-37 | An embedding `RuntimeError` is re-raised as a `RuntimeError` whose message is "Cannot search: " followed by the original message. |
| Retrieval.QueryFailure | backend/services/retrieval_service.py:57-61 | A failed collection query gives no results when its message mentions "no results", and is re-raised unchanged otherwise. |
| Retrieval.QueryFailureAsWritten | backend/services/retrieval_service.py:57-61 | As written, a failed query gives no results when its message mentions "no results". Any other failure becomes an `UnboundLocalError`, because `results` was never assigned. |
| Retrieval.UnboundResultsHidesError | backend/services/retrieval_service.py:57-61 | As written, every other query error is replaced by an `UnboundLocalError` about `results`. |
| Retrieval.HandleQueryFailure | backend/services/retrieval_service.py:57-61 | A failed query gives [] iff its message mentions "no results". Any other failure is re-raised unchanged as intended, and becomes the unbound-variable error as written. |
| Retrieval.LockedDatabaseExample | backend/services/retrieval_service.py:57-61 | A locked database error reaches the caller as an `UnboundLocalError` instead of itself. |
| Retrieval.SearchDocuments | backend/services/retrieval_service.py:30-93 | An embedding failure queries nothing. Otherwise the collection is queried with `top_k` and the where clause. The answer is either the ranked results or the failed query's handling in the chosen reading. |
| Retrieval.EmptyAnswerNoResults | backend/services/retrieval_service.py:64-65 | An empty query answer gives []. |
| SearchApi.Stripped | backend/api/search.py:38 | Each piece is stripped of surrounding whitespace. |
| SearchApi.NonEmpty | backend/api/search.py:38 | Each non-empty string is kept as often as it occurs, and no empty string is kept. |
| SearchApi.NonEmptyAppend | backend/api/search.py:38 | Filtering keeps order: the kept strings of `a + b` are those of `a`, then those of `b`. |
| SearchApi.NonEmptySingle | backend/api/search.py:38 | A single string is kept iff it is not empty. |
| SearchApi.Kept | backend/api/search.py:38 | Each non-empty stripped piece is kept as often as it occurs, and nothing else. |
| SearchApi.KeptAppend | backend/api/search.py:38 | The ids of the pieces `a + b` are those of `a` followed by those of `b`. |
| SearchApi.KeptSingle | backend/api/search.py:38 | A single piece gives its stripped form, unless that is empty. |
| SearchApi.KeptUnpaddedIds | backend/api/search.py:38 | No kept id begins or ends with whitespace. |
| SearchApi.ParseDocIds | backend/api/search.py:36-38 | An absent or empty `doc_ids` gives none. Otherwise the ids are the kept pieces of the comma split, each non-empty and comma-free. |
| SearchApi.ParseJoined | backend/api/search.py:38 | Non-empty, comma-free, unpadded ids joined with commas parse back to the same list, in order. |
| SearchApi.CommasAndSpacesOnly | backend/api/search.py:38 | A value of only commas and spaces parses to an empty list, not to none. |
| SearchApi.Search | backend/api/search.py:14-62 | Missing `q` or `top_k` outside 1..20 is refused. Otherwise the query uses `top_k` (default 5) and the parsed filter. The answer is a success iff the embedding worked and the query returned or reported no results. It then holds the ranked formatting of the returned chunks (none for "no results") and their count. A mapped failure is 503. The retrieval reading is a parameter. |
| SearchApi.SearchReturnsMatches | backend/api/search.py:41-62 | A successful search answers with exactly the returned chunks, each formatted, most relevant first, and counts them. |
| SearchApi.EmbeddingDownIs503 | backend/api/search.py:47-53 | An embedding `RuntimeError` naming Ollama or embedding answers 503 and queries nothing. |
| SearchApi.WrappedNamesService | backend/services/retrieval_service.py:37 | The "Cannot search: " wrapping keeps the words the endpoint looks for. |
| SearchApi.OtherErrorsPropagate | backend/api/search.py:54 | Every other failure of the retrieval service, in either reading, propagates unchanged. |
| SearchApi.QueryErrorUncaughtAsWritten | backend/api/search.py:41-54 | As written, a failed query other than "no results" escapes the endpoint as the uncaught unbound-variable error, never 503. As intended, the original error is mapped as usual. |
| SearchApi.BlankSelectionSearchesAll | backend/api/search.py:36-45 | A `doc_ids` of only commas and spaces searches every document. |
| Rag.DocLabel | backend/services/rag_service.py:74-110 | The label reads `[Doc n]`. |
| Rag.DocLabelInjective | backend/services/rag_service.py:74-82 | Different numbers give different labels. |
| Rag.ContextPart | backend/services/rag_service.py:75-77 | A context part starts with its label and ends with the chunk text. |
| Rag.SourceLine | backend/services/rag_service.py:110 | A footer line starts with `- [Doc n]: ` and the filename, and ends with the section and a newline. |
| Rag.ContextParts | backend/services/rag_service.py:74-77 | Part i is result i labelled `[Doc i+1]`, in search order. |
| Rag.SourceLines | backend/services/rag_service.py:78-110 | Line i names result i as `[Doc i+1]`, in search order. |
| Rag.NumberingAgrees | backend/services/rag_service.py:74-110 | The context and the footer number each result the same way, and no two numbers collide. |
| Rag.JoinWithHoldsParts | backend/services/rag_service.py:84 | The joined context contains every part. |
| Rag.Context | backend/services/rag_service.py:84 | The context is empty iff there are no results. |
| Rag.ContextCitesEveryResult | backend/services/rag_service.py:74-84 | The context contains every labelled part and every result's text. |
| Rag.Messages | backend/services/rag_service.py:87-101 | The LLM messages are one system prompt over the context and result count, then the history, then the user query. |
| Rag.OneSystemMessage | backend/services/rag_service.py:87-101 | Only the first message is a system prompt. The rest are the history followed by the query. |
| Rag.Turns | backend/services/rag_service.py:95-101 | This recovers the plain messages from a list of turns. |
| Rag.GenerateRagResponse | backend/services/rag_service.py:43-110 | Search runs over all documents, in the chosen retrieval reading. The LLM is prompted iff search found something. Without a prompt there is at most one chunk. With one, the LLM's chunks come first, unchanged. |
| Rag.SearchesAllDocuments | backend/services/rag_service.py:64 | The search uses `top_k` and no document filter. |
| Rag.SearchFailurePropagates | backend/services/rag_service.py:64 | A search failure prompts nothing and ends the generation with its message. |
| Rag.NothingFoundOneMessage | backend/services/rag_service.py:66-69 | No results give exactly the one fixed message and no LLM call. |
| Rag.AnswerThenSources | backend/services/rag_service.py:87-110 | With results, the LLM sees the ranked results' prompt. On success its chunks are forwarded, then the footer header, then one line per source. A failure is passed on. |
| Rag.AnswerSavedWithSources | backend/api/chat.py:139-150 | The saved assistant message is the answer followed by the source footer. |
| Rag.NothingFoundSaved | backend/api/chat.py:139-150 | With no documents, the fixed message is saved as the reply. |
| Rag.SearchFailureSavesNothing | backend/api/chat.py:155-157 | An unreachable embedding service yields a single error frame and leaves the store unchanged. |
| Rag.QueryErrorInChatAsWritten | backend/api/chat.py:126-157 | As written, a failed query other than "no results" ends the chat stream with one error frame carrying the unbound-variable text. Nothing is prompted or saved. |

## Left out

- Network, `fetch` and the stream reader. Chunks arrive as already-decoded strings; how `TextDecoder` splits multi-byte characters is a library concern.
- `createChatSession`, `uploadDocument`, `fetchDocuments`, `listModels` and `selectModel` in `api.ts`. They are thin `fetch` wrappers, and their outcomes are inputs (`CreateOutcome`, `ListOutcome`, a thrown value).
- The `POST /chat/session/new` endpoint (`chat.py:45-57`). It only calls `create_session`, which `SessionStore.Create` models. The random UUID is an input, so a duplicate id is an explicit error.
- React rendering, effects, scheduling and concurrency between handlers. Only the captured-snapshot semantics of `setValue` are modelled. `Chat.tsx` renders `DocumentContextSelector`; its JSX is modelled separately as `SelectorView`.
- `MessageList.tsx`, `App.tsx`, `FileUpload.tsx`, `DocumentList.tsx`, `Layout.tsx`, `Sidebar.tsx` and `SidebarToggle.tsx`. They are rendering or glue with no stateable logic. `Layout.tsx` reads `isFloating`/`toggleFloating`, which `useSidebar.ts` does not provide.
- `ollama_client.py`, `embedding_service.py`, `chunking_service.py`, the file reads of `text_extractor.py`, and `main.py`. Embeddings, LLM chunks, chunk texts and extracted text are inputs.
- The vector collection's nearest-neighbour search. The query's answer (matches with distances) is an input; only the call's parameters and the shaping of its answer are modelled.
- The upload endpoint never adds vectors for an uploaded document. The model shows the same: `Upload` touches only files and metadata.
- Inline `@mention` detection. `ChatInput.tsx` takes no mention callback; only the `handleDocumentMention` set operation is modelled.
- The wording of `SYSTEM_PROMPT_TEMPLATE` (`rag_service.py:13-40`).
- `Rag.Messages`: the system message is `SystemPrompt(context, numDocs)`, the two values substituted into the template, rather than the formatted text.
- `Retrieval.Relevance`: relevance is computed over real numbers, not IEEE doubles. Distances are assumed non-negative; a floating-point cosine distance can come out slightly below zero, which would give a relevance just above 1, and that case is not modelled.
- `Retrieval.Ranked`: Python's sort is stable. The contract states the permutation and the descending order, but not the order among equal relevances.
- The "File too large. Maximum size: 10.0 MB" text. The float formatting is not modelled; the 413 error carries the text as a constant.
- `Json.ParsePayload`: the browser's `JSON.parse` is modelled for flat objects with string, `true`, `false` and `null` values, which covers everything the server sends. Other JSON is treated as unparsable. For payloads this server never writes, such as a number under `content`, this differs from the browser.
- `ChatEndpoint.ParseChatRequest`: FastAPI's validation is reduced to field presence and type. Pydantic's coercions (such as `"5"` for `top_k`) and the 422 body are not modelled.
- `SearchApi.Search`: a request failing FastAPI's parameter validation is `Unprocessable`, without the 422 body.
- `Api.FailureMessage`: a failed response's `detail` is modelled as a string. A `null`, list or object `detail`, and the text `Error` makes of it, are not modelled.
- `Json.ParsePayload`: a `\u` escape of a lone surrogate is refused, although `JSON.parse` accepts it. The server's `ensure_ascii` output escapes only whole characters, as surrogate pairs.
- Retrieval.UnboundResults: fixes the `UnboundLocalError` text to the wording of CPython 3.11 and later. Python 3.10 and earlier say "local variable 'results' referenced before assignment", and that text would then reach the 500 answer and the chat's error frame instead.
- The texts of library exceptions (`str(e)` of ChromaDB, Ollama and file-system errors) are inputs, not modelled.
- `TextReader.ReadText`: every read asks for 8192 bytes and a regular file delivers them in one piece, as CPython 3.7 and later do. Later reads ask for more when the text is dense in bytes. That is not modelled, because a second read only happens after the first has reached the end of the file.
- Utf8.ValidStream: follows the incremental decoder of recent CPython (3.12), which holds a final `ED A0..BF` instead of raising when more input may follow. That rule sits in the C decoder, which is not part of this model. Releases without that rule are not modelled.
- `TextReader.ReadText`: only whether the read raises is modelled. The characters it returns, and the position and text of a decoding error, are not.
- `DocumentStore.ListDocuments`: the order in which the metadata dictionary lists its keys is an input. Upload dates compare as strings, which is how Python compares ISO timestamps.
- The JSON serialisation of the metadata file and of `localStorage` values. Each is a codec given as a parameter; read-back lemmas assume it round-trips (`LocalStorage.Lawful`).

## Findings

| source | as written | input that shows it | evidently intended | confidence | as-written member | corrected member |
|---|---|---|---|---|---|---|
| backend/services/retrieval_service.py:57-61 | When `collection.query` raises, the handler reads `results`, which was never bound. Any error without "no results" in its text therefore becomes an `UnboundLocalError`. | `collection.query` raising `OperationalError("database is locked")` | Re-raise the original error, and return [] only for the "no results" case | high (not executed) | Retrieval.QueryFailureAsWritten, Retrieval.UnboundResultsHidesError, Retrieval.LockedDatabaseExample, SearchApi.QueryErrorUncaughtAsWritten, Rag.QueryErrorInChatAsWritten | Retrieval.QueryFailure |
| backend/api/documents.py:32 | The stored extension comes from `os.path.splitext`, which gives "" for a name made of dots and an extension, although validation accepted the name. | upload named `.pdf` | Store the file with the extension that validation matched, so text extraction picks the right reader | medium (not executed) | DocumentsApi.AsWrittenExtension, DocumentsApi.DotOnlyNameLosesExtension, DocumentsApi.DotOnlyUploadAsWritten | DocumentsApi.UploadExtension |

=== FILE: api.dfy ===
/**
 * The browser's HTTP client for the chat endpoints: `sendChatMessage` (request, error
 * paths, and the stream loop of `StreamDecoder`) and `deleteChatSession`.  The network is
 * an input: each call receives the outcome `fetch` and the reader produced.
 */
module Api {
  import opened Wrappers
  import opened Text
  import opened Json
  import opened StreamDecoder

  /** A thrown value: an `Error` with its message, or anything else. */
  datatype Thrown = ErrorValue(message: string) | OtherValue

  /** `error instanceof Error ? error.message : 'Unknown error'`. */
  function ThrownMessage(t: Thrown): (m: string)
    ensures t.ErrorValue? ==> m == t.message
    ensures t.OtherValue? ==> m == "Unknown error"
  {
    match t
    case ErrorValue(m) => m
    case OtherValue => "Unknown error"
  }

  /**
   * The JSON body of a failed response as the client reads it: not JSON at all, or an object
   * whose `detail` is a string ("" standing for a missing or empty one).
   */
  datatype ErrorBody = Unparsable | Parsed(detail: string)

  /** How the reader's loop ended: the reader reported the end, or a read threw. */
  datatype StreamEnd = Clean | Failed(cause: Thrown)

  /** The response body: absent, or the decoded chunks the reader delivered before the end. */
  datatype Body = NoBody | Stream(chunks: seq<string>, end: StreamEnd)

  datatype Response = Response(ok: bool, status: int, statusText: string, errorBody: ErrorBody, body: Body)

  /** What `fetch` did: throw (network failure), or resolve to a response. */
  datatype FetchOutcome = FetchThrew(cause: Thrown) | Responded(response: Response)

  /**
   * The message of the error thrown for a failed response: the body's `detail`, or
   * `action` when the body is not JSON, or `action: statusText` when `detail` is empty.
   */
  function FailureMessage(action: string, r: Response): (m: string)
    ensures r.errorBody.Unparsable? ==> m == action
    ensures r.errorBody.Parsed? && r.errorBody.detail != "" ==> m == r.errorBody.detail
    ensures r.errorBody.Parsed? && r.errorBody.detail == "" ==>
              StartsWith(m, action + ": ") && m[|action| + 2..] == r.statusText
  {
    match r.errorBody
    case Unparsable => action
    case Parsed(d) => if d != "" then d else action + ": " + r.statusText
  }

  /** The body `sendChatMessage` posts: the message, the session id and `top_k` 5, no more. */
  function RequestBody(message: string, sessionId: string): (body: map<string, BodyValue>)
    ensures body.Keys == {"message", "session_id", "top_k"}
  {
    map["message" := Str(message), "session_id" := Str(sessionId), "top_k" := Num(5)]
  }

  /**
   * The callbacks `sendChatMessage` makes for one fetch outcome.  A fetch failure, a failed
   * response and a missing body each end in exactly one `OnError`; a stream delivers the
   * callbacks of its complete lines, and a read failure adds one `OnError` after them.
   */
  function SendChatMessage(outcome: FetchOutcome): (cbs: seq<Callback>)
    ensures outcome.FetchThrew? ==> cbs == [OnError(ThrownMessage(outcome.cause))]
    ensures outcome.Responded? && !outcome.response.ok ==>
              cbs == [OnError(FailureMessage("Failed to send message", outcome.response))]
    ensures outcome.Responded? && outcome.response.ok && outcome.response.body.NoBody? ==>
              cbs == [OnError("No response body")]
    ensures outcome.Responded? && outcome.response.ok && outcome.response.body.Stream? ==>
              StreamCallbacks(outcome.response.body, cbs)
  {
    match outcome
    case FetchThrew(t) => [OnError(ThrownMessage(t))]
    case Responded(r) =>
      if !r.ok then [OnError(FailureMessage("Failed to send message", r))]
      else
        match r.body
        case NoBody => [OnError("No response body")]
        case Stream(chunks, end) =>
          var lines := FeedAll(Initial, chunks).emitted;
          StreamLines(chunks);
          match end
          case Clean => lines
          case Failed(t) => lines + [OnError(ThrownMessage(t))]
  }

  /**
   * A stream's callbacks are those of the complete lines of everything received, whatever
   * the chunking, followed by one `OnError` exactly when a read failed.
   */
  ghost predicate StreamCallbacks(b: Body, cbs: seq<Callback>)
    requires b.Stream?
  {
    var lines := HandleLines(Lines(Concat(b.chunks), '\n'));
    match b.end
    case Clean => cbs == lines
    case Failed(t) => cbs == lines + [OnError(ThrownMessage(t))]
  }

  /** The stream part of the contract above, from the decoder's fold. */
  lemma StreamLines(chunks: seq<string>)
    ensures FeedAll(Initial, chunks).emitted == HandleLines(Lines(Concat(chunks), '\n'))
  {
    FeedAllText("", [], chunks);
    assert "" + Concat(chunks) == Concat(chunks);
    assert [] + HandleLines(Lines(Concat(chunks), '\n')) == HandleLines(Lines(Concat(chunks), '\n'));
  }

  /**
   * `deleteChatSession`: `None` when the promise resolves, the thrown value otherwise.  A
   * 404 counts as success, since the session may already be gone.
   */
  function DeleteChatSession(outcome: FetchOutcome): (thrown: Option<Thrown>)
    ensures outcome.Responded? ==>
              (thrown.None? <==> outcome.response.ok || outcome.response.status == 404)
    ensures outcome.FetchThrew? ==> thrown == Some(outcome.cause)
  {
    match outcome
    case FetchThrew(t) => Some(t)
    case Responded(r) =>
      if !r.ok && r.status != 404 then Some(ErrorValue(FailureMessage("Failed to delete session", r)))
      else None
  }
}

=== FILE: chat_controller.dfy ===
/**
 * The `Chat` component as a state machine: two storage-backed cells (session id and message
 * history), the loading flag, the streamed text (kept both as React state and in a ref), and
 * the set of documents selected as context.  Every handler is a transition; timestamps,
 * storage outcomes and server replies are inputs.
 *
 * The component's `setMessages` is the setter of `useLocalStorage`, whose updaters see the
 * history captured when the setter was created.  `handleSubmit` uses one setter for the user
 * message and for the reply, so the reply is appended to the history as it was BEFORE the
 * user message: the transitions below take that captured history as an explicit `snapshot`.
 */
module ChatController {
  import opened Wrappers
  import opened Text
  import opened LocalStorage
  import opened StreamDecoder

  datatype Role = User | Assistant

  /** A chat message as the browser stores it. */
  datatype Msg = Msg(role: Role, content: string, timestamp: string)

  const SessionKey: string := "research_agent_session_id"
  const MessagesKey: string := "research_agent_messages"

  /** The serializations of the two stored cells. */
  datatype Codecs = Codecs(session: Codec<Option<string>>, messages: Codec<seq<Msg>>)

  /**
   * The component's state.  `streaming` is the React state shown while a reply streams;
   * `acc` is the ref the reply is built from.
   */
  datatype Chat = Chat(
    session: Cell<Option<string>>,
    messages: Cell<seq<Msg>>,
    storage: Storage,
    isLoading: bool,
    streaming: string,
    acc: string,
    selection: set<string>)

  /** The shown text and the ref always agree. */
  predicate Coherent(s: Chat)
  {
    s.streaming == s.acc
  }

  /** The two cells are the component's: their keys and fallback values as mounted. */
  predicate Wellformed(s: Chat)
  {
    s.session.key == SessionKey && s.session.initial == None &&
    s.messages.key == MessagesKey && s.messages.initial == []
  }

  /** The state right after mounting: both cells loaded from storage, nothing else set. */
  function Mount(storage: Storage, access: Access, codecs: Codecs): (s: Chat)
    ensures Wellformed(s) && Coherent(s) && !s.isLoading && s.acc == "" && s.selection == {}
    ensures s.storage == storage
    ensures access.Throws? ==> s.session.value == None && s.messages.value == []
    ensures access.Available? && SessionKey in storage && codecs.session.parse(storage[SessionKey]).Some? ==>
              s.session.value == codecs.session.parse(storage[SessionKey]).value
    ensures access.Available? && MessagesKey in storage && codecs.messages.parse(storage[MessagesKey]).Some? ==>
              s.messages.value == codecs.messages.parse(storage[MessagesKey]).value
    ensures s.session.value == None
            || (access.Available? && SessionKey in storage && codecs.session.parse(storage[SessionKey]) == Some(s.session.value))
    ensures s.messages.value == []
            || (access.Available? && MessagesKey in storage && codecs.messages.parse(storage[MessagesKey]) == Some(s.messages.value))
  {
    Chat(Load(storage, access, SessionKey, None, codecs.session),
         Load(storage, access, MessagesKey, [], codecs.messages),
         storage, false, "", "", {})
  }

  /** A session id is usable when it is present and non-empty (JavaScript truthiness). */
  predicate HasSession(s: Chat)
  {
    s.session.value.Some? && s.session.value.value != ""
  }

  // ---------------------------------------------------------------------------------------
  // Session start
  // ---------------------------------------------------------------------------------------

  /** What the create-session request did. */
  datatype CreateOutcome = Created(id: string) | CreateFailed

  datatype InitResult = InitResult(createCalled: bool, state: Chat)

  /** Stores a fresh session id (a value, not an updater, so no snapshot is involved). */
  function StoreSession(s: Chat, id: string, w: WriteOutcome, codecs: Codecs): (s': Chat)
    ensures s'.session.value == Some(id) && s'.session.key == s.session.key
    ensures s' == s.(session := s'.session, storage := s'.storage)
  {
    var r := SetValue(s.session, s.session.value, Replace(Some(id)), s.storage, w, codecs.session);
    s.(session := r.0, storage := r.1)
  }

  /**
   * The mount effect: a usable stored id is kept and no request is made; otherwise a
   * session is created and its id stored, and a failed request changes nothing.
   */
  function InitSession(s: Chat, create: CreateOutcome, w: WriteOutcome, codecs: Codecs): (r: InitResult)
    ensures HasSession(s) ==> r == InitResult(false, s)
    ensures !HasSession(s) ==> r.createCalled
    ensures create.CreateFailed? ==> r.state == s
    ensures !HasSession(s) && create.Created? ==>
              r.state.session.value == Some(create.id) && r.state.messages == s.messages
  {
    if HasSession(s) then InitResult(false, s)
    else
      match create
      case CreateFailed => InitResult(true, s)
      case Created(id) => InitResult(true, StoreSession(s, id, w, codecs))
  }

  /** A reload with a usable session id in storage mounts with it and creates no session. */
  lemma PersistedSessionKept(storage: Storage, id: string, create: CreateOutcome, w: WriteOutcome, codecs: Codecs)
    requires SessionKey in storage && codecs.session.parse(storage[SessionKey]) == Some(Some(id)) && id != ""
    ensures var s := Mount(storage, Available, codecs);
            s.session.value == Some(id) && InitSession(s, create, w, codecs) == InitResult(false, s)
  {
  }

  /**
   * A session created on a first visit and stored is the one a reload mounts with, and the
   * reload creates no other, provided the codec reads back what it writes.
   */
  lemma CreatedSessionSurvivesReload(storage: Storage, id: string, create: CreateOutcome, w: WriteOutcome,
                                     codecs: Codecs)
    requires Lawful(codecs.session) && id != ""
    requires !HasSession(Mount(storage, Available, codecs))
    ensures var first := InitSession(Mount(storage, Available, codecs), Created(id), Stored, codecs);
            var again := Mount(first.state.storage, Available, codecs);
            first.createCalled && again.session.value == Some(id)
            && InitSession(again, create, w, codecs) == InitResult(false, again)
  {
  }

  // ---------------------------------------------------------------------------------------
  // Context selection
  // ---------------------------------------------------------------------------------------

  /** `handleToggleDocument`: flips the membership of `id`. */
  function Toggle(sel: set<string>, id: string): (r: set<string>)
    ensures id in r <==> id !in sel
    ensures forall x :: x != id ==> (x in r <==> x in sel)
  {
    if id in sel then sel - {id} else sel + {id}
  }

  lemma ToggleTwice(sel: set<string>, id: string)
    ensures Toggle(Toggle(sel, id), id) == sel
  {
  }

  /**
   * `handleToggleAllDocuments`: an empty selection becomes every listed document, any other
   * selection becomes empty.
   */
  function ToggleAll(sel: set<string>, docs: seq<string>): (r: set<string>)
    ensures sel == {} ==> forall x :: x in r <==> x in docs
    ensures sel != {} ==> r == {}
  {
    if |sel| == 0 then set d | d in docs else {}
  }

  /** `handleDocumentMention`: adds `id`. */
  function Mention(sel: set<string>, id: string): (r: set<string>)
    ensures sel <= r && id in r
    ensures forall x :: x in r ==> x == id || x in sel
  {
    sel + {id}
  }

  lemma MentionIdempotent(sel: set<string>, id: string)
    ensures Mention(Mention(sel, id), id) == Mention(sel, id)
  {
  }

  /** The document ids sent with a question: none for an empty selection, else all of it. */
  function EffectiveContext(sel: set<string>): (ids: Option<set<string>>)
    ensures ids.None? <==> sel == {}
    ensures ids.Some? ==> ids.value == sel
  {
    if |sel| > 0 then Some(sel) else None
  }

  // ---------------------------------------------------------------------------------------
  // Asking a question
  // ---------------------------------------------------------------------------------------

  /**
   * The arguments `handleSubmit` passes to `sendChatMessage`.  `model` and `documentIds` are
   * passed, but the client function takes no such parameters and never sends them (the
   * body it posts is `Api.RequestBody(message, sessionId)`).
   */
  datatype SendCall = SendCall(message: string, sessionId: string, model: Option<string>,
                               documentIds: Option<set<string>>)

  /** A submission: the new state, the history the reply's setter captured, and the call. */
  datatype Submission = Submission(state: Chat, snapshot: seq<Msg>, call: Option<SendCall>)

  /** The gate of `handleSubmit`. */
  predicate Accepts(s: Chat, message: string)
  {
    Strip(message, JsWhitespace) != "" && HasSession(s) && !s.isLoading
  }

  function AppendMsg(m: Msg): seq<Msg> -> seq<Msg>
  {
    prev => prev + [m]
  }

  /**
   * `handleSubmit`: past the gate, the user message is appended, loading starts and the
   * streamed text is emptied; the request goes out with the then-current session and
   * selection.  A refused submission changes nothing and sends nothing.
   */
  function Submit(s: Chat, message: string, ts: string, model: Option<string>, w: WriteOutcome, codecs: Codecs)
    : (r: Submission)
    ensures !Accepts(s, message) ==> r.state == s && r.call.None?
    ensures Accepts(s, message) ==> r.state.messages.value == s.messages.value + [Msg(User, message, ts)]
    ensures Accepts(s, message) ==> r.state.isLoading && r.state.acc == "" && Coherent(r.state)
    ensures Accepts(s, message) ==> r.snapshot == s.messages.value
    ensures Accepts(s, message) ==>
              r.call == Some(SendCall(message, s.session.value.value, model, EffectiveContext(s.selection)))
    ensures r.state.session == s.session && r.state.selection == s.selection
  {
    if !Accepts(s, message) then Submission(s, s.messages.value, None)
    else
      var snapshot := s.messages.value;
      var m := SetValue(s.messages, snapshot, Apply(AppendMsg(Msg(User, message, ts))), s.storage, w, codecs.messages);
      var s' := s.(messages := m.0, storage := m.1, isLoading := true, streaming := "", acc := "");
      Submission(s', snapshot, Some(SendCall(message, s.session.value.value, model, EffectiveContext(s.selection))))
  }

  /**
   * The end of a reply (`onComplete` / `onError`): `reply` is appended to the captured
   * history, the streamed text is cleared and loading stops.
   */
  function Finish(s: Chat, snapshot: seq<Msg>, reply: Msg, w: WriteOutcome, codecs: Codecs): (s': Chat)
    ensures s'.messages.value == snapshot + [reply]
    ensures !s'.isLoading && s'.acc == "" && Coherent(s')
    ensures s'.session == s.session && s'.selection == s.selection
  {
    var m := SetValue(s.messages, snapshot, Apply(AppendMsg(reply)), s.storage, w, codecs.messages);
    s.(messages := m.0, storage := m.1, isLoading := false, streaming := "", acc := "")
  }

  /**
   * One callback from `sendChatMessage`.  A chunk extends the ref and the shown text; done
   * appends the ref's text as the assistant's reply; an error appends "Error: " + message.
   */
  function OnCallback(s: Chat, snapshot: seq<Msg>, cb: Callback, ts: string, w: WriteOutcome, codecs: Codecs)
    : (s': Chat)
    ensures cb.OnChunk? ==> s' == s.(acc := s.acc + cb.text, streaming := s.streaming + cb.text)
    ensures cb.OnComplete? ==> s'.messages.value == snapshot + [Msg(Assistant, s.acc, ts)]
    ensures cb.OnError? ==> s'.messages.value == snapshot + [Msg(Assistant, "Error: " + cb.message, ts)]
    ensures !cb.OnChunk? ==> !s'.isLoading && s'.acc == ""
    ensures Coherent(s) ==> Coherent(s')
  {
    match cb
    case OnChunk(t) => s.(acc := s.acc + t, streaming := s.streaming + t)
    case OnComplete => Finish(s, snapshot, Msg(Assistant, s.acc, ts), w, codecs)
    case OnError(m) => Finish(s, snapshot, Msg(Assistant, "Error: " + m, ts), w, codecs)
  }

  /**
   * The callbacks of one reply, in order.  Each end-of-reply callback is stamped with `ts`
   * and its storage write has outcome `w`.
   */
  function Deliver(s: Chat, snapshot: seq<Msg>, cbs: seq<Callback>, ts: string, w: WriteOutcome, codecs: Codecs)
    : (s': Chat)
    ensures Coherent(s) ==> Coherent(s')
    ensures s'.session == s.session && s'.selection == s.selection
    decreases |cbs|
  {
    if |cbs| == 0 then s else Deliver(OnCallback(s, snapshot, cbs[0], ts, w, codecs), snapshot, cbs[1..], ts, w, codecs)
  }

  /** Only chunks: no end-of-reply callback. */
  predicate OnlyChunks(cbs: seq<Callback>)
  {
    forall i :: 0 <= i < |cbs| ==> cbs[i].OnChunk?
  }

  /** The texts of a run of chunk callbacks, joined. */
  function ChunkText(cbs: seq<Callback>): string
    requires OnlyChunks(cbs)
  {
    if |cbs| == 0 then "" else cbs[0].text + ChunkText(cbs[1..])
  }

  /**
   * Chunks only extend the ref by exactly their texts, and leave loading and history alone;
   * in particular a reply that ends without done or error leaves loading on for good.
   */
  lemma {:induction false} ChunksAccumulate(s: Chat, snapshot: seq<Msg>, cbs: seq<Callback>, ts: string,
                                            w: WriteOutcome, codecs: Codecs)
    requires OnlyChunks(cbs)
    ensures Deliver(s, snapshot, cbs, ts, w, codecs).acc == s.acc + ChunkText(cbs)
    ensures Deliver(s, snapshot, cbs, ts, w, codecs).isLoading == s.isLoading
    ensures Deliver(s, snapshot, cbs, ts, w, codecs).messages == s.messages
    ensures Deliver(s, snapshot, cbs, ts, w, codecs).storage == s.storage
    decreases |cbs|
  {
    if |cbs| == 0 {
    } else {
      var s1 := OnCallback(s, snapshot, cbs[0], ts, w, codecs);
      assert OnlyChunks(cbs[1..]) by {
        forall i | 0 <= i < |cbs[1..]| ensures cbs[1..][i].OnChunk? {
          assert cbs[1..][i] == cbs[i + 1];
        }
      }
      ChunksAccumulate(s1, snapshot, cbs[1..], ts, w, codecs);
      AppendAssoc(s.acc, cbs[0].text, ChunkText(cbs[1..]));
    }
  }

  lemma DeliverAppend(s: Chat, snapshot: seq<Msg>, a: seq<Callback>, b: seq<Callback>, ts: string,
                      w: WriteOutcome, codecs: Codecs)
    ensures Deliver(s, snapshot, a + b, ts, w, codecs)
         == Deliver(Deliver(s, snapshot, a, ts, w, codecs), snapshot, b, ts, w, codecs)
    decreases |a|
  {
    if |a| == 0 {
      assert a + b == b;
    } else {
      assert (a + b)[1..] == a[1..] + b;
      DeliverAppend(OnCallback(s, snapshot, a[0], ts, w, codecs), snapshot, a[1..], b, ts, w, codecs);
    }
  }

  /**
   * A reply of chunks followed by done appends ONE message to the captured history: the
   * assistant's, holding everything streamed since the submission.  Loading stops.
   */
  lemma ChunksThenDone(s: Chat, snapshot: seq<Msg>, cbs: seq<Callback>, ts: string, w: WriteOutcome, codecs: Codecs)
    requires OnlyChunks(cbs) && s.acc == ""
    ensures Deliver(s, snapshot, cbs + [OnComplete], ts, w, codecs).messages.value
         == snapshot + [Msg(Assistant, ChunkText(cbs), ts)]
    ensures !Deliver(s, snapshot, cbs + [OnComplete], ts, w, codecs).isLoading
  {
    DeliverAppend(s, snapshot, cbs, [OnComplete], ts, w, codecs);
    ChunksAccumulate(s, snapshot, cbs, ts, w, codecs);
    assert "" + ChunkText(cbs) == ChunkText(cbs);
  }

  /**
   * The whole exchange for an accepted question answered by chunks and done: the history
   * ends as it was before the question plus the assistant's reply.  The user's message,
   * appended at submission, is overwritten by the reply's updater, which started from the
   * history captured before it.
   */
  lemma SubmitThenDone(s: Chat, message: string, ts: string, model: Option<string>, w1: WriteOutcome,
                       cbs: seq<Callback>, ts2: string, w2: WriteOutcome, codecs: Codecs)
    requires Accepts(s, message) && OnlyChunks(cbs)
    ensures var sub := Submit(s, message, ts, model, w1, codecs);
            Deliver(sub.state, sub.snapshot, cbs + [OnComplete], ts2, w2, codecs).messages.value
            == s.messages.value + [Msg(Assistant, ChunkText(cbs), ts2)]
  {
    var sub := Submit(s, message, ts, model, w1, codecs);
    ChunksThenDone(sub.state, sub.snapshot, cbs, ts2, w2, codecs);
  }

  /**
   * An error callback after some chunks replaces them: the captured history gains one
   * assistant message "Error: " + message and loading stops.
   */
  lemma ChunksThenError(s: Chat, snapshot: seq<Msg>, cbs: seq<Callback>, m: string, ts: string,
                        w: WriteOutcome, codecs: Codecs)
    requires OnlyChunks(cbs)
    ensures Deliver(s, snapshot, cbs + [OnError(m)], ts, w, codecs).messages.value
         == snapshot + [Msg(Assistant, "Error: " + m, ts)]
    ensures !Deliver(s, snapshot, cbs + [OnError(m)], ts, w, codecs).isLoading
  {
    DeliverAppend(s, snapshot, cbs, [OnError(m)], ts, w, codecs);
  }

  // ---------------------------------------------------------------------------------------
  // New conversation
  // ---------------------------------------------------------------------------------------

  /** The old session id the handler asks the server to delete, if any, and the new state. */
  datatype NewConversationResult = NewConversationResult(deleteCall: Option<string>, state: Chat)

  /**
   * `handleNewConversation`: a delete request for the current session is fired and not
   * awaited, so its outcome is not an input; both cells are removed, the streamed text is
   * cleared, and a new session is created and stored.  Loading and selection are kept.
   */
  function NewConversation(s: Chat, removeSessionThrows: bool, removeMessagesThrows: bool,
                           create: CreateOutcome, w: WriteOutcome, codecs: Codecs): (r: NewConversationResult)
    ensures HasSession(s) ==> r.deleteCall == Some(s.session.value.value)
    ensures !HasSession(s) ==> r.deleteCall.None?
    ensures create.Created? ==> r.state.session.value == Some(create.id)
    ensures create.CreateFailed? && !removeSessionThrows ==> r.state.session.value == None
    ensures !removeMessagesThrows ==> r.state.messages.value == [] && MessagesKey !in r.state.storage
    ensures r.state.acc == "" && Coherent(r.state)
    ensures r.state.isLoading == s.isLoading && r.state.selection == s.selection
    ensures Wellformed(r.state)
    requires Wellformed(s)
  {
    var deleteCall := if HasSession(s) then Some(s.session.value.value) else None;
    var c1 := Remove(s.session, s.storage, removeSessionThrows);
    var c2 := Remove(s.messages, c1.1, removeMessagesThrows);
    var s1 := s.(session := c1.0, messages := c2.0, storage := c2.1, streaming := "", acc := "");
    match create
    case CreateFailed => NewConversationResult(deleteCall, s1)
    case Created(id) => NewConversationResult(deleteCall, StoreSession(s1, id, w, codecs))
  }
}

=== FILE: chat_endpoint.dfy ===
/**
 * The chat HTTP endpoints: the request model, the get/delete session rules, and the
 * event generator behind `POST /chat/message`, which streams one `data: <json>\n\n` event per
 * generated chunk and ends with exactly one done or error event.
 */
module ChatEndpoint {
  import opened Wrappers
  import opened Text
  import opened Json
  import opened SessionStore
  import opened Http

  /** `ChatRequest`: the validated request body.  There is no model or document-id field. */
  datatype ChatRequest = ChatRequest(message: string, sessionId: string, topK: int)

  const DefaultTopK: int := 5

  /**
   * Request validation: `message` and `session_id` must be strings, `top_k` is an integer
   * defaulting to 5; members of other names are ignored.  `None` is a 422 response.
   */
  function ParseChatRequest(body: map<string, BodyValue>): (r: Option<ChatRequest>)
    ensures r.Some? ==> "message" in body && body["message"] == Str(r.value.message)
    ensures r.Some? ==> "session_id" in body && body["session_id"] == Str(r.value.sessionId)
    ensures r.Some? && "top_k" !in body ==> r.value.topK == 5
    ensures r.Some? && "top_k" in body ==> body["top_k"] == Num(r.value.topK)
  {
    if "message" !in body || !body["message"].Str? then None
    else if "session_id" !in body || !body["session_id"].Str? then None
    else if "top_k" !in body then Some(ChatRequest(body["message"].s, body["session_id"].s, DefaultTopK))
    else if body["top_k"].Num? then Some(ChatRequest(body["message"].s, body["session_id"].s, body["top_k"].n))
    else None
  }

  // ---------------------------------------------------------------------------------------
  // Session endpoints
  // ---------------------------------------------------------------------------------------

  /** `GET /chat/session/{id}`: the session, or 404. */
  function GetSessionEndpoint(store: Store, id: string): (r: Result<Session, HttpError>)
    ensures r.Err? <==> id !in store
    ensures r.Err? ==> r.error == HttpError(404, "Session not found")
    ensures r.Ok? ==> r.value == store[id]
  {
    match Get(store, id)
    case None => Err(HttpError(404, "Session not found"))
    case Some(s) => Ok(s)
  }

  /** `DELETE /chat/session/{id}`: never an error; the status tells whether it existed. */
  function DeleteSessionEndpoint(store: Store, id: string): (r: (string, Store))
    ensures r.0 == "deleted" <==> id in store
    ensures r.0 == "deleted" || r.0 == "not_found"
    ensures id !in r.1 && r.1 - {id} == store - {id}
  {
    var d := Delete(store, id);
    (if d.0 then "deleted" else "not_found", d.1)
  }

  // ---------------------------------------------------------------------------------------
  // Event stream
  // ---------------------------------------------------------------------------------------

  /** The text of one event: the `data: ` field line and the blank line ending the event. */
  function Event(f: Frame): (e: string)
    ensures StartsWith(e, "data: ") && EndsWith(e, "\n\n") && |e| >= 8
    ensures '\n' !in e[6..|e| - 2]
    ensures ParsePayload(e[6..|e| - 2]) == Some(PayloadOf(f))
  {
    var j := EncodeFrame(f);
    EncodeFramePrintable(f);
    ParseEncodedFrame(f);
    EventParts("data: ", j, "\n\n");
    assert |"data: "| == 6 && |"\n\n"| == 2;
    "data: " + j + "\n\n"
  }

  lemma EventParts(a: string, j: string, b: string)
    ensures StartsWith(a + j + b, a) && EndsWith(a + j + b, b)
    ensures |a + j + b| == |a| + |j| + |b|
    ensures (a + j + b)[|a|..|a| + |j|] == j
  {
    CutAppend(a + j, b);
    CutAppend(a, j);
  }

  /** The events of a frame sequence, one after the other. */
  function Events(frames: seq<Frame>): string
  {
    if |frames| == 0 then "" else Event(frames[0]) + Events(frames[1..])
  }

  function ContentFrames(chunks: seq<string>): (fs: seq<Frame>)
    ensures |fs| == |chunks|
    ensures forall i :: 0 <= i < |fs| ==> fs[i] == ContentFrame(chunks[i])
  {
    if |chunks| == 0 then [] else [ContentFrame(chunks[0])] + ContentFrames(chunks[1..])
  }

  /**
   * What the reply generator did: the chunks it yielded, and the text of the exception it
   * raised after them (`str(e)`), if any.
   */
  datatype Generation = Generation(chunks: seq<string>, failure: Option<string>)

  /** The arguments the endpoint passes to the reply generator. */
  datatype RagCall = RagCall(query: string, history: seq<StoredMsg>, topK: int)

  /** The endpoint's output: the call it made, the frames it streamed, the store after. */
  datatype Reply = Reply(call: RagCall, frames: seq<Frame>, store: Store)

  /** The history a reply is based on: the session's, or empty for an unknown session. */
  function PriorHistory(store: Store, id: string): (h: seq<StoredMsg>)
    ensures id !in store ==> h == []
    ensures id in store ==> h == store[id].messages
  {
    match Get(store, id)
    case None => []
    case Some(s) => s.messages
  }

  /**
   * `event_generator`.  Each chunk is framed as it arrives; once the generator is exhausted
   * the exchange is saved (`saveFailure` is the text of an exception raised while saving)
   * and done is sent.  Any exception ends the stream with one error frame instead.
   */
  function ChatMessage(req: ChatRequest, store: Store, gen: Generation, saveFailure: Option<string>, now: string)
    : (r: Reply)
    ensures r.call == RagCall(req.message, PriorHistory(store, req.sessionId), req.topK)
    ensures |r.frames| == |gen.chunks| + 1
    ensures r.frames[..|gen.chunks|] == ContentFrames(gen.chunks)
    ensures r.frames[|gen.chunks|].DoneFrame? <==> gen.failure.None? && saveFailure.None?
    ensures gen.failure.Some? ==> r.frames[|gen.chunks|] == ErrorFrame(gen.failure.value)
    ensures gen.failure.None? && saveFailure.Some? ==> r.frames[|gen.chunks|] == ErrorFrame(saveFailure.value)
    ensures r.frames[|gen.chunks|].DoneFrame? ==>
              r.store == UpdateMessages(store, req.sessionId, Exchange(store, req, gen.chunks), now)
    ensures !r.frames[|gen.chunks|].DoneFrame? ==> r.store == store
  {
    var call := RagCall(req.message, PriorHistory(store, req.sessionId), req.topK);
    var content := ContentFrames(gen.chunks);
    var last :=
      if gen.failure.Some? then ErrorFrame(gen.failure.value)
      else if saveFailure.Some? then ErrorFrame(saveFailure.value)
      else DoneFrame;
    var store' :=
      if last.DoneFrame? then UpdateMessages(store, req.sessionId, Exchange(store, req, gen.chunks), now)
      else store;
    CutAppend(content, [last]);
    Reply(call, content + [last], store')
  }

  /** The history saved after a reply: the prior history, the question, the whole answer. */
  function Exchange(store: Store, req: ChatRequest, chunks: seq<string>): (h: seq<StoredMsg>)
    ensures |h| == |PriorHistory(store, req.sessionId)| + 2
    ensures h[..|h| - 2] == PriorHistory(store, req.sessionId)
    ensures h[|h| - 2] == StoredMsg("user", req.message)
    ensures h[|h| - 1] == StoredMsg("assistant", Concat(chunks))
  {
    PriorHistory(store, req.sessionId) + [StoredMsg("user", req.message), StoredMsg("assistant", Concat(chunks))]
  }

  /** Exactly one frame of a reply is not a content frame, and it is the last one. */
  lemma OneTerminalFrame(req: ChatRequest, store: Store, gen: Generation, saveFailure: Option<string>, now: string)
    ensures var fs := ChatMessage(req, store, gen, saveFailure, now).frames;
            |fs| > 0 && !fs[|fs| - 1].ContentFrame? &&
            forall i :: 0 <= i < |fs| - 1 ==> fs[i].ContentFrame?
  {
    var fs := ChatMessage(req, store, gen, saveFailure, now).frames;
    assert forall i :: 0 <= i < |fs| - 1 ==> fs[i] == fs[..|gen.chunks|][i];
  }

  /** After a completed reply the session holds the prior history plus the exchange. */
  lemma SavedAfterDone(req: ChatRequest, store: Store, chunks: seq<string>, now: string)
    ensures var r := ChatMessage(req, store, Generation(chunks, None), None, now);
            r.frames[|chunks|] == DoneFrame &&
            req.sessionId in r.store &&
            r.store[req.sessionId].messages
            == PriorHistory(store, req.sessionId)
               + [StoredMsg("user", req.message), StoredMsg("assistant", Concat(chunks))]
  {
  }
}

=== FILE: chat_input.dfy ===
/**
 * The chat input box: what pressing Send does with the typed text, and when the Send button
 * is disabled.
 */
module ChatInput {
  import opened Wrappers
  import opened Text
  import ChatController

  /** The text holds something other than whitespace, so its trimmed form is not empty. */
  predicate HasText(text: string)
  {
    exists i :: 0 <= i < |text| && !JsWhitespace(text[i])
  }

  /** What a submit did: the message handed to `onSubmit`, if any, and the box's text after. */
  datatype SubmitResult = SubmitResult(sent: Option<string>, text: string)

  /**
   * `handleSubmit`: when the box is enabled and holds more than whitespace, the trimmed text
   * is sent and the box is cleared; otherwise nothing happens.
   */
  function HandleSubmit(text: string, disabled: bool): (r: SubmitResult)
    ensures r.sent.Some? <==> HasText(text) && !disabled
    ensures r.sent.None? ==> r.text == text
    ensures r.sent.Some? ==> r.text == ""
    ensures r.sent.Some? ==> |r.sent.value| > 0
    ensures r.sent.Some? ==> !JsWhitespace(r.sent.value[0]) && !JsWhitespace(r.sent.value[|r.sent.value| - 1])
    ensures r.sent.Some? ==> LeadingCount(text, JsWhitespace) + |r.sent.value| <= |text|
    ensures r.sent.Some? ==>
              r.sent.value == text[LeadingCount(text, JsWhitespace)..LeadingCount(text, JsWhitespace) + |r.sent.value|]
    ensures r.sent.Some? ==>
              forall i :: LeadingCount(text, JsWhitespace) + |r.sent.value| <= i < |text| ==> JsWhitespace(text[i])
    ensures r.sent.Some? ==> r.sent.value == Strip(text, JsWhitespace)
  {
    var t := Strip(text, JsWhitespace);
    if t != "" && !disabled then SubmitResult(Some(t), "") else SubmitResult(None, text)
  }

  /** The Send button is disabled while the box is disabled or holds only whitespace. */
  function SendDisabled(text: string, disabled: bool): (r: bool)
    ensures r <==> disabled || !HasText(text)
  {
    disabled || Strip(text, JsWhitespace) == ""
  }

  /** The button is enabled exactly when pressing it would send something. */
  lemma ButtonMatchesSubmit(text: string, disabled: bool)
    ensures !SendDisabled(text, disabled) <==> HandleSubmit(text, disabled).sent.Some?
  {
  }

  /**
   * A sent message is already trimmed, so the chat page's own trim leaves it as it is and
   * its non-empty check passes: the page accepts it exactly when a session exists and no
   * reply is loading.
   */
  lemma SentMessageAccepted(text: string, disabled: bool, s: ChatController.Chat)
    requires HandleSubmit(text, disabled).sent.Some?
    ensures var m := HandleSubmit(text, disabled).sent.value;
            Strip(m, JsWhitespace) == m &&
            (ChatController.Accepts(s, m) <==> ChatController.HasSession(s) && !s.isLoading)
  {
    var m := HandleSubmit(text, disabled).sent.value;
    StripFixed(m, JsWhitespace);
  }
}

=== FILE: client_server.dfy ===
/**
 * The chat exchange end to end: the body the browser posts is the request the server
 * validates, and the events the server streams, cut into chunks in any way, are decoded
 * by the browser into one callback per non-empty chunk followed by the terminal callback,
 * which is missing only for an error with an empty text.
 */
module ClientServer {
  import opened Wrappers
  import opened Text
  import opened Json
  import opened StreamDecoder
  import Api
  import opened ChatEndpoint
  import opened SessionStore
  import LocalStorage
  import ChatController

  /** The server reads the browser's body as the question, the session and `top_k` 5. */
  lemma RequestRoundTrip(message: string, sessionId: string)
    ensures ParseChatRequest(Api.RequestBody(message, sessionId)) == Some(ChatRequest(message, sessionId, 5))
  {
  }

  // ---------------------------------------------------------------------------------------
  // Events as lines
  // ---------------------------------------------------------------------------------------

  /** A line without a break, a break, and more text: the line comes first. */
  lemma LineThen(p: string, x: string)
    requires '\n' !in p
    ensures Lines(p + ("\n" + x), '\n') == [p] + Lines(x, '\n')
    ensures Rest(p + ("\n" + x), '\n') == Rest(x, '\n')
  {
    var s := p + ("\n" + x);
    IndexOfFirst(p, '\n');
    IndexOfAppend(p, "\n" + x, '\n');
    assert IndexOf("\n" + x, '\n') == 0;
    CutAppend(p, "\n" + x);
    assert s[|p| + 1..] == x by {
      assert s[|p|..] == "\n" + x;
      ConsParts('\n', x);
    }
    LinesUnfold(s, '\n', |p|);
  }

  lemma EventText(j: string, rest: string)
    ensures "data: " + j + "\n\n" + rest == ("data: " + j) + ("\n" + ("\n" + rest))
  {
    AppendAssoc("data: " + j, "\n\n", rest);
    PairCons('\n', '\n', rest);
  }

  /** A line, a blank line, and more text. */
  lemma LinePairThen(p: string, rest: string)
    requires '\n' !in p
    ensures Lines(p + ("\n" + ("\n" + rest)), '\n') == [p, ""] + Lines(rest, '\n')
    ensures Rest(p + ("\n" + ("\n" + rest)), '\n') == Rest(rest, '\n')
  {
    LineThen(p, "\n" + rest);
    LineThen("", rest);
    assert "" + ("\n" + rest) == "\n" + rest;
    AppendAssoc([p], [""], Lines(rest, '\n'));
  }

  lemma EventIs(f: Frame)
    ensures Event(f) == "data: " + EncodeFrame(f) + "\n\n"
  {
  }

  /** One event followed by more text: its data line, then its blank line, then the rest. */
  lemma EventLines(f: Frame, rest: string)
    ensures Lines(Event(f) + rest, '\n') == ["data: " + EncodeFrame(f), ""] + Lines(rest, '\n')
    ensures Rest(Event(f) + rest, '\n') == Rest(rest, '\n')
  {
    var j := EncodeFrame(f);
    var p := "data: " + j;
    EncodeFramePrintable(f);
    assert '\n' !in p;
    EventIs(f);
    EventText(j, rest);
    LinePairThen(p, rest);
  }

  /** The data line of an event calls the callback its frame stands for. */
  lemma DataLine(f: Frame)
    ensures HandleLines(["data: " + EncodeFrame(f), ""]) == Dispatch(PayloadOf(f))
  {
    var p := "data: " + EncodeFrame(f);
    CutAppend("data: ", EncodeFrame(f));
    assert StartsWith(p, DataPrefix);
    ParseEncodedFrame(f);
    assert HandleLine(p) == Dispatch(PayloadOf(f));
    assert HandleLine("") == [];
    assert ["data: " + EncodeFrame(f), ""][1..] == [""];
    assert HandleLines([""]) == [];
  }

  /** The callbacks each frame stands for, in order. */
  function FrameCallbacks(frames: seq<Frame>): seq<Callback>
  {
    if |frames| == 0 then [] else Dispatch(PayloadOf(frames[0])) + FrameCallbacks(frames[1..])
  }

  lemma {:induction false} FrameCallbacksAppend(a: seq<Frame>, b: seq<Frame>)
    ensures FrameCallbacks(a + b) == FrameCallbacks(a) + FrameCallbacks(b)
  {
    if |a| == 0 {
      assert a + b == b;
    } else {
      assert (a + b)[1..] == a[1..] + b;
      FrameCallbacksAppend(a[1..], b);
      AppendAssoc(Dispatch(PayloadOf(a[0])), FrameCallbacks(a[1..]), FrameCallbacks(b));
    }
  }

  /**
   * The events of a frame sequence are decoded frame by frame, and nothing is left over in
   * the buffer.
   */
  lemma {:induction false} EventsDecode(frames: seq<Frame>)
    ensures HandleLines(Lines(Events(frames), '\n')) == FrameCallbacks(frames)
    ensures Rest(Events(frames), '\n') == ""
  {
    if |frames| == 0 {
      assert Lines("", '\n') == [];
    } else {
      var f := frames[0];
      var tail := Events(frames[1..]);
      EventsDecode(frames[1..]);
      EventLines(f, tail);
      HandleLinesAppend(["data: " + EncodeFrame(f), ""], Lines(tail, '\n'));
      DataLine(f);
    }
  }

  // ---------------------------------------------------------------------------------------
  // What the browser sees of a reply
  // ---------------------------------------------------------------------------------------

  /** One chunk callback per non-empty chunk: an empty `content` calls nothing. */
  function ChunkCallbacks(chunks: seq<string>): (cbs: seq<Callback>)
  {
    if |chunks| == 0 then []
    else (if chunks[0] != "" then [OnChunk(chunks[0])] else []) + ChunkCallbacks(chunks[1..])
  }

  /**
   * The callback ending a reply: done after a completed reply, the error's text after a
   * failure, and nothing for a failure whose text is empty.
   */
  function TerminalCallbacks(gen: Generation, saveFailure: Option<string>): (cbs: seq<Callback>)
  {
    var failure := if gen.failure.Some? then gen.failure else saveFailure;
    match failure
    case None => [OnComplete]
    case Some(m) => if m != "" then [OnError(m)] else []
  }

  lemma {:induction false} ContentCallbacks(chunks: seq<string>)
    ensures FrameCallbacks(ContentFrames(chunks)) == ChunkCallbacks(chunks)
  {
    if |chunks| > 0 {
      var fs := ContentFrames(chunks);
      assert fs[1..] == ContentFrames(chunks[1..]);
      ContentCallbacks(chunks[1..]);
    }
  }

  lemma ReplyFrames(req: ChatRequest, store: Store, gen: Generation, saveFailure: Option<string>, now: string)
    ensures FrameCallbacks(ChatMessage(req, store, gen, saveFailure, now).frames)
         == ChunkCallbacks(gen.chunks) + TerminalCallbacks(gen, saveFailure)
  {
    var fs := ChatMessage(req, store, gen, saveFailure, now).frames;
    var n := |gen.chunks|;
    assert fs == ContentFrames(gen.chunks) + [fs[n]] by {
      assert fs == fs[..n] + [fs[n]];
    }
    FrameCallbacksAppend(ContentFrames(gen.chunks), [fs[n]]);
    ContentCallbacks(gen.chunks);
    assert FrameCallbacks([fs[n]]) == Dispatch(PayloadOf(fs[n])) + [];
  }

  /**
   * The round trip: however the server's events are cut into chunks, the browser decodes
   * one callback per non-empty generated chunk, in order, then the terminal callback (none
   * for an error with an empty text), and its buffer ends empty.
   */
  lemma StreamRoundTrip(req: ChatRequest, store: Store, gen: Generation, saveFailure: Option<string>, now: string,
                        cs: seq<string>)
    requires Concat(cs) == Events(ChatMessage(req, store, gen, saveFailure, now).frames)
    ensures FeedAll(Initial, cs) == Decoder("", ChunkCallbacks(gen.chunks) + TerminalCallbacks(gen, saveFailure))
  {
    var frames := ChatMessage(req, store, gen, saveFailure, now).frames;
    FeedAllText("", [], cs);
    assert "" + Concat(cs) == Events(frames);
    EventsDecode(frames);
    ReplyFrames(req, store, gen, saveFailure, now);
  }

  /** The chunk callbacks carry exactly the generated text. */
  lemma {:induction false} ChunkCallbacksText(chunks: seq<string>)
    ensures ChatController.OnlyChunks(ChunkCallbacks(chunks))
    ensures ChatController.ChunkText(ChunkCallbacks(chunks)) == Concat(chunks)
  {
    if |chunks| > 0 {
      var c := chunks[0];
      var rest := ChunkCallbacks(chunks[1..]);
      ChunkCallbacksText(chunks[1..]);
      if c != "" {
        var cbs := [OnChunk(c)] + rest;
        assert cbs[1..] == rest;
        assert ChatController.OnlyChunks(cbs) by {
          forall i | 0 <= i < |cbs| ensures cbs[i].OnChunk? {
            if i > 0 {
              assert cbs[i] == rest[i - 1];
            }
          }
        }
      } else {
        assert [] + rest == rest;
      }
    }
  }

  /** A reply that streams normally, read by a browser in chunks `cs`. */
  function Delivered(cs: seq<string>): seq<Callback>
  {
    Api.SendChatMessage(Api.Responded(Api.Response(true, 200, "OK", Api.Unparsable, Api.Stream(cs, Api.Clean))))
  }

  /** What the browser's client reports for a reply streamed in chunks `cs`. */
  lemma DeliveredReply(req: ChatRequest, store: Store, gen: Generation, saveFailure: Option<string>, now: string,
                       cs: seq<string>)
    requires Concat(cs) == Events(ChatMessage(req, store, gen, saveFailure, now).frames)
    ensures Delivered(cs) == ChunkCallbacks(gen.chunks) + TerminalCallbacks(gen, saveFailure)
  {
    StreamRoundTrip(req, store, gen, saveFailure, now, cs);
  }

  /**
   * End to end: the browser submits a question, the server answers with `chunks` and saves
   * the exchange, and the browser reads the stream in any chunking.  The server's session
   * gains the question and the answer; the browser's history gains the answer appended to
   * the history captured before the question, loading stops, and both sides hold the same
   * answer text.
   */
  lemma AnswerReachesBothSides(s: ChatController.Chat, message: string, ts: string, model: Option<string>,
                               w1: LocalStorage.WriteOutcome, store: Store, chunks: seq<string>, now: string,
                               cs: seq<string>, ts2: string, w2: LocalStorage.WriteOutcome,
                               codecs: ChatController.Codecs)
    requires ChatController.Accepts(s, message)
    requires Concat(cs) == Events(ChatMessage(ChatRequest(message, s.session.value.value, 5), store,
                                              Generation(chunks, None), None, now).frames)
    ensures var sub := ChatController.Submit(s, message, ts, model, w1, codecs);
            var s' := ChatController.Deliver(sub.state, sub.snapshot, Delivered(cs), ts2, w2, codecs);
            s'.messages.value == s.messages.value + [ChatController.Msg(ChatController.Assistant, Concat(chunks), ts2)]
            && !s'.isLoading
    ensures ParseChatRequest(Api.RequestBody(message, s.session.value.value))
            == Some(ChatRequest(message, s.session.value.value, 5))
    ensures var sid := s.session.value.value;
            var r := ChatMessage(ChatRequest(message, sid, 5), store, Generation(chunks, None), None, now);
            sid in r.store && r.store[sid].messages
            == PriorHistory(store, sid) + [StoredMsg("user", message), StoredMsg("assistant", Concat(chunks))]
  {
    var sid := s.session.value.value;
    var req := ChatRequest(message, sid, 5);
    BrowserSide(s, message, ts, model, w1, req, store, chunks, now, cs, ts2, w2, codecs);
    RequestRoundTrip(message, sid);
    SavedAfterDone(req, store, chunks, now);
  }

  lemma BrowserSide(s: ChatController.Chat, message: string, ts: string, model: Option<string>,
                    w1: LocalStorage.WriteOutcome, req: ChatRequest, store: Store, chunks: seq<string>, now: string,
                    cs: seq<string>, ts2: string, w2: LocalStorage.WriteOutcome, codecs: ChatController.Codecs)
    requires ChatController.Accepts(s, message)
    requires Concat(cs) == Events(ChatMessage(req, store, Generation(chunks, None), None, now).frames)
    ensures var sub := ChatController.Submit(s, message, ts, model, w1, codecs);
            var s' := ChatController.Deliver(sub.state, sub.snapshot, Delivered(cs), ts2, w2, codecs);
            s'.messages.value == s.messages.value + [ChatController.Msg(ChatController.Assistant, Concat(chunks), ts2)]
            && !s'.isLoading
  {
    var cbs := Delivered(cs);
    var body := ChunkCallbacks(chunks);
    DeliveredReply(req, store, Generation(chunks, None), None, now, cs);
    assert cbs == body + [OnComplete];
    ChunkCallbacksText(chunks);
    var sub := ChatController.Submit(s, message, ts, model, w1, codecs);
    ChatController.ChunksThenDone(sub.state, sub.snapshot, body, ts2, w2, codecs);
  }

  /**
   * An exception whose text is empty ends the stream with an error frame the browser
   * ignores: no terminal callback arrives and the browser stays loading.
   */
  lemma EmptyErrorLeavesLoading(s: ChatController.Chat, message: string, ts: string, model: Option<string>,
                                w1: LocalStorage.WriteOutcome, store: Store, chunks: seq<string>, now: string,
                                cs: seq<string>, ts2: string, w2: LocalStorage.WriteOutcome,
                                codecs: ChatController.Codecs)
    requires ChatController.Accepts(s, message)
    requires Concat(cs) == Events(ChatMessage(ChatRequest(message, s.session.value.value, 5), store,
                                              Generation(chunks, Some("")), None, now).frames)
    ensures var sub := ChatController.Submit(s, message, ts, model, w1, codecs);
            ChatController.Deliver(sub.state, sub.snapshot, Delivered(cs), ts2, w2, codecs).isLoading
  {
    var req := ChatRequest(message, s.session.value.value, 5);
    var sub := ChatController.Submit(s, message, ts, model, w1, codecs);
    var cbs := Delivered(cs);
    DeliveredReply(req, store, Generation(chunks, Some("")), None, now, cs);
    assert TerminalCallbacks(Generation(chunks, Some("")), None) == [];
    assert cbs == ChunkCallbacks(chunks) + [];
    ChunkCallbacksText(chunks);
    assert sub.state.isLoading;
    ChatController.ChunksAccumulate(sub.state, sub.snapshot, cbs, ts2, w2, codecs);
  }
}

=== FILE: document_store.dfy ===
/**
 * The document service: a JSON metadata file mapping document ids to their records, and the
 * extracted-text files beside it.  The disk is a map from paths to bytes plus the state of
 * the metadata file; the current time is an input.
 */
module DocumentStore {
  import opened Wrappers
  import opened Text
  import opened Utf8
  import Sorting

  datatype Status = Success | Failed | Pending

  /** One metadata record. */
  datatype DocMeta = DocMeta(id: string, filename: string, size: int, uploadDate: string,
                             filePath: string, textPath: string, status: Status)

  type Metadata = map<string, DocMeta>

  /** The metadata file: absent, present but not readable as JSON, or holding records. */
  datatype MetadataFile = Missing | Corrupt | Stored(entries: Metadata)

  datatype Disk = Disk(meta: MetadataFile, files: map<string, seq<Byte>>)

  const UploadDir: string := "uploads/files"
  const TextDir: string := "uploads/text"

  /** `load_metadata`: the stored records, or none when the file is missing or unreadable. */
  function LoadMetadata(f: MetadataFile): (m: Metadata)
    ensures f.Stored? ==> m == f.entries
    ensures !f.Stored? ==> m == map[]
  {
    match f
    case Stored(entries) => entries
    case _ => map[]
  }

  /** Where the text extracted from a document is kept: `uploads/text/<doc_id>.txt`. */
  function TextPath(docId: string): (p: string)
    ensures StartsWith(p, TextDir + "/") && EndsWith(p, ".txt")
    ensures |p| == |TextDir| + 1 + |docId| + 4 && p[|TextDir| + 1..|p| - 4] == docId
  {
    var p := TextDir + "/" + docId + ".txt";
    assert p[..|TextDir + "/"|] == TextDir + "/";
    assert p[|TextDir| + 1..|p| - 4] == docId;
    p
  }

  /** Different documents keep their text in different files. */
  lemma TextPathInjective(a: string, b: string)
    requires TextPath(a) == TextPath(b)
    ensures a == b
  {
  }

  /**
   * `save_document`: writes the text as UTF-8 to the document's text path, then stores the
   * record under `docId`, stamped with `now`, in the metadata as loaded.  A corrupt metadata
   * file is therefore replaced by one holding this record alone.
   */
  function SaveDocument(disk: Disk, docId: string, filename: string, size: int, filePath: string,
                        text: string, status: Status, now: string): (r: (DocMeta, Disk))
    ensures r.0.id == docId && r.0.filename == filename && r.0.size == size && r.0.uploadDate == now
    ensures r.0.filePath == filePath && r.0.textPath == TextPath(docId) && r.0.status == status
    ensures r.1.meta.Stored? && docId in r.1.meta.entries && r.1.meta.entries[docId] == r.0
    ensures r.1.meta.entries - {docId} == LoadMetadata(disk.meta) - {docId}
    ensures TextPath(docId) in r.1.files && r.1.files - {TextPath(docId)} == disk.files - {TextPath(docId)}
    ensures Valid(r.1.files[TextPath(docId)]) && Decode(r.1.files[TextPath(docId)]) == text
  {
    var entry := DocMeta(docId, filename, size, now, filePath, TextPath(docId), status);
    DecodeEncode(text);
    (entry, Disk(Stored(LoadMetadata(disk.meta)[docId := entry]), disk.files[TextPath(docId) := Encode(text)]))
  }

  /** `get_document`. */
  function GetDocument(f: MetadataFile, docId: string): (r: Option<DocMeta>)
    ensures r.Some? <==> docId in LoadMetadata(f)
    ensures r.Some? ==> r.value == LoadMetadata(f)[docId]
  {
    var m := LoadMetadata(f);
    if docId in m then Some(m[docId]) else None
  }

  /** `x` may be listed before `y`: it is at least as recent (ISO dates compare as text). */
  predicate NewerFirst(x: DocMeta, y: DocMeta)
  {
    StrLe(y.uploadDate, x.uploadDate)
  }

  lemma NewerFirstTotal()
    ensures Sorting.Total(NewerFirst)
  {
    forall x: DocMeta, y: DocMeta
      ensures NewerFirst(x, y) || NewerFirst(y, x)
    {
      StrLeTotal(x.uploadDate, y.uploadDate);
    }
  }

  lemma NewerFirstTransitive()
    ensures Sorting.Transitive(NewerFirst)
  {
    forall x: DocMeta, y: DocMeta, z: DocMeta | NewerFirst(x, y) && NewerFirst(y, z)
      ensures NewerFirst(x, z)
    {
      StrLeTransitive(z.uploadDate, y.uploadDate, x.uploadDate);
    }
  }

  /** `order` lists the keys of `m` once each: the order of the JSON object's members. */
  predicate KeyOrder(m: Metadata, order: seq<string>)
  {
    |order| == |m.Keys|
    && (forall i :: 0 <= i < |order| ==> order[i] in m)
    && (forall i, j :: 0 <= i < j < |order| ==> order[i] != order[j])
  }

  function ValuesInOrder(m: Metadata, order: seq<string>): (vs: seq<DocMeta>)
    requires forall i :: 0 <= i < |order| ==> order[i] in m
    ensures |vs| == |order| && forall i :: 0 <= i < |order| ==> vs[i] == m[order[i]]
  {
    seq(|order|, i requires 0 <= i < |order| => m[order[i]])
  }

  /**
   * `list_documents`: every record, newest first.  `order` is the metadata's key order, the
   * order the records are sorted from.
   */
  function ListDocuments(f: MetadataFile, order: seq<string>): (docs: seq<DocMeta>)
    requires KeyOrder(LoadMetadata(f), order)
    ensures multiset(docs) == multiset(ValuesInOrder(LoadMetadata(f), order))
    ensures |docs| == |LoadMetadata(f)|
    ensures forall i, j :: 0 <= i < j < |docs| ==> StrLe(docs[j].uploadDate, docs[i].uploadDate)
  {
    var vs := ValuesInOrder(LoadMetadata(f), order);
    NewerFirstTotal();
    NewerFirstTransitive();
    var docs := Sorting.Sort(vs, NewerFirst);
    Sorting.SortedEverywhere(docs, NewerFirst);
    assert |docs| == |multiset(docs)| == |multiset(vs)| == |vs|;
    docs
  }

  /** Every record appears in the listing, and the listing holds nothing else. */
  lemma ListingHoldsEveryRecord(f: MetadataFile, order: seq<string>)
    requires KeyOrder(LoadMetadata(f), order)
    ensures forall d :: d in ListDocuments(f, order) <==> d in LoadMetadata(f).Values
  {
    var m := LoadMetadata(f);
    var docs := ListDocuments(f, order);
    var vs := ValuesInOrder(m, order);
    forall d
      ensures d in docs <==> d in m.Values
    {
      calc {
        d in docs;
        multiset(docs)[d] > 0;
        multiset(vs)[d] > 0;
        d in vs;
      }
      if d in m.Values {
        var k :| k in m && m[k] == d;
        KeyListed(m, order, k);
      }
    }
  }

  /** A key order of `m` mentions each key of `m`. */
  lemma KeyListed(m: Metadata, order: seq<string>, k: string)
    requires KeyOrder(m, order) && k in m
    ensures k in order
  {
    var listed := set i | 0 <= i < |order| :: order[i];
    assert listed <= m.Keys;
    DistinctCount(order);
    SameSizeSubset(listed, m.Keys);
    assert k in listed;
  }

  /** A subset as large as the whole set is the whole set. */
  lemma SameSizeSubset(a: set<string>, b: set<string>)
    requires a <= b && |a| == |b|
    ensures a == b
  {
    var rest := b - a;
    assert b == a + rest && a !! rest;
    assert |rest| == 0;
  }

  /** A sequence of distinct strings has as many different elements as positions. */
  lemma {:induction false} DistinctCount(s: seq<string>)
    requires forall i, j :: 0 <= i < j < |s| ==> s[i] != s[j]
    ensures |set i | 0 <= i < |s| :: s[i]| == |s|
    decreases |s|
  {
    if |s| > 0 {
      var t := s[..|s| - 1];
      DistinctCount(t);
      var st := set i | 0 <= i < |t| :: t[i];
      var ss := set i | 0 <= i < |s| :: s[i];
      assert ss == st + {s[|s| - 1]};
      assert s[|s| - 1] !in st;
    }
  }

  /**
   * `delete_document`: an unknown id changes nothing; a known one loses its record, its
   * uploaded file and its text file, and nothing else changes.
   */
  function DeleteDocument(disk: Disk, docId: string): (r: (bool, Disk))
    ensures r.0 <==> docId in LoadMetadata(disk.meta)
    ensures !r.0 ==> r.1 == disk
    ensures r.0 ==> r.1.meta == Stored(LoadMetadata(disk.meta) - {docId})
    ensures r.0 ==> var d := LoadMetadata(disk.meta)[docId];
                    r.1.files == disk.files - {d.filePath, d.textPath}
  {
    var m := LoadMetadata(disk.meta);
    if docId !in m then (false, disk)
    else
      var d := m[docId];
      (true, Disk(Stored(m - {docId}), disk.files - {d.filePath, d.textPath}))
  }

  /** A saved document reads back, and deleting it makes it unknown again. */
  lemma SaveGetDelete(disk: Disk, docId: string, filename: string, size: int, filePath: string,
                      text: string, status: Status, now: string)
    ensures var saved := SaveDocument(disk, docId, filename, size, filePath, text, status, now);
            GetDocument(saved.1.meta, docId) == Some(saved.0)
            && DeleteDocument(saved.1, docId).0
            && GetDocument(DeleteDocument(saved.1, docId).1.meta, docId).None?
  {
  }

  /** Deleting twice: the second deletion finds nothing. */
  lemma DeleteTwice(disk: Disk, docId: string)
    ensures !DeleteDocument(DeleteDocument(disk, docId).1, docId).0
  {
  }
}

=== FILE: documents_api.dfy ===
/**
 * The document endpoints: the upload pipeline (extension check, stored name, streamed write
 * with a running size limit, content check, text extraction, metadata record), the public
 * listing and deletion.  The client's stream of reads, the failures of file operations, the
 * new document id, the clock and what the text readers return are inputs.
 */
module DocumentsApi {
  import opened Wrappers
  import opened Text
  import opened Utf8
  import opened Http
  import opened FileValidator
  import opened Variants
  import DocumentStore

  // ---------------------------------------------------------------------------------------
  // File-name extension
  // ---------------------------------------------------------------------------------------

  /** Some character of `s` is not a dot. */
  predicate HasNonDot(s: string)
  {
    exists i :: 0 <= i < |s| && s[i] != '.'
  }

  /**
   * The extension half of POSIX `os.path.splitext`: from the last dot of the base name to
   * the end, unless every character of the base name before that dot is a dot (then "").
   */
  function SplitExtension(p: string): (ext: string)
    ensures ext == "" || (ext[0] == '.' && EndsWith(p, ext))
    ensures forall i :: 0 < i < |ext| ==> ext[i] != '.' && ext[i] != '/'
  {
    var sep := LastIndexOf(p, '/');
    var dot := LastIndexOf(p, '.');
    if dot > sep && HasNonDot(p[sep + 1..dot]) then
      SuffixAfterLast(p, dot, sep);
      p[dot..]
    else ""
  }

  /** The text from the last dot on, when that dot follows the last slash. */
  lemma SuffixAfterLast(p: string, dot: int, sep: int)
    requires dot == LastIndexOf(p, '.') && sep == LastIndexOf(p, '/') && sep < dot
    ensures p[dot..][0] == '.' && EndsWith(p, p[dot..])
    ensures forall i :: 0 < i < |p[dot..]| ==> p[dot..][i] != '.' && p[dot..][i] != '/'
  {
    var ext := p[dot..];
    forall i | 0 < i < |ext|
      ensures ext[i] != '.' && ext[i] != '/'
    {
      assert ext[i] == p[dot + i];
    }
  }

  /** The extension as the endpoint computes it: `splitext(filename)[1].lower()`. */
  function AsWrittenExtension(filename: string): (ext: string)
    ensures ext == "" || (ext[0] == '.' && EndsWith(Lower(filename), ext))
  {
    var e := SplitExtension(filename);
    LowerEndsWith(filename, e);
    Lower(e)
  }

  /** Lower-casing keeps a suffix a suffix. */
  lemma LowerEndsWith(s: string, t: string)
    requires EndsWith(s, t)
    ensures EndsWith(Lower(s), Lower(t))
  {
    LowerAppend(s[..|s| - |t|], t);
    assert s == s[..|s| - |t|] + t;
  }

  /**
   * The extension the upload keeps: the allowed extension the validated name ends with.  It
   * agrees with `AsWrittenExtension` except when nothing but dots precedes it in the base name.
   */
  function UploadExtension(filename: string): (ext: string)
    requires ValidExtension(filename)
    ensures ext in AllowedExtensions && EndsWith(Lower(filename), ext)
  {
    MatchedExtension(filename).value
  }

  /** The base name holds something other than dots in front of its allowed extension. */
  predicate NamedBeforeExtension(filename: string)
    requires ValidExtension(filename)
  {
    var k := |filename| - |UploadExtension(filename)|;
    LastIndexOf(filename, '/') < k && HasNonDot(filename[LastIndexOf(filename, '/') + 1..k])
  }

  /** Lower-casing gives a dot exactly for a dot and a lower-case letter only for a letter. */
  lemma LowerCharFacts(c: char)
    ensures LowerChar(c) == '.' <==> c == '.'
    ensures 'a' <= LowerChar(c) <= 'z' ==> c != '.' && c != '/'
  {
  }

  /** A dot followed by lower-case letters, as every allowed extension is. */
  predicate DotLetters(e: string)
  {
    |e| >= 2 && e[0] == '.' && forall i :: 0 < i < |e| ==> 'a' <= e[i] <= 'z'
  }

  lemma AllowedDotLetters(e: string)
    requires e in AllowedExtensions
    ensures DotLetters(e)
  {
  }

  /** The name ends in a dot followed by letters only: the extension, in any case. */
  lemma ExtensionTail(f: string, e: string)
    requires DotLetters(e) && EndsWith(Lower(f), e)
    ensures |e| <= |f| && f[|f| - |e|] == '.'
    ensures forall j :: |f| - |e| < j < |f| ==> f[j] != '.' && f[j] != '/'
  {
    var k := |f| - |e|;
    var low := Lower(f);
    assert low[k..] == e;
    assert low[k] == e[0] == '.';
    LowerCharFacts(f[k]);
    forall j | k < j < |f|
      ensures f[j] != '.' && f[j] != '/'
    {
      assert low[j] == e[j - k];
      assert 'a' <= e[j - k] <= 'z';
      LowerCharFacts(f[j]);
    }
  }

  /** A dot with neither dots nor slashes after it is the last dot, after the last slash. */
  lemma LastDotAt(f: string, k: nat)
    requires k < |f| && f[k] == '.'
    requires forall j :: k < j < |f| ==> f[j] != '.' && f[j] != '/'
    ensures LastIndexOf(f, '.') == k && LastIndexOf(f, '/') < k
  {
  }

  /** The name's last characters, lower-cased, are the extension it ends with. */
  lemma LowerTail(filename: string, e: string)
    requires EndsWith(Lower(filename), e)
    ensures Lower(filename[|filename| - |e|..]) == e
  {
    LowerSuffix(filename, |filename| - |e|);
  }

  /**
   * The extension as written equals the allowed extension exactly when a non-dot character
   * precedes it in the base name; otherwise it is empty.
   */
  lemma AsWrittenAgrees(filename: string)
    requires ValidExtension(filename)
    ensures AsWrittenExtension(filename) == UploadExtension(filename) <==> NamedBeforeExtension(filename)
    ensures !NamedBeforeExtension(filename) ==> AsWrittenExtension(filename) == ""
  {
    var e := UploadExtension(filename);
    var k := |filename| - |e|;
    AllowedDotLetters(e);
    ExtensionTail(filename, e);
    LastDotAt(filename, k);
    var named := HasNonDot(filename[LastIndexOf(filename, '/') + 1..k]);
    assert NamedBeforeExtension(filename) == named;
    if named {
      assert SplitExtension(filename) == filename[k..];
      LowerTail(filename, e);
    } else {
      assert SplitExtension(filename) == "";
    }
  }

  /**
   * A file called `.pdf` passes the extension check, yet the endpoint as written stores it
   * without an extension and asks for no text extraction.
   */
  lemma DotOnlyNameLosesExtension()
    ensures ValidExtension(".pdf")
    ensures AsWrittenExtension(".pdf") == ""
    ensures ExtractorFor(AsWrittenExtension(".pdf")) == NoExtractor
    ensures UploadExtension(".pdf") == ".pdf" && ExtractorFor(UploadExtension(".pdf")) == PdfReader
  {
    assert Lower(".pdf") == ".pdf";
    assert LastIndexOf(".pdf", '/') == -1;
    assert ".pdf"[0] == '.' && ".pdf"[1] == 'p' && ".pdf"[2] == 'd' && ".pdf"[3] == 'f';
    assert LastIndexOf(".pdf", '.') == 0;
    assert !HasNonDot(".pdf"[0..0]);
  }

  /**
   * The extension the upload stores the file under and extracts by: `splitext`'s as written,
   * the validated one as intended.  The two agree unless only dots precede the extension.
   */
  function StoredExtension(v: Variant, filename: string): (ext: string)
    requires ValidExtension(filename)
    ensures ext == "" || (ext[0] == '.' && EndsWith(Lower(filename), ext))
    ensures v == Intended ==> ext in AllowedExtensions
    ensures NamedBeforeExtension(filename) ==> ext == UploadExtension(filename)
    ensures !NamedBeforeExtension(filename) && v == AsWritten ==> ext == ""
  {
    AsWrittenAgrees(filename);
    if v == AsWritten then AsWrittenExtension(filename) else UploadExtension(filename)
  }

  /**
   * As the program is written, an upload called `.pdf` is stored under its bare id and its
   * extraction fails whatever the file holds; as intended it is read as a PDF.
   */
  lemma DotOnlyUploadAsWritten(docId: string, read: Extraction)
    ensures ValidExtension(".pdf")
    ensures StoredPath(docId, StoredExtension(AsWritten, ".pdf")) == DocumentStore.UploadDir + "/" + docId
    ensures ExtractionResult(StoredExtension(AsWritten, ".pdf"), read) == ("", DocumentStore.Failed)
    ensures StoredExtension(Intended, ".pdf") == ".pdf"
  {
    DotOnlyNameLosesExtension();
    assert DocumentStore.UploadDir + "/" + docId + "" == DocumentStore.UploadDir + "/" + docId;
  }

  /** The stored file's name: the document id followed by the extension. */
  function StoredPath(docId: string, ext: string): (p: string)
    ensures StartsWith(p, DocumentStore.UploadDir + "/") && EndsWith(p, ext)
    ensures |p| == |DocumentStore.UploadDir| + 1 + |docId| + |ext|
    ensures p[|DocumentStore.UploadDir| + 1..|p| - |ext|] == docId
  {
    var p := DocumentStore.UploadDir + "/" + docId + ext;
    assert p[..|DocumentStore.UploadDir + "/"|] == DocumentStore.UploadDir + "/";
    assert p[|DocumentStore.UploadDir| + 1..|p| - |ext|] == docId;
    p
  }

  // ---------------------------------------------------------------------------------------
  // Text extraction dispatch
  // ---------------------------------------------------------------------------------------

  datatype Extractor = PdfReader | TextReader | NoExtractor

  /** `extract_text`'s choice of reader by extension. */
  function ExtractorFor(ext: string): (x: Extractor)
    ensures x == PdfReader <==> ext == ".pdf"
    ensures x == TextReader <==> ext == ".txt" || ext == ".md"
  {
    if ext == ".pdf" then PdfReader
    else if ext == ".txt" || ext == ".md" then TextReader
    else NoExtractor
  }

  /** Every allowed extension has a reader. */
  lemma AllowedHaveReaders(ext: string)
    requires ext in AllowedExtensions
    ensures ExtractorFor(ext) != NoExtractor
  {
  }

  /** What the chosen reader gave back, or that the extraction call raised. */
  datatype Extraction = Extracted(text: string) | ExtractionRaised

  /**
   * The text kept for a document and its extraction status: the reader's text when there is
   * a reader; "success" exactly when that text is non-empty.
   */
  function ExtractionResult(ext: string, read: Extraction): (r: (string, DocumentStore.Status))
    ensures r.1 == DocumentStore.Success <==> r.0 != ""
    ensures r.1 != DocumentStore.Pending
    ensures r.0 != "" ==> ExtractorFor(ext) != NoExtractor && read == Extracted(r.0)
  {
    if ExtractorFor(ext) == NoExtractor then ("", DocumentStore.Failed)
    else match read
      case ExtractionRaised => ("", DocumentStore.Failed)
      case Extracted(t) => (t, if t != "" then DocumentStore.Success else DocumentStore.Failed)
  }

  // ---------------------------------------------------------------------------------------
  // Streaming the upload to disk
  // ---------------------------------------------------------------------------------------

  /** The read size: 1 MB. */
  const ChunkSize: nat := 1024 * 1024

  /**
   * Where a file operation raises during the write: opening the target, the read that starts
   * iteration `at`, or the write of chunk `at`.
   */
  datatype Fault = NoFault | OpenFails(msg: string) | ReadFails(at: nat, msg: string)
                 | WriteFails(at: nat, msg: string)

  /** `MAX_FILE_SIZE / (1024 * 1024)` is the float 10.0, printed as "10.0". */
  const TooLarge: HttpError := HttpError(413, "File too large. Maximum size: 10.0 MB")

  function SaveError(msg: string): HttpError
  {
    HttpError(500, "Error saving file: " + msg)
  }

  /** The first read from `i` on that comes back empty, or the end of the reads. */
  function EofIndex(incoming: seq<seq<Byte>>, i: nat): (r: nat)
    requires i <= |incoming|
    ensures i <= r <= |incoming| && (r < |incoming| ==> incoming[r] == [])
    ensures forall j :: i <= j < r ==> incoming[j] != []
    decreases |incoming| - i
  {
    if i == |incoming| || incoming[i] == [] then i else EofIndex(incoming, i + 1)
  }

  /** The chunks the loop receives: the incoming up to the first empty one. */
  function Taken(incoming: seq<seq<Byte>>): (c: seq<seq<Byte>>)
    ensures |c| <= |incoming| && c == incoming[..|c|]
    ensures forall j :: 0 <= j < |c| ==> c[j] != []
  {
    incoming[..EofIndex(incoming, 0)]
  }

  /** The chunks one after the other. */
  function Flatten(c: seq<seq<Byte>>): seq<Byte>
  {
    if |c| == 0 then [] else Flatten(c[..|c| - 1]) + c[|c| - 1]
  }

  /** Appending chunks never shrinks the total. */
  lemma {:induction false} FlattenPrefixGrows(c: seq<seq<Byte>>, i: nat, j: nat)
    requires i <= j <= |c|
    ensures |Flatten(c[..i])| <= |Flatten(c[..j])|
    decreases j - i
  {
    if i < j {
      assert c[..j][..j - 1] == c[..j - 1];
      FlattenPrefixGrows(c, i, j - 1);
    }
  }

  /**
   * Scanning from chunk `i` with the total so far within `limit`: the first chunk whose
   * arrival pushes the total above `limit`, if any.
   */
  function FirstOverFrom(c: seq<seq<Byte>>, i: nat, limit: nat): (r: Option<nat>)
    requires i <= |c| && |Flatten(c[..i])| <= limit
    ensures r.Some? ==> i <= r.value < |c|
                        && |Flatten(c[..r.value])| <= limit < |Flatten(c[..r.value + 1])|
    ensures r.None? ==> |Flatten(c)| <= limit
    decreases |c| - i
  {
    if i == |c| then
      assert c[..i] == c;
      None
    else if |Flatten(c[..i + 1])| > limit then Some(i)
    else FirstOverFrom(c, i + 1, limit)
  }

  /** The chunk at which the size check aborts the upload, if any. */
  function FirstOver(c: seq<seq<Byte>>): Option<nat>
  {
    assert c[..0] == [];
    FirstOverFrom(c, 0, MaxFileSize)
  }

  /** The size check fires at a chunk before `k`. */
  predicate OverBefore(c: seq<seq<Byte>>, k: nat)
  {
    FirstOver(c).Some? && FirstOver(c).value < k
  }

  /** The result of a write that meets no exception: too large, or the total size. */
  function Completed(c: seq<seq<Byte>>): Result<nat, HttpError>
  {
    if FirstOver(c).Some? then Err(TooLarge) else Ok(|Flatten(c)|)
  }

  /**
   * The outcome of the write loop, stated step by step: an exception raised by an operation
   * the loop reaches gives a 500, otherwise the size check decides.
   */
  function ReceiveOutcome(incoming: seq<seq<Byte>>, fault: Fault): (r: Result<nat, HttpError>)
    ensures r.Err? ==> r.error == TooLarge || r.error.status == 500
  {
    var c := Taken(incoming);
    match fault
    case NoFault => Completed(c)
    case OpenFails(m) => Err(SaveError(m))
    case ReadFails(at, m) => if at <= |c| && !OverBefore(c, at) then Err(SaveError(m)) else Completed(c)
    case WriteFails(at, m) => if at < |c| && !OverBefore(c, at + 1) then Err(SaveError(m)) else Completed(c)
  }

  /**
   * The write loop of the upload endpoint.  Reads come back until one is empty; each chunk is
   * counted, and when the running size exceeds the limit the partial file is removed and the
   * upload refused with 413 before the chunk is written.  Any other exception removes the file
   * and gives 500.  On success the file holds exactly the received bytes.
   */
  method ReceiveFile(files: map<string, seq<Byte>>, path: string, incoming: seq<seq<Byte>>, fault: Fault)
    returns (r: Result<nat, HttpError>, files': map<string, seq<Byte>>)
    ensures r == ReceiveOutcome(incoming, fault)
    ensures r.Ok? ==> files' == files[path := Flatten(Taken(incoming))]
    ensures r.Err? ==> files' == files - {path}
  {
    var c := Taken(incoming);
    if fault.OpenFails? {
      return Err(SaveError(fault.msg)), files - {path};
    }
    var n := EofIndex(incoming, 0);
    var content: seq<Byte> := [];
    var size: nat := 0;
    var i: nat := 0;
    assert c[..0] == [];
    while true
      invariant i <= n && n == |c|
      invariant content == Flatten(c[..i]) && size == |content| <= MaxFileSize
      invariant FirstOver(c) == FirstOverFrom(c, i, MaxFileSize)
      invariant Reached(c, fault, i)
      decreases n - i
    {
      if fault.ReadFails? && fault.at == i {
        ExitOnRead(incoming, fault, i);
        return Err(SaveError(fault.msg)), files - {path};
      }
      if i == n {
        break;
      }
      var chunk := incoming[i];
      assert chunk == c[i];
      assert c[..i + 1][..i] == c[..i];
      size := size + |chunk|;
      if size > MaxFileSize {
        ExitOnSize(incoming, fault, i);
        return Err(TooLarge), files - {path};
      }
      if fault.WriteFails? && fault.at == i {
        ExitOnWrite(incoming, fault, i);
        return Err(SaveError(fault.msg)), files - {path};
      }
      content := content + chunk;
      i := i + 1;
    }
    assert c[..i] == c;
    ExitAtEnd(incoming, fault);
    return Ok(size), files[path := content];
  }

  /** The loop reaches iteration `i`: nothing raised and the size check passed before it. */
  predicate Reached(c: seq<seq<Byte>>, fault: Fault, i: nat)
  {
    !fault.OpenFails?
    && (fault.ReadFails? ==> fault.at >= i)
    && (fault.WriteFails? ==> fault.at >= i)
    && !OverBefore(c, i)
  }

  lemma ExitOnRead(incoming: seq<seq<Byte>>, fault: Fault, i: nat)
    requires Reached(Taken(incoming), fault, i) && i <= |Taken(incoming)|
    requires fault.ReadFails? && fault.at == i
    ensures ReceiveOutcome(incoming, fault) == Err(SaveError(fault.msg))
  {
  }

  lemma ExitOnSize(incoming: seq<seq<Byte>>, fault: Fault, i: nat)
    requires Reached(Taken(incoming), fault, i) && i < |Taken(incoming)|
    requires FirstOver(Taken(incoming)) == Some(i) && !(fault.ReadFails? && fault.at == i)
    ensures ReceiveOutcome(incoming, fault) == Err(TooLarge)
  {
  }

  lemma ExitOnWrite(incoming: seq<seq<Byte>>, fault: Fault, i: nat)
    requires Reached(Taken(incoming), fault, i) && i < |Taken(incoming)|
    requires FirstOver(Taken(incoming)) != Some(i) && fault.WriteFails? && fault.at == i
    ensures ReceiveOutcome(incoming, fault) == Err(SaveError(fault.msg))
  {
  }

  lemma ExitAtEnd(incoming: seq<seq<Byte>>, fault: Fault)
    requires Reached(Taken(incoming), fault, |Taken(incoming)|)
    requires !(fault.ReadFails? && fault.at == |Taken(incoming)|)
    ensures ReceiveOutcome(incoming, fault) == Ok(|Flatten(Taken(incoming))|)
  {
  }

  /** Without exceptions the upload is refused with 413 exactly when its total exceeds 10 MB. */
  lemma TooLargeExactly(incoming: seq<seq<Byte>>)
    ensures ReceiveOutcome(incoming, NoFault).Err? <==> |Flatten(Taken(incoming))| > MaxFileSize
    ensures ReceiveOutcome(incoming, NoFault).Err? ==> ReceiveOutcome(incoming, NoFault) == Err(TooLarge)
    ensures ReceiveOutcome(incoming, NoFault).Ok? ==> ReceiveOutcome(incoming, NoFault).value == |Flatten(Taken(incoming))|
  {
    var c := Taken(incoming);
    if FirstOver(c).Some? {
      var k := FirstOver(c).value;
      FlattenPrefixGrows(c, k + 1, |c|);
      assert c[..|c|] == c;
    }
  }

  /** An accepted upload's recorded size is the total received, at most 10 MB, whatever failed. */
  lemma AcceptedWithinLimit(incoming: seq<seq<Byte>>, fault: Fault)
    requires ReceiveOutcome(incoming, fault).Ok?
    ensures ReceiveOutcome(incoming, fault).value == |Flatten(Taken(incoming))| <= MaxFileSize
  {
    TooLargeExactly(incoming);
  }

  // ---------------------------------------------------------------------------------------
  // The endpoints
  // ---------------------------------------------------------------------------------------

  const InvalidType: HttpError := HttpError(400, "Invalid file type. Allowed: .pdf, .txt, .md")
  const InvalidContent: HttpError :=
    HttpError(400, "Invalid file content. File does not match expected type.")

  /** `UploadResponse` and the public listing entry: the record without paths or status. */
  datatype DocumentResponse = DocumentResponse(id: string, filename: string, size: int, uploadDate: string)

  function Public(d: DocumentStore.DocMeta): (r: DocumentResponse)
    ensures r.id == d.id && r.filename == d.filename && r.size == d.size && r.uploadDate == d.uploadDate
  {
    DocumentResponse(d.id, d.filename, d.size, d.uploadDate)
  }

  /**
   * Everything the upload meets from outside: the new document id, the time, the file
   * failures, whether reopening the file for the content check raises, and what the
   * extraction returns.
   */
  datatype UploadEnv = UploadEnv(docId: string, now: string, fault: Fault, reopenFails: bool,
                                 read: Extraction)

  /**
   * `upload_document`, with the extension computed as written or as intended.  The extension
   * is checked before anything is written; the file goes to `uploads/files/<id><ext>`; after
   * the write loop the content check runs on the stored bytes; a refused file is removed; an
   * accepted one gets its text extracted and its record saved.
   */
  method Upload(v: Variant, disk: DocumentStore.Disk, filename: string, incoming: seq<seq<Byte>>, env: UploadEnv)
    returns (r: Result<DocumentResponse, HttpError>, disk': DocumentStore.Disk)
    ensures !ValidExtension(filename) ==> r == Err(InvalidType) && disk' == disk
    ensures ValidExtension(filename) && ReceiveOutcome(incoming, env.fault).Err? ==>
              r == Err(ReceiveOutcome(incoming, env.fault).error)
              && disk' == disk.(files := disk.files - {StoredPath(env.docId, StoredExtension(v, filename))})
    ensures r.Err? && r.error == InvalidContent ==>
              disk' == disk.(files := disk.files - {StoredPath(env.docId, StoredExtension(v, filename))})
    ensures ValidExtension(filename) && ReceiveOutcome(incoming, env.fault).Ok? ==>
              (r.Ok? <==> !env.reopenFails && ValidateMagic(Some(Flatten(Taken(incoming)))))
    ensures ValidExtension(filename) && ReceiveOutcome(incoming, env.fault).Ok? && r.Err? ==>
              r.error == InvalidContent
    ensures r.Ok? ==> ValidExtension(filename) && ReceiveOutcome(incoming, env.fault).Ok?
    ensures r.Ok? ==> OnlyDocumentChanged(disk, disk', env.docId, StoredPath(env.docId, StoredExtension(v, filename)))
    ensures r.Ok? ==> r.value == DocumentResponse(env.docId, filename, |Flatten(Taken(incoming))|, env.now)
    ensures r.Ok? ==> StoredPath(env.docId, StoredExtension(v, filename)) in disk'.files
    ensures r.Ok? ==> disk'.files[StoredPath(env.docId, StoredExtension(v, filename))] == Flatten(Taken(incoming))
    ensures r.Ok? ==> DocumentStore.GetDocument(disk'.meta, env.docId) == Some(DocumentStore.DocMeta(
              env.docId, filename, |Flatten(Taken(incoming))|, env.now,
              StoredPath(env.docId, StoredExtension(v, filename)), DocumentStore.TextPath(env.docId),
              ExtractionResult(StoredExtension(v, filename), env.read).1))
  {
    if !ValidExtension(filename) {
      return Err(InvalidType), disk;
    }
    var ext := StoredExtension(v, filename);
    r, disk' := StoreAndCheck(disk, StoredPath(env.docId, ext), ext, filename, incoming, env);
  }

  /**
   * The upload once its name has passed: the write loop to `path`, then the content check and,
   * when it passes, the extraction and the record.
   */
  method StoreAndCheck(disk: DocumentStore.Disk, path: string, ext: string, filename: string,
                       incoming: seq<seq<Byte>>, env: UploadEnv)
    returns (r: Result<DocumentResponse, HttpError>, disk': DocumentStore.Disk)
    requires path == StoredPath(env.docId, ext)
    ensures ReceiveOutcome(incoming, env.fault).Err? ==>
              r == Err(ReceiveOutcome(incoming, env.fault).error) && disk' == disk.(files := disk.files - {path})
    ensures ReceiveOutcome(incoming, env.fault).Ok? ==>
              (r.Ok? <==> !env.reopenFails && ValidateMagic(Some(Flatten(Taken(incoming)))))
    ensures ReceiveOutcome(incoming, env.fault).Ok? && r.Err? ==>
              r.error == InvalidContent && disk' == disk.(files := disk.files - {path})
    ensures r.Ok? ==> ReceiveOutcome(incoming, env.fault).Ok? && OnlyDocumentChanged(disk, disk', env.docId, path)
    ensures r.Ok? ==> r.value == DocumentResponse(env.docId, filename, |Flatten(Taken(incoming))|, env.now)
    ensures r.Ok? ==> path in disk'.files && disk'.files[path] == Flatten(Taken(incoming))
    ensures r.Ok? ==> DocumentStore.GetDocument(disk'.meta, env.docId) == Some(DocumentStore.DocMeta(
              env.docId, filename, |Flatten(Taken(incoming))|, env.now, path, DocumentStore.TextPath(env.docId),
              ExtractionResult(ext, env.read).1))
  {
    var received, files := ReceiveFile(disk.files, path, incoming, env.fault);
    if received.Err? {
      return Err(received.error), disk.(files := files);
    }
    assert files[path] == Flatten(Taken(incoming));
    r, disk' := CheckContent(disk.(files := files), path, filename, received.value, ext, env);
    if r.Ok? {
      WrittenThenOnly(disk, files, disk', env.docId, path);
    }
  }

  /**
   * The steps after the write loop: the stored file is reopened and checked; a refused file is
   * removed and the upload answered with 400, an accepted one goes on to `Accept`.
   */
  method CheckContent(disk: DocumentStore.Disk, path: string, filename: string, size: nat, ext: string,
                      env: UploadEnv) returns (r: Result<DocumentResponse, HttpError>, disk': DocumentStore.Disk)
    requires path == StoredPath(env.docId, ext) && path in disk.files
    ensures r.Ok? <==> !env.reopenFails && ValidateMagic(Some(disk.files[path]))
    ensures r.Err? ==> r.error == InvalidContent && disk' == disk.(files := disk.files - {path})
    ensures r.Ok? ==> r.value == DocumentResponse(env.docId, filename, size, env.now)
    ensures r.Ok? ==> path in disk'.files && disk'.files[path] == disk.files[path]
    ensures r.Ok? ==> DocumentStore.GetDocument(disk'.meta, env.docId) == Some(DocumentStore.DocMeta(
              env.docId, filename, size, env.now, path, DocumentStore.TextPath(env.docId),
              ExtractionResult(ext, env.read).1))
    ensures r.Ok? ==> OnlyDocumentChanged(disk, disk', env.docId, path)
  {
    var stored := if env.reopenFails then None else Some(disk.files[path]);
    if !ValidateMagic(stored) {
      return Err(InvalidContent), disk.(files := disk.files - {path});
    }
    var accepted := Accept(disk, filename, size, ext, env);
    return Ok(accepted.0), accepted.1;
  }

  /** Writing the document's own file first does not widen what changed. */
  lemma WrittenThenOnly(disk: DocumentStore.Disk, files: map<string, seq<Byte>>, disk': DocumentStore.Disk,
                        docId: string, path: string)
    requires files - {path} == disk.files - {path}
    requires OnlyDocumentChanged(disk.(files := files), disk', docId, path)
    ensures OnlyDocumentChanged(disk, disk', docId, path)
  {
    var gone := {path, DocumentStore.TextPath(docId)};
    assert files - gone == (files - {path}) - gone;
    assert disk.files - gone == (disk.files - {path}) - gone;
  }

  /**
   * The last steps of an accepted upload: the text is extracted by the extension, the record
   * is saved next to the stored file, and its public part is the answer.
   */
  function Accept(disk: DocumentStore.Disk, filename: string, size: nat, ext: string, env: UploadEnv)
    : (r: (DocumentResponse, DocumentStore.Disk))
    requires StoredPath(env.docId, ext) in disk.files
    ensures r.0 == DocumentResponse(env.docId, filename, size, env.now)
    ensures StoredPath(env.docId, ext) in r.1.files
    ensures r.1.files[StoredPath(env.docId, ext)] == disk.files[StoredPath(env.docId, ext)]
    ensures DocumentStore.GetDocument(r.1.meta, env.docId) == Some(DocumentStore.DocMeta(
              env.docId, filename, size, env.now, StoredPath(env.docId, ext), DocumentStore.TextPath(env.docId),
              ExtractionResult(ext, env.read).1))
    ensures OnlyDocumentChanged(disk, r.1, env.docId, StoredPath(env.docId, ext))
  {
    var path := StoredPath(env.docId, ext);
    var extracted := ExtractionResult(ext, env.read);
    var saved := DocumentStore.SaveDocument(disk, env.docId, filename, size, path, extracted.0, extracted.1, env.now);
    StoredAndTextPathsDiffer(env.docId, ext);
    assert saved.1.files[path] == disk.files[path];
    (Public(saved.0), saved.1)
  }

  /**
   * Between `disk` and `disk'` only the document `docId` changed: its record, its stored file
   * at `path` and its extracted-text file.
   */
  predicate OnlyDocumentChanged(disk: DocumentStore.Disk, disk': DocumentStore.Disk, docId: string, path: string)
  {
    disk'.files - {path, DocumentStore.TextPath(docId)} == disk.files - {path, DocumentStore.TextPath(docId)}
    && DocumentStore.LoadMetadata(disk'.meta) - {docId} == DocumentStore.LoadMetadata(disk.meta) - {docId}
  }

  /** A document's stored file and its extracted-text file are different files. */
  lemma StoredAndTextPathsDiffer(docId: string, ext: string)
    ensures StoredPath(docId, ext) != DocumentStore.TextPath(docId)
  {
    var a := StoredPath(docId, ext);
    var b := DocumentStore.TextPath(docId);
    assert a[..7] == "uploads" && b[..7] == "uploads";
    assert a[8] == 'f' && b[8] == 't';
  }

  /** `get_documents`: the public part of every record, newest first. */
  function ListEndpoint(f: DocumentStore.MetadataFile, order: seq<string>): (r: seq<DocumentResponse>)
    requires DocumentStore.KeyOrder(DocumentStore.LoadMetadata(f), order)
    ensures |r| == |DocumentStore.LoadMetadata(f)|
    ensures forall i :: 0 <= i < |r| ==> r[i] == Public(DocumentStore.ListDocuments(f, order)[i])
  {
    var docs := DocumentStore.ListDocuments(f, order);
    seq(|docs|, i requires 0 <= i < |docs| => Public(docs[i]))
  }

  /** The listing shows one entry for each stored record and nothing else. */
  lemma ListEndpointComplete(f: DocumentStore.MetadataFile, order: seq<string>)
    requires DocumentStore.KeyOrder(DocumentStore.LoadMetadata(f), order)
    ensures forall d :: d in DocumentStore.LoadMetadata(f).Values ==> Public(d) in ListEndpoint(f, order)
    ensures forall e :: e in ListEndpoint(f, order) ==>
              exists d :: d in DocumentStore.LoadMetadata(f).Values && e == Public(d)
  {
    var docs := DocumentStore.ListDocuments(f, order);
    var r := ListEndpoint(f, order);
    DocumentStore.ListingHoldsEveryRecord(f, order);
    forall d | d in DocumentStore.LoadMetadata(f).Values
      ensures Public(d) in r
    {
      assert d in docs;
      var i :| 0 <= i < |docs| && docs[i] == d;
      assert r[i] == Public(d);
    }
    forall e | e in r
      ensures exists d :: d in DocumentStore.LoadMetadata(f).Values && e == Public(d)
    {
      var i :| 0 <= i < |r| && r[i] == e;
      assert docs[i] in docs;
    }
  }

  /** The reply to a successful deletion. */
  datatype DeleteReply = DeleteReply(message: string, id: string)

  /** `delete_document_endpoint`: 404 for an unknown id, otherwise the record and files go. */
  function DeleteEndpoint(disk: DocumentStore.Disk, docId: string): (r: (Result<DeleteReply, HttpError>, DocumentStore.Disk))
    ensures r.0.Err? <==> DocumentStore.GetDocument(disk.meta, docId).None?
    ensures r.0.Err? ==> r.0.error == HttpError(404, "Document not found") && r.1 == disk
    ensures r.0.Ok? ==> r.0.value == DeleteReply("Document deleted", docId)
    ensures DocumentStore.GetDocument(r.1.meta, docId).None?
  {
    var (deleted, disk') := DocumentStore.DeleteDocument(disk, docId);
    if !deleted then (Err(HttpError(404, "Document not found")), disk')
    else (Ok(DeleteReply("Document deleted", docId)), disk')
  }

  /** Deleting the same document twice: the second request gets 404. */
  lemma DeleteEndpointTwice(disk: DocumentStore.Disk, docId: string)
    ensures DeleteEndpoint(DeleteEndpoint(disk, docId).1, docId).0.Err?
  {
  }
}

=== FILE: file_type_icon.dfy ===
/**
 * `FileTypeIcon`: the icon shown for a file name, chosen by the lower-cased text after the
 * name's last dot.
 */
module FileTypeIcon {
  import opened Text

  datatype Icon = PdfIcon | MarkdownIcon | TextIcon | GenericIcon

  /** The last piece of `name.split('.')`, lower-cased: the whole name when it has no dot. */
  function Extension(name: string): (e: string)
    ensures |e| <= |name|
  {
    var parts := Split(name, '.');
    SplitLines(name, '.');
    RestSuffix(name, '.');
    Lower(parts[|parts| - 1])
  }

  function Classify(name: string): (i: Icon)
    ensures i.PdfIcon? <==> Extension(name) == "pdf"
    ensures i.MarkdownIcon? <==> Extension(name) == "md"
    ensures i.TextIcon? <==> Extension(name) == "txt"
  {
    match Extension(name)
    case "pdf" => PdfIcon
    case "md" => MarkdownIcon
    case "txt" => TextIcon
    case _ => GenericIcon
  }

  /** The extension is exactly the text after the last dot, lower-cased. */
  lemma ExtensionAfterLastDot(name: string)
    ensures Extension(name) == Lower(name[LastIndexOf(name, '.') + 1..])
  {
    SplitLines(name, '.');
    RestAfterLast(name, '.');
  }

  /** Any index with the "last occurrence" property is the one `LastIndexOf` finds. */
  lemma LastIndexOfUnique(s: string, c: char, r: int)
    requires -1 <= r < |s|
    requires r >= 0 ==> s[r] == c
    requires forall i :: r < i < |s| ==> s[i] != c
    ensures LastIndexOf(s, c) == r
  {
  }

  /** A name with no dot is its own extension, up to case. */
  lemma NoDotWholeName(name: string)
    requires '.' !in name
    ensures Extension(name) == Lower(name)
  {
    LastIndexOfUnique(name, '.', -1);
    ExtensionAfterLastDot(name);
    assert name[0..] == name;
  }

  /** Only the last segment matters: `a.b` classifies like `b` when `b` has no dot. */
  lemma LastSegmentOnly(a: string, b: string)
    requires '.' !in b
    ensures Classify(a + "." + b) == Classify(b)
  {
    var s := a + "." + b;
    assert s[|a|] == '.';
    assert forall i :: |a| < i < |s| ==> s[i] == b[i - |a| - 1];
    LastIndexOfUnique(s, '.', |a|);
    ExtensionAfterLastDot(s);
    assert s[|a| + 1..] == b;
    NoDotWholeName(b);
  }

  /** Classification ignores ASCII case: "A.PDF" classifies like "a.pdf". */
  lemma CaseInsensitive(name: string)
    ensures Classify(Lower(name)) == Classify(name)
  {
    var low := Lower(name);
    var k := LastIndexOf(name, '.');
    assert forall i :: 0 <= i < |name| ==> (low[i] == '.' <==> name[i] == '.');
    LastIndexOfUnique(low, '.', k);
    ExtensionAfterLastDot(name);
    ExtensionAfterLastDot(low);
    assert low[k + 1..] == Lower(name[k + 1..]);
    LowerIdempotent(name[k + 1..]);
  }
}

=== FILE: file_validator.dfy ===
/**
 * Upload checks: the allowed file-name endings, the size limit, and the content check that
 * accepts a PDF signature or text that decodes as UTF-8.
 */
module FileValidator {
  import opened Wrappers
  import opened Text
  import opened Utf8
  import opened TextReader

  const AllowedExtensions: set<string> := {".pdf", ".txt", ".md"}

  /** 10 MB. */
  const MaxFileSize: nat := 10 * 1024 * 1024

  /** The allowed extension the lower-cased name ends with, if any; at most one can match. */
  function MatchedExtension(filename: string): (r: Option<string>)
    ensures r.Some? <==>
              EndsWith(Lower(filename), ".pdf") || EndsWith(Lower(filename), ".txt") || EndsWith(Lower(filename), ".md")
    ensures r.Some? ==> r.value in AllowedExtensions && EndsWith(Lower(filename), r.value)
  {
    var low := Lower(filename);
    if EndsWith(low, ".pdf") then Some(".pdf")
    else if EndsWith(low, ".txt") then Some(".txt")
    else if EndsWith(low, ".md") then Some(".md")
    else None
  }

  /** `validate_file_extension`: the lower-cased name ends with an allowed extension. */
  predicate ValidExtension(filename: string)
  {
    MatchedExtension(filename).Some?
  }

  /** The extension check ignores case: a name and its lower-cased form are judged alike. */
  lemma ExtensionCaseInsensitive(filename: string)
    ensures ValidExtension(Lower(filename)) <==> ValidExtension(filename)
    ensures MatchedExtension(Lower(filename)) == MatchedExtension(filename)
  {
    LowerIdempotent(filename);
  }

  /** `%PDF`, the first four bytes of every PDF file. */
  const PdfSignature: seq<Byte> := [0x25, 0x50, 0x44, 0x46]

  /** The four-byte header read in binary mode starts with the PDF signature. */
  predicate StartsWithPdf(b: seq<Byte>)
  {
    |b| >= 4 && b[..4] == PdfSignature
  }

  /**
   * `validate_file_type_magic`.  `file` is the stored file's bytes, or `None` when opening
   * it raises.  A file without the PDF signature is read as text with `read(1024)`
   * (`TextReader`), and any decoding error means the content is refused.
   */
  function ValidateMagic(file: Option<seq<Byte>>): (ok: bool)
    ensures file.None? ==> !ok
    ensures file.Some? && StartsWithPdf(file.value) ==> ok
    ensures file.Some? && !StartsWithPdf(file.value) ==> (ok <==> Readable(file.value))
  {
    match file
    case None => false
    case Some(b) => StartsWithPdf(b) || Readable(b)
  }

  /** A file that starts with the PDF signature is accepted whatever follows it. */
  lemma PdfAccepted(rest: seq<Byte>)
    ensures ValidateMagic(Some(PdfSignature + rest))
  {
    assert (PdfSignature + rest)[..4] == PdfSignature;
  }

  /** Every UTF-8 text file is accepted: well-formed bytes never raise in the text read. */
  lemma TextAccepted(s: string)
    ensures ValidateMagic(Some(Encode(s)))
  {
    EncodeValid(s);
    PrefixIsStream(Encode(s), |FirstChunk(Encode(s))|);
  }

  /**
   * When the read reaches the end of the file before it has 1024 characters, a file without
   * the PDF signature is accepted exactly when it is the UTF-8 encoding of some text.
   */
  lemma WholeFileIsText(b: seq<Byte>)
    requires !StartsWithPdf(b)
    requires ValidStream(FirstChunk(b)) ==> FirstCount(FirstChunk(b)) < ReadLimit
    ensures ValidateMagic(Some(b)) ==> Valid(b) && Encode(Decode(b)) == b
    ensures (exists s :: Encode(s) == b) ==> ValidateMagic(Some(b))
  {
    if ValidateMagic(Some(b)) {
      EncodeDecode(b);
    }
    if exists s :: Encode(s) == b {
      var s :| Encode(s) == b;
      TextAccepted(s);
    }
  }

  /**
   * Once the first chunk decodes to 1024 characters, the file is judged by that chunk alone:
   * an unfinished or broken sequence further on is never read.
   */
  lemma LaterBytesUnread(b: seq<Byte>, more: seq<Byte>)
    requires |b| >= ChunkSize
    ensures ValidateMagic(Some(b + more)) == ValidateMagic(Some(b))
    ensures !StartsWithPdf(b) ==> (ValidateMagic(Some(b)) <==> ValidStream(FirstChunk(b)))
  {
    assert FirstChunk(b + more) == FirstChunk(b);
    assert (b + more)[..4] == b[..4];
    if ValidStream(FirstChunk(b)) {
      FullChunkEnough(FirstChunk(b));
    }
  }

  /**
   * A file of at least 1024 characters without a carriage return, ending in bytes the decoder
   * holds back (a cut sequence, or `ED A0..BF`), is accepted although it is not UTF-8: the
   * read stops before the end of the file, where the held bytes would raise.
   */
  lemma CutSequenceAfterLimitAccepted(s: string, cut: seq<Byte>)
    requires ReadLimit <= |s| && '\r' !in s && s[0] != '%'
    requires Held(cut) && |Encode(s)| + |cut| <= ChunkSize
    ensures ValidateMagic(Some(Encode(s) + cut)) && !Valid(Encode(s) + cut)
  {
    var b := Encode(s) + cut;
    assert FirstChunk(b) == b;
    TextThenCut(s, cut);
    CarriageFreeCount(s);
    assert FirstCount(b) == |s|;
    ValidIffNothingPending(b);
    NotPdfHeader(s, cut);
  }

  /** Encoded text followed by bytes the decoder holds back decodes to the text and holds the rest. */
  lemma TextThenCut(s: string, cut: seq<Byte>)
    requires Held(cut)
    ensures ValidStream(Encode(s) + cut)
    ensures StreamText(Encode(s) + cut) == s && Pending(Encode(s) + cut) == cut
  {
    assert ValidStream(cut) && StreamText(cut) == "" && Pending(cut) == cut;
    DecodeEncode(s);
    AfterWellFormed(Encode(s), cut);
    assert s + "" == s;
  }

  /** Text without a carriage return reaches the reader unchanged. */
  lemma CarriageFreeCount(s: string)
    requires '\r' !in s
    ensures NewlineDecode(false, s, false).out == s
  {
    assert "" + s == s;
    TranslateCarriageFree(s);
  }

  /**
   * Bytes inside the first chunk that the decoder can neither decode nor hold back make the
   * file fail, even right after 1024 characters.
   */
  lemma BrokenAfterTextRefused(s: string, t: seq<Byte>)
    requires !ValidStream(t) && |s| > 0 && s[0] != '%' && |Encode(s)| + |t| <= ChunkSize
    ensures !ValidateMagic(Some(Encode(s) + t))
  {
    var b := Encode(s) + t;
    assert FirstChunk(b) == b;
    EncodeValid(s);
    AfterWellFormed(Encode(s), t);
    NotPdfHeader(s, t);
  }

  /** Any byte that opens no sequence makes the file fail, even right after 1024 characters. */
  lemma BadByteAfterTextRefused(s: string, bad: Byte)
    requires Need(bad) == 0 && |s| > 0 && s[0] != '%' && |Encode(s)| + 1 <= ChunkSize
    ensures !ValidateMagic(Some(Encode(s) + [bad]))
  {
    BrokenAfterTextRefused(s, [bad]);
  }

  /** Encoded text that does not start with `%` does not start with the PDF signature. */
  lemma NotPdfHeader(s: string, rest: seq<Byte>)
    requires |s| > 0 && s[0] != '%'
    ensures !StartsWithPdf(Encode(s) + rest)
  {
    assert Encode(s) == EncodeChar(s[0]) + Encode(s[1..]);
    assert (Encode(s) + rest)[0] == EncodeChar(s[0])[0];
  }

  /** The text is 1024 letters `a`. */
  const Letters: string := seq(ReadLimit, _ => 'a')

  /**
   * Concrete cases after 1024 letters `a`: the lead byte `C3` of a two-byte sequence, and
   * the surrogate start `ED A0` as the last bytes, are accepted; `FF`, and `ED A0` followed
   * by another byte, are refused.
   */
  lemma LettersThenByteExamples()
    ensures ValidateMagic(Some(Encode(Letters) + [0xC3]))
    ensures ValidateMagic(Some(Encode(Letters) + [0xED, 0xA0]))
    ensures !ValidateMagic(Some(Encode(Letters) + [0xFF]))
    ensures !ValidateMagic(Some(Encode(Letters) + [0xED, 0xA0, 0x61]))
  {
    EncodeLength(Letters);
    CutSequenceAfterLimitAccepted(Letters, [0xC3]);
    assert HeldSurrogate([0xED, 0xA0]);
    CutSequenceAfterLimitAccepted(Letters, [0xED, 0xA0]);
    BadByteAfterTextRefused(Letters, 0xFF);
    var t: seq<Byte> := [0xED, 0xA0, 0x61];
    assert !Held(t) && !CompleteHead(t);
    BrokenAfterTextRefused(Letters, t);
  }
}

=== FILE: http.dfy ===
/** What the HTTP layer answers when an endpoint raises `HTTPException` or lets an exception escape. */
module Http {
  /** An error response: status code and `detail`. */
  datatype HttpError = HttpError(status: int, detail: string)

  /** The kinds of Python exception the endpoints tell apart. */
  datatype ErrorKind = RuntimeErrorKind | UnboundLocalErrorKind | OtherErrorKind

  /** A raised exception: its class and `str(e)`. */
  datatype Raised = Raised(kind: ErrorKind, message: string)
}

=== FILE: json.dfy ===
/**
 * The JSON needed by the chat stream, in both directions.
 *
 * Server side: Python's `json.dumps` of the three frame dictionaries `{'content': chunk}`,
 * `{'done': True}` and `{'error': message}`, with its default `ensure_ascii=True` string
 * escaping and its default `", "` / `": "` separators.
 *
 * Client side: `JSON.parse` of a flat object whose member values are strings, `true`,
 * `false` or `null`, projected onto the three members the stream decoder reads, each as
 * the JavaScript truthiness test the decoder applies to it.
 */
module Json {
  import opened Wrappers
  import opened Text

  // ---------------------------------------------------------------------------------------
  // Hexadecimal digits
  // ---------------------------------------------------------------------------------------

  /** The lower-case hex digit `'{0:x}'.format(d)`. */
  function HexDigit(d: nat): char
    requires d < 16
  {
    if d < 10 then ('0' as int + d) as char else ('a' as int + d - 10) as char
  }

  /** The value of a hex digit of either case. */
  function HexValue(c: char): (r: Option<nat>)
    ensures r.Some? ==> r.value < 16
  {
    if '0' <= c <= '9' then Some(c as int - '0' as int)
    else if 'a' <= c <= 'f' then Some(c as int - 'a' as int + 10)
    else if 'A' <= c <= 'F' then Some(c as int - 'A' as int + 10)
    else None
  }

  lemma HexValueOfDigit(d: nat)
    requires d < 16
    ensures HexValue(HexDigit(d)) == Some(d)
  {
  }

  /** Four lower-case hex digits, `'{0:04x}'.format(n)`. */
  function Hex4(n: nat): (r: string)
    requires n < 0x10000
    ensures |r| == 4
  {
    var q1 := n / 16;
    var q2 := q1 / 16;
    var q3 := q2 / 16;
    [HexDigit(q3), HexDigit(q2 % 16), HexDigit(q1 % 16), HexDigit(n % 16)]
  }

  /** The number written by exactly four hex digits. */
  function ParseHex4(s: string): (r: Option<nat>)
    requires |s| == 4
    ensures r.Some? ==> r.value < 0x10000
  {
    match (HexValue(s[0]), HexValue(s[1]), HexValue(s[2]), HexValue(s[3]))
    case (Some(a), Some(b), Some(c), Some(d)) => Some(a * 0x1000 + b * 0x100 + c * 16 + d)
    case _ => None
  }

  lemma ParseHex4OfHex4(n: nat)
    requires n < 0x10000
    ensures ParseHex4(Hex4(n)) == Some(n)
  {
    var q1 := n / 16;
    var q2 := q1 / 16;
    var q3 := q2 / 16;
    HexValueOfDigit(q3);
    HexValueOfDigit(q2 % 16);
    HexValueOfDigit(q1 % 16);
    HexValueOfDigit(n % 16);
    assert n == 16 * q1 + n % 16;
    assert q1 == 16 * q2 + q1 % 16;
    assert q2 == 16 * q3 + q2 % 16;
  }

  // ---------------------------------------------------------------------------------------
  // Python's string escaping (json.dumps with ensure_ascii=True)
  // ---------------------------------------------------------------------------------------

  /** The characters `json.dumps` copies unescaped: printable ASCII except `"` and `\`. */
  predicate Plain(c: char)
  {
    ' ' <= c <= '~' && c != '"' && c != '\\'
  }

  predicate Printable(c: char)
  {
    ' ' <= c <= '~'
  }

  predicate IsHighSurrogate(n: int) { 0xD800 <= n < 0xDC00 }

  predicate IsLowSurrogate(n: int) { 0xDC00 <= n < 0xE000 }

  /** The high half of the UTF-16 surrogate pair of a code point above U+FFFF. */
  function HighSurrogate(n: int): (h: nat)
    requires 0x10000 <= n < 0x110000
    ensures IsHighSurrogate(h)
  {
    0xD800 + (n - 0x10000) / 0x400
  }

  /** The low half of the UTF-16 surrogate pair of a code point above U+FFFF. */
  function LowSurrogate(n: int): (l: nat)
    requires 0x10000 <= n < 0x110000
    ensures IsLowSurrogate(l)
  {
    0xDC00 + (n - 0x10000) % 0x400
  }

  /** The code point a surrogate pair stands for. */
  function CombineSurrogates(h: int, l: int): (n: int)
    requires IsHighSurrogate(h) && IsLowSurrogate(l)
    ensures 0x10000 <= n < 0x110000
  {
    0x10000 + (h - 0xD800) * 0x400 + (l - 0xDC00)
  }

  lemma CombineSplitSurrogates(n: int)
    requires 0x10000 <= n < 0x110000
    ensures CombineSurrogates(HighSurrogate(n), LowSurrogate(n)) == n
  {
  }

  /**
   * The two-character escapes `json.dumps` uses: the letter written after the backslash for
   * `"`, `\` and the five control characters that have one.
   */
  function ShortEscape(c: char): (r: Option<char>)
    ensures r.Some? ==> Printable(r.value) && !Plain(c)
  {
    if c == '"' then Some('"')
    else if c == '\\' then Some('\\')
    else if c == '\n' then Some('n')
    else if c == '\r' then Some('r')
    else if c == '\t' then Some('t')
    else if c == '\U{8}' then Some('b')
    else if c == '\U{C}' then Some('f')
    else None
  }

  /**
   * How `json.dumps` writes one character: a short escape where there is one, printable
   * ASCII copied, every other character below U+10000 as `\uXXXX`, and the rest as a
   * `\uXXXX\uXXXX` surrogate pair.
   */
  function EscapeChar(c: char): (r: string)
    ensures 1 <= |r|
  {
    match ShortEscape(c)
    case Some(d) => ['\\', d]
    case None =>
      if Printable(c) then [c]
      else if (c as int) < 0x10000 then "\\u" + Hex4(c as int)
      else "\\u" + Hex4(HighSurrogate(c as int)) + "\\u" + Hex4(LowSurrogate(c as int))
  }

  function EscapeString(s: string): (r: string)
    ensures |r| >= |s|
  {
    if |s| == 0 then "" else EscapeChar(s[0]) + EscapeString(s[1..])
  }

  /** A JSON string literal as `json.dumps` writes it. */
  function Quote(s: string): (r: string)
    ensures |r| >= |s| + 2
  {
    "\"" + EscapeString(s) + "\""
  }

  predicate AllPrintable(s: string)
  {
    forall i :: 0 <= i < |s| ==> Printable(s[i])
  }

  lemma AllPrintableAppend(a: string, b: string)
    requires AllPrintable(a) && AllPrintable(b)
    ensures AllPrintable(a + b)
  {
    assert forall i :: |a| <= i < |a + b| ==> (a + b)[i] == b[i - |a|];
  }

  lemma Hex4Printable(n: nat)
    requires n < 0x10000
    ensures AllPrintable(Hex4(n))
  {
  }

  lemma EscapeCharPrintable(c: char)
    ensures AllPrintable(EscapeChar(c))
  {
    if ShortEscape(c).None? && !Printable(c) {
      var n := c as int;
      if n < 0x10000 {
        Hex4Printable(n);
        AllPrintableAppend("\\u", Hex4(n));
      } else {
        Hex4Printable(HighSurrogate(n));
        Hex4Printable(LowSurrogate(n));
        AllPrintableAppend("\\u", Hex4(HighSurrogate(n)));
        AllPrintableAppend("\\u" + Hex4(HighSurrogate(n)), "\\u");
        AllPrintableAppend("\\u" + Hex4(HighSurrogate(n)) + "\\u", Hex4(LowSurrogate(n)));
      }
    }
  }

  /** Escaped text is printable ASCII whatever it escapes. */
  lemma {:induction false} EscapeStringPrintable(s: string)
    ensures AllPrintable(EscapeString(s))
    decreases |s|
  {
    if |s| > 0 {
      EscapeCharPrintable(s[0]);
      EscapeStringPrintable(s[1..]);
      AllPrintableAppend(EscapeChar(s[0]), EscapeString(s[1..]));
    }
  }

  lemma QuotePrintable(s: string)
    ensures AllPrintable(Quote(s))
  {
    EscapeStringPrintable(s);
    AllPrintableAppend("\"", EscapeString(s));
    AllPrintableAppend("\"" + EscapeString(s), "\"");
  }

  // ---------------------------------------------------------------------------------------
  // Reading string literals (JSON.parse)
  // ---------------------------------------------------------------------------------------

  /** The character a backslash followed by `d` stands for, when `d` is not `u`. */
  function Unescape(d: char): (r: Option<char>)
  {
    if d == '"' then Some('"')
    else if d == '\\' then Some('\\')
    else if d == '/' then Some('/')
    else if d == 'b' then Some('\U{8}')
    else if d == 'f' then Some('\U{C}')
    else if d == 'n' then Some('\n')
    else if d == 'r' then Some('\r')
    else if d == 't' then Some('\t')
    else None
  }

  /** Every short escape `json.dumps` writes reads back as the character it escaped. */
  lemma UnescapeShortEscape(c: char)
    requires ShortEscape(c).Some?
    ensures Unescape(ShortEscape(c).value) == Some(c)
  {
  }

  /** Reads four hex digits off the front of `s`. */
  function ReadHex4(s: string): (r: Option<(nat, string)>)
    ensures r.Some? ==> r.value.0 < 0x10000 && |r.value.1| + 4 == |s|
  {
    if |s| < 4 then None
    else
      match ParseHex4(s[..4])
      case None => None
      case Some(n) => Some((n, s[4..]))
  }

  lemma ReadHex4OfHex4(n: nat, u: string)
    requires n < 0x10000
    ensures ReadHex4(Hex4(n) + u) == Some((n, u))
  {
    CutAppend(Hex4(n), u);
    ParseHex4OfHex4(n);
  }

  /**
   * Reads one escape sequence, given the text after its backslash.  A `\u` escape naming a
   * high surrogate must be followed by one naming a low surrogate; a lone surrogate has no
   * `char` to stand for and is refused.
   */
  function ParseEscape(s: string): (r: Option<(char, string)>)
    ensures r.Some? ==> |r.value.1| < |s|
  {
    if |s| == 0 then None
    else if s[0] != 'u' then
      match Unescape(s[0])
      case None => None
      case Some(c) => Some((c, s[1..]))
    else
      match ReadHex4(s[1..])
      case None => None
      case Some((h, r)) =>
        if IsHighSurrogate(h) then
          if |r| >= 2 && r[0] == '\\' && r[1] == 'u' then
            match ReadHex4(r[2..])
            case None => None
            case Some((l, r')) =>
              if IsLowSurrogate(l) then Some((CombineSurrogates(h, l) as char, r')) else None
          else None
        else if IsLowSurrogate(h) then None
        else Some((h as char, r))
  }

  /**
   * Reads the rest of a string literal, given the text after its opening quote: the decoded
   * text and what follows the closing quote.  Raw control characters are refused.
   */
  function ParseStringBody(s: string): (r: Option<(string, string)>)
    ensures r.Some? ==> |r.value.1| < |s|
    decreases |s|
  {
    if |s| == 0 then None
    else if s[0] == '"' then Some(("", s[1..]))
    else if s[0] == '\\' then
      match ParseEscape(s[1..])
      case None => None
      case Some((c, rest)) =>
        match ParseStringBody(rest)
        case None => None
        case Some((t, after)) => Some(([c] + t, after))
    else if s[0] < ' ' then None
    else
      match ParseStringBody(s[1..])
      case None => None
      case Some((t, after)) => Some(([s[0]] + t, after))
  }

  /** What reading a string body gives once `c` has been read in front of it. */
  function PrependRead(c: char, r: Option<(string, string)>): Option<(string, string)>
  {
    match r
    case None => None
    case Some((t, after)) => Some(([c] + t, after))
  }

  lemma PlainRoundTrip(c: char, u: string)
    requires ShortEscape(c).None? && Printable(c)
    ensures ParseStringBody(EscapeChar(c) + u) == PrependRead(c, ParseStringBody(u))
  {
    ConsParts(c, u);
  }

  lemma ShortEscapeRoundTrip(c: char, u: string)
    requires ShortEscape(c).Some?
    ensures ParseStringBody(EscapeChar(c) + u) == PrependRead(c, ParseStringBody(u))
  {
    var d := ShortEscape(c).value;
    PairCons('\\', d, u);
    ConsParts('\\', [d] + u);
    ParseShortEscape(c, u);
  }

  lemma ParseShortEscape(c: char, u: string)
    requires ShortEscape(c).Some?
    ensures ParseEscape([ShortEscape(c).value] + u) == Some((c, u))
  {
    ConsParts(ShortEscape(c).value, u);
    UnescapeShortEscape(c);
  }

  lemma UnicodeEscapeRoundTrip(c: char, u: string)
    requires ShortEscape(c).None? && !Printable(c) && (c as int) < 0x10000
    ensures ParseStringBody(EscapeChar(c) + u) == PrependRead(c, ParseStringBody(u))
  {
    var h := Hex4(c as int);
    AppendAssoc("\\u", h, u);
    PairCons('\\', 'u', h + u);
    ConsParts('\\', ['u'] + (h + u));
    ConsParts('u', h + u);
    ReadHex4OfHex4(c as int, u);
  }

  lemma SurrogateEscapeRoundTrip(c: char, u: string)
    requires ShortEscape(c).None? && !Printable(c) && (c as int) >= 0x10000
    ensures ParseStringBody(EscapeChar(c) + u) == PrependRead(c, ParseStringBody(u))
  {
    var n := c as int;
    var hi, lo := Hex4(HighSurrogate(n)), Hex4(LowSurrogate(n));
    var r := "\\u" + (lo + u);
    AppendAssoc5("\\u", hi, "\\u", lo, u);
    PairCons('\\', 'u', hi + r);
    ConsParts('\\', ['u'] + (hi + r));
    ConsParts('u', hi + r);
    ReadHex4OfHex4(HighSurrogate(n), r);
    PairCons('\\', 'u', lo + u);
    ConsParts('\\', ['u'] + (lo + u));
    ConsParts('u', lo + u);
    ReadHex4OfHex4(LowSurrogate(n), u);
    CombineSplitSurrogates(n);
  }

  /** Reading one escaped character leaves the reader where the escape ends. */
  lemma EscapeCharRoundTrip(c: char, u: string)
    ensures ParseStringBody(EscapeChar(c) + u) == PrependRead(c, ParseStringBody(u))
  {
    if ShortEscape(c).Some? {
      ShortEscapeRoundTrip(c, u);
    } else if Printable(c) {
      PlainRoundTrip(c, u);
    } else if (c as int) < 0x10000 {
      UnicodeEscapeRoundTrip(c, u);
    } else {
      SurrogateEscapeRoundTrip(c, u);
    }
  }

  /** Reading back a `json.dumps` string body gives the original text and stops after it. */
  lemma {:induction false} EscapeStringRoundTrip(s: string, rest: string)
    ensures ParseStringBody(EscapeString(s) + ("\"" + rest)) == Some((s, rest))
    decreases |s|
  {
    if |s| == 0 {
      assert EscapeString(s) + ("\"" + rest) == "\"" + rest;
      ConsParts('"', rest);
    } else {
      var u := EscapeString(s[1..]) + ("\"" + rest);
      AppendAssoc(EscapeChar(s[0]), EscapeString(s[1..]), "\"" + rest);
      EscapeCharRoundTrip(s[0], u);
      EscapeStringRoundTrip(s[1..], rest);
      HeadTail(s);
    }
  }

  /** Text made only of plain characters is written unchanged. */
  lemma {:induction false} EscapePlain(s: string)
    requires forall i :: 0 <= i < |s| ==> Plain(s[i])
    ensures EscapeString(s) == s
    decreases |s|
  {
    if |s| > 0 {
      EscapePlain(s[1..]);
      HeadTail(s);
    }
  }

  /** The opening quote of a string literal, and the body after it. */
  lemma QuoteThen(t: string, x: string)
    ensures |Quote(t) + x| > 0 && (Quote(t) + x)[0] == '"'
    ensures (Quote(t) + x)[1..] == EscapeString(t) + ("\"" + x)
  {
    AppendAssoc4("\"", EscapeString(t), "\"", x);
    ConsParts('"', EscapeString(t) + ("\"" + x));
  }

  /** A string literal followed by more text reads as that string, and stops after it. */
  lemma ReadQuoted(t: string, x: string)
    ensures ParseStringBody((Quote(t) + x)[1..]) == Some((t, x))
  {
    QuoteThen(t, x);
    EscapeStringRoundTrip(t, x);
  }

  // ---------------------------------------------------------------------------------------
  // Objects
  // ---------------------------------------------------------------------------------------

  /** The JSON values the model reads: strings and the three literals. */
  datatype Value = JString(text: string) | JTrue | JFalse | JNull

  /** JavaScript truthiness of a parsed value. */
  predicate Truthy(v: Value)
  {
    match v
    case JString(t) => t != ""
    case JTrue => true
    case _ => false
  }

  /**
   * What the stream decoder reads of a parsed object: `data.content`, `data.done` and
   * `data.error`, a missing or falsy string member read as "" and `done` read as its
   * truthiness.
   */
  datatype Payload = Payload(content: string, done: bool, error: string)

  const EmptyPayload := Payload("", false, "")

  predicate IsWs(c: char)
  {
    c == ' ' || c == '\t' || c == '\n' || c == '\r'
  }

  /** Skips JSON insignificant whitespace. */
  function SkipWs(s: string): (r: string)
    ensures |r| <= |s|
    ensures |r| > 0 ==> !IsWs(r[0])
    decreases |s|
  {
    if |s| > 0 && IsWs(s[0]) then SkipWs(s[1..]) else s
  }

  /** `s` is non-empty and starts with `c`. */
  predicate Starts(s: string, c: char)
  {
    |s| > 0 && s[0] == c
  }

  function ParseValue(s: string): (r: Option<(Value, string)>)
    ensures r.Some? ==> |r.value.1| < |s|
  {
    if Starts(s, '"') then
      match ParseStringBody(s[1..])
      case None => None
      case Some((t, rest)) => Some((JString(t), rest))
    else if StartsWith(s, "true") then Some((JTrue, s[4..]))
    else if StartsWith(s, "false") then Some((JFalse, s[5..]))
    else if StartsWith(s, "null") then Some((JNull, s[4..]))
    else None
  }

  /**
   * Records one member; a later member of the same name overrides an earlier one.  A `true`
   * under `content` or `error` would reach the callbacks as a non-string and is refused.
   */
  function ApplyMember(p: Payload, key: string, v: Value): Option<Payload>
  {
    if key == "content" then
      match v
      case JString(t) => Some(p.(content := t))
      case JTrue => None
      case _ => Some(p.(content := ""))
    else if key == "done" then Some(p.(done := Truthy(v)))
    else if key == "error" then
      match v
      case JString(t) => Some(p.(error := t))
      case JTrue => None
      case _ => Some(p.(error := ""))
    else Some(p)
  }

  /** Reads one `"key": value` member and the whitespace after it. */
  function ParseMember(s: string): (r: Option<(string, Value, string)>)
    ensures r.Some? ==> |r.value.2| < |s|
  {
    if !Starts(s, '"') then None
    else
      match ParseStringBody(s[1..])
      case None => None
      case Some((key, r1)) =>
        var r2 := SkipWs(r1);
        if !Starts(r2, ':') then None
        else
          match ParseValue(SkipWs(r2[1..]))
          case None => None
          case Some((v, r3)) => Some((key, v, SkipWs(r3)))
  }

  /** Reads members separated by commas up to and including the closing brace. */
  function ParseMembers(s: string, acc: Payload): (r: Option<(Payload, string)>)
    ensures r.Some? ==> |r.value.1| < |s|
    decreases |s|
  {
    match ParseMember(s)
    case None => None
    case Some((key, v, r4)) =>
      match ApplyMember(acc, key, v)
      case None => None
      case Some(acc') =>
        if Starts(r4, ',') then ParseMembers(SkipWs(r4[1..]), acc')
        else if Starts(r4, '}') then Some((acc', r4[1..]))
        else None
  }

  /**
   * `JSON.parse` followed by reading the three members.  Text that is not JSON, or is JSON
   * but not an object, gives `None`: in the client both end with no callback.
   */
  function ParsePayload(s: string): Option<Payload>
  {
    var t := SkipWs(s);
    if !Starts(t, '{') then None
    else
      var u := SkipWs(t[1..]);
      var body: Option<(Payload, string)> :=
        if Starts(u, '}') then Some((EmptyPayload, u[1..])) else ParseMembers(u, EmptyPayload);
      match body
      case None => None
      case Some((p, rest)) => if SkipWs(rest) == "" then Some(p) else None
  }

  // ---------------------------------------------------------------------------------------
  // Frames
  // ---------------------------------------------------------------------------------------

  /**
   * A member of the request bodies the client sends: a string or a number.  Request bodies
   * are modelled as maps from member names to these; their text form is not modelled.
   */
  datatype BodyValue = Str(s: string) | Num(n: int)

  /** The three event shapes the server sends. */
  datatype Frame = ContentFrame(text: string) | DoneFrame | ErrorFrame(message: string)

  /** `json.dumps` of a one-entry dictionary whose value is already written as `valueText`. */
  function EncodeObject(key: string, valueText: string): string
  {
    "{" + Quote(key) + ": " + valueText + "}"
  }

  /** `json.dumps` of the frame's dictionary. */
  function EncodeFrame(f: Frame): string
  {
    match f
    case ContentFrame(t) => EncodeObject("content", Quote(t))
    case DoneFrame => EncodeObject("done", "true")
    case ErrorFrame(m) => EncodeObject("error", Quote(m))
  }

  /** What the client reads of a frame. */
  function PayloadOf(f: Frame): Payload
  {
    match f
    case ContentFrame(t) => EmptyPayload.(content := t)
    case DoneFrame => EmptyPayload.(done := true)
    case ErrorFrame(m) => EmptyPayload.(error := m)
  }

  lemma EncodeObjectPrintable(key: string, valueText: string)
    requires AllPrintable(valueText)
    ensures AllPrintable(EncodeObject(key, valueText))
  {
    QuotePrintable(key);
    AllPrintableAppend("{", Quote(key));
    AllPrintableAppend("{" + Quote(key), ": ");
    AllPrintableAppend("{" + Quote(key) + ": ", valueText);
    AllPrintableAppend("{" + Quote(key) + ": " + valueText, "}");
  }

  /** An encoded frame is printable ASCII, so in particular it never contains a line break. */
  lemma EncodeFramePrintable(f: Frame)
    ensures AllPrintable(EncodeFrame(f))
    ensures '\n' !in EncodeFrame(f)
  {
    match f
    case ContentFrame(t) =>
      QuotePrintable(t);
      EncodeObjectPrintable("content", Quote(t));
    case DoneFrame =>
      EncodeObjectPrintable("done", "true");
    case ErrorFrame(m) =>
      QuotePrintable(m);
      EncodeObjectPrintable("error", Quote(m));
  }

  lemma SkipWsStop(s: string)
    requires |s| > 0 && !IsWs(s[0])
    ensures SkipWs(s) == s
  {
  }

  /** The colon and space after a key, then a value text that starts with no whitespace. */
  lemma ReadColon(vt: string)
    requires |vt| > 0 && !IsWs(vt[0])
    ensures SkipWs(": " + (vt + "}")) == ": " + (vt + "}")
    ensures Starts(": " + (vt + "}"), ':')
    ensures SkipWs((": " + (vt + "}"))[1..]) == vt + "}"
  {
    var w := vt + "}";
    PairCons(':', ' ', w);
    ConsParts(':', [' '] + w);
    ConsParts(' ', w);
    assert w[0] == vt[0];
  }

  /** One `"key": <value text>` member followed by a closing brace. */
  lemma ParseMemberBeforeBrace(key: string, vt: string, v: Value)
    requires |vt| > 0 && !IsWs(vt[0])
    requires ParseValue(vt + "}") == Some((v, "}"))
    ensures ParseMember(Quote(key) + (": " + (vt + "}"))) == Some((key, v, "}"))
  {
    var m := ": " + (vt + "}");
    QuoteThen(key, m);
    ReadQuoted(key, m);
    ReadColon(vt);
    SkipWsStop("}");
  }

  /** The members of a one-member object, up to and including its closing brace. */
  lemma ParseLastMember(key: string, vt: string, v: Value)
    requires |vt| > 0 && !IsWs(vt[0])
    requires ParseValue(vt + "}") == Some((v, "}"))
    requires ApplyMember(EmptyPayload, key, v).Some?
    ensures ParseMembers(Quote(key) + (": " + (vt + "}")), EmptyPayload)
      == Some((ApplyMember(EmptyPayload, key, v).value, ""))
  {
    ParseMemberBeforeBrace(key, vt, v);
    CloseBrace();
  }

  lemma CloseBrace()
    ensures !Starts("}", ',') && Starts("}", '}') && "}"[1..] == ""
  {
  }

  /** An object with exactly one member reads as that member applied to the empty payload. */
  lemma ParseEncodedObject(key: string, vt: string, v: Value)
    requires |vt| > 0 && !IsWs(vt[0])
    requires ParseValue(vt + "}") == Some((v, "}"))
    requires ApplyMember(EmptyPayload, key, v).Some?
    ensures ParsePayload(EncodeObject(key, vt)) == ApplyMember(EmptyPayload, key, v)
  {
    var u := Quote(key) + (": " + (vt + "}"));
    AppendAssoc5("{", Quote(key), ": ", vt, "}");
    ConsParts('{', u);
    SkipWsStop("{" + u);
    QuoteThen(key, ": " + (vt + "}"));
    SkipWsStop(u);
    ParseLastMember(key, vt, v);
  }

  lemma ReadTrue()
    ensures ParseValue("true" + "}") == Some((JTrue, "}"))
  {
    CutAppend("true", "}");
  }

  /** The client reads every server frame back as exactly that frame's payload. */
  lemma ParseEncodedFrame(f: Frame)
    ensures ParsePayload(EncodeFrame(f)) == Some(PayloadOf(f))
  {
    match f
    case ContentFrame(t) =>
      QuoteThen(t, "}");
      ReadQuoted(t, "}");
      ParseEncodedObject("content", Quote(t), JString(t));
    case ErrorFrame(m) =>
      QuoteThen(m, "}");
      ReadQuoted(m, "}");
      ParseEncodedObject("error", Quote(m), JString(m));
    case DoneFrame =>
      ReadTrue();
      ParseEncodedObject("done", "true", JTrue);
  }
}

=== FILE: local_storage.dfy ===
/**
 * `useLocalStorage`: a React state cell mirrored into the browser's key/value storage.  The
 * storage is a map from keys to serialized text; whether a storage call throws is an input.
 */
module LocalStorage {
  import opened Wrappers

  type Storage = map<string, string>

  /** How values of type `T` are written to and read from storage. */
  datatype Codec<!T> = Codec(serialize: T -> string, parse: string -> Option<T>)

  /** Reading back what was written yields the value written. */
  ghost predicate Lawful<T(!new)>(codec: Codec<T>)
  {
    forall v: T :: codec.parse(codec.serialize(v)) == Some(v)
  }

  /** The hook's state: its key, the fallback value, and the current React state. */
  datatype Cell<T> = Cell(key: string, initial: T, value: T)

  /** Whether the storage object may be used at all, or every access to it throws. */
  datatype Access = Available | Throws

  /**
   * The lazy initial state: the parsed stored text, or `initial` when the key is missing,
   * the text does not parse, or reading throws.
   */
  function Load<T>(storage: Storage, access: Access, key: string, initial: T, codec: Codec<T>): (c: Cell<T>)
    ensures c.key == key && c.initial == initial
    ensures c.value == initial || (access.Available? && key in storage && codec.parse(storage[key]) == Some(c.value))
    ensures access.Available? && key in storage && codec.parse(storage[key]).Some? ==>
              c.value == codec.parse(storage[key]).value
  {
    if access.Throws? || key !in storage then Cell(key, initial, initial)
    else
      match codec.parse(storage[key])
      case None => Cell(key, initial, initial)
      case Some(v) => Cell(key, initial, v)
  }

  /** A new value, or an updater applied to the hook's captured value. */
  datatype Update<!T> = Replace(v: T) | Apply(f: T -> T)

  /** The outcome of `setItem`: stored, refused for quota, or any other failure. */
  datatype WriteOutcome = Stored | QuotaExceeded | WriteFailed

  /**
   * `setValue`.  An updater is applied to `snapshot`, the state captured when this setter
   * was created, not to the cell's latest value.  The state is set before the write, so it
   * changes whatever the write does; storage changes only when the write succeeds.  No
   * outcome raises to the caller.
   */
  function SetValue<T>(c: Cell<T>, snapshot: T, u: Update<T>, storage: Storage, w: WriteOutcome, codec: Codec<T>)
    : (r: (Cell<T>, Storage))
    ensures r.0.key == c.key && r.0.initial == c.initial
    ensures u.Replace? ==> r.0.value == u.v
    ensures u.Apply? ==> r.0.value == u.f(snapshot)
    ensures w.Stored? ==> r.1 == storage[c.key := codec.serialize(r.0.value)]
    ensures !w.Stored? ==> r.1 == storage
  {
    var v := match u case Replace(x) => x case Apply(f) => f(snapshot);
    (c.(value := v), if w.Stored? then storage[c.key := codec.serialize(v)] else storage)
  }

  /** `remove`: the key is removed and the state reset; if removal throws, nothing changes. */
  function Remove<T>(c: Cell<T>, storage: Storage, throws: bool): (r: (Cell<T>, Storage))
    ensures !throws ==> r.0 == c.(value := c.initial) && c.key !in r.1
    ensures !throws ==> forall k :: k in storage && k != c.key ==> k in r.1 && r.1[k] == storage[k]
    ensures !throws ==> r.1.Keys == storage.Keys - {c.key}
    ensures throws ==> r == (c, storage)
  {
    if throws then (c, storage) else (c.(value := c.initial), storage - {c.key})
  }

  /** A stored write is read back by a fresh load of the same key. */
  lemma WriteReadBack<T(!new)>(c: Cell<T>, snapshot: T, u: Update<T>, storage: Storage, codec: Codec<T>)
    requires Lawful(codec)
    ensures var r := SetValue(c, snapshot, u, storage, Stored, codec);
            Load(r.1, Available, c.key, c.initial, codec) == r.0
  {
    var r := SetValue(c, snapshot, u, storage, Stored, codec);
    assert codec.parse(codec.serialize(r.0.value)) == Some(r.0.value);
  }

  /** After a removal that did not throw, a fresh load yields the initial value. */
  lemma RemoveReadBack<T>(c: Cell<T>, storage: Storage, access: Access, codec: Codec<T>)
    ensures var r := Remove(c, storage, false);
            Load(r.1, access, c.key, c.initial, codec) == r.0
  {
  }

  /**
   * Two updaters applied through the same setter both start from its snapshot: the second
   * discards the first's effect.
   */
  lemma SameSetterTwice<T>(c: Cell<T>, snapshot: T, f: T -> T, g: T -> T, storage: Storage,
                           w1: WriteOutcome, w2: WriteOutcome, codec: Codec<T>)
    ensures var r1 := SetValue(c, snapshot, Apply(f), storage, w1, codec);
            var r2 := SetValue(r1.0, snapshot, Apply(g), r1.1, w2, codec);
            r2.0.value == g(snapshot)
  {
  }
}

=== FILE: model_selector.dfy ===
/**
 * The model selector: which model it picks from the list the backend reports, and how the
 * list and selection requests move its loading, selecting and error state.  What the two
 * requests returned is an input.
 */
module ModelSelector {
  import opened Wrappers
  import opened Text

  /** The index of the first name containing `pat`, or -1. */
  function FirstContaining(models: seq<string>, pat: string): (k: int)
    ensures -1 <= k < |models|
    ensures k >= 0 ==> Contains(models[k], pat)
    ensures forall j :: 0 <= j < |models| && (k < 0 || j < k) ==> !Contains(models[j], pat)
    decreases |models|
  {
    if |models| == 0 then -1
    else if Contains(models[0], pat) then 0
    else
      var k := FirstContaining(models[1..], pat);
      if k < 0 then -1 else k + 1
  }

  /**
   * The initial choice: the first name containing "llama3", else the first containing
   * "llama", else the first name.  The three are joined with `||`, so an empty first name
   * counts as no choice.
   */
  function Preferred(models: seq<string>): (r: Option<string>)
    ensures r.Some? ==> r.value in models && r.value != ""
    ensures r.None? <==> |models| == 0 || (models[0] == "" && forall j :: 0 <= j < |models| ==> !Contains(models[j], "llama"))
    ensures (exists j :: 0 <= j < |models| && Contains(models[j], "llama3")) ==> r.Some? && Contains(r.value, "llama3")
    ensures FirstContaining(models, "llama3") >= 0 ==> r == Some(models[FirstContaining(models, "llama3")])
    ensures FirstContaining(models, "llama3") < 0 && FirstContaining(models, "llama") >= 0 ==>
              r == Some(models[FirstContaining(models, "llama")])
    ensures FirstContaining(models, "llama") < 0 && |models| > 0 && models[0] != "" ==> r == Some(models[0])
  {
    var a := FirstContaining(models, "llama3");
    var b := FirstContaining(models, "llama");
    if a >= 0 then
      NonEmptyContaining(models[a], "llama3");
      Llama3IsLlama(models[a]);
      Some(models[a])
    else if b >= 0 then
      NonEmptyContaining(models[b], "llama");
      Some(models[b])
    else if |models| > 0 && models[0] != "" then Some(models[0])
    else
      assert forall j :: 0 <= j < |models| ==> !Contains(models[j], "llama");
      None
  }

  /** A string containing a non-empty pattern is not empty. */
  lemma NonEmptyContaining(s: string, p: string)
    requires Contains(s, p) && |p| > 0
    ensures s != ""
  {
    ContainsLength(s, p);
  }

  /** A name containing "llama3" contains "llama". */
  lemma Llama3IsLlama(s: string)
    requires Contains(s, "llama3")
    ensures Contains(s, "llama")
  {
    assert "llama3" == "llama" + "3";
    ContainsPrefixOf(s, "llama", "3");
  }

  /**
   * Without a "llama3" name the choice is the first "llama" name; with one, it is the first
   * "llama3" name, which also contains "llama".
   */
  lemma PreferredOrder(models: seq<string>, j: int)
    requires 0 <= j < |models| && Contains(models[j], "llama")
    ensures Preferred(models).Some? && Contains(Preferred(models).value, "llama")
    ensures FirstContaining(models, "llama3") < 0 ==> Preferred(models) == Some(models[FirstContaining(models, "llama")])
  {
    var a := FirstContaining(models, "llama3");
    if a >= 0 {
      Llama3IsLlama(models[a]);
    }
  }

  /** Why a request failed: an `Error`'s message, or some other thrown value. */
  datatype Thrown = ErrorValue(message: string) | OtherValue

  /** The error text shown: the message of an `Error`, else the given fallback. */
  function ErrorText(t: Thrown, fallback: string): (m: string)
    ensures t.ErrorValue? ==> m == t.message
    ensures t.OtherValue? ==> m == fallback
  {
    match t
    case ErrorValue(msg) => msg
    case OtherValue => fallback
  }

  datatype State = State(models: seq<string>, selected: string, loading: bool, selecting: bool,
                         error: Option<string>)

  /** The first render: nothing listed or selected, loading. */
  const Initial: State := State([], "", true, false, None)

  /** A transition's new state and the value `onModelChange` was called with, if any. */
  datatype Step = Step(state: State, notified: Option<string>)

  /** The outcome of listing models: the list, or a failure. */
  datatype ListOutcome = Listed(models: seq<string>) | ListFailed(cause: Thrown)

  /**
   * `fetchModels`: on success the list is shown and the preferred model, if any, selected
   * and reported; on failure the error is shown.  Loading ends either way.
   */
  function FetchModels(s: State, outcome: ListOutcome): (r: Step)
    ensures !r.state.loading && r.state.selecting == s.selecting
    ensures outcome.Listed? ==> r.state.models == outcome.models && r.state.error.None?
    ensures outcome.Listed? ==> r.notified == Preferred(outcome.models)
    ensures outcome.Listed? && r.notified.Some? ==> r.state.selected == r.notified.value && r.notified.value in outcome.models
    ensures r.notified.None? ==> r.state.selected == s.selected
    ensures outcome.ListFailed? ==>
              r == Step(s.(loading := false, error := Some(ErrorText(outcome.cause, "Failed to load models"))), None)
  {
    match outcome
    case ListFailed(t) =>
      Step(s.(loading := false, error := Some(ErrorText(t, "Failed to load models"))), None)
    case Listed(ms) =>
      var p := Preferred(ms);
      var sel := if p.Some? then p.value else s.selected;
      Step(s.(models := ms, selected := sel, loading := false, error := None), p)
  }

  /**
   * `handleSelectModel`: the selection changes, and is reported, only when the backend
   * accepted it (`failure` is `None`); a failure keeps the old selection and shows the error.
   * Selecting ends either way.
   */
  function SelectModel(s: State, name: string, failure: Option<Thrown>): (r: Step)
    ensures !r.state.selecting && r.state.models == s.models && r.state.loading == s.loading
    ensures failure.None? <==> r.notified.Some?
    ensures failure.None? ==> r.state.selected == name && r.notified == Some(name) && r.state.error.None?
    ensures failure.Some? ==> r.state.selected == s.selected
    ensures failure.Some? ==> r.state.error == Some(ErrorText(failure.value, "Failed to select model"))
  {
    match failure
    case None => Step(s.(selected := name, selecting := false, error := None), Some(name))
    case Some(t) => Step(s.(selecting := false, error := Some(ErrorText(t, "Failed to select model"))), None)
  }

  /** An empty model list leaves the selection empty and calls nobody. */
  lemma EmptyListSelectsNothing()
    ensures FetchModels(Initial, Listed([])) == Step(State([], "", false, false, None), None)
  {
  }
}

=== FILE: rag.dfy ===
/**
 * The reply generator behind the chat endpoint: it searches every document for the question,
 * answers with a fixed message when nothing is found, and otherwise numbers the results
 * `[Doc 1]`..`[Doc n]`, sends them as context to the language model together with the
 * conversation so far, forwards the model's chunks and ends with a list of the sources.
 */
module Rag {
  import opened Wrappers
  import opened Text
  import opened Http
  import opened SessionStore
  import opened Variants
  import Retrieval
  import ChatEndpoint
  import Json

  /** The single reply when the search finds nothing. */
  const NoDocuments: string :=
    "I couldn't find any relevant documents to answer your question. Please upload documents related to your query first."

  /** The chunk yielded after the model's answer, before the source lines. */
  const SourcesHeader: string := "\n\n---\n\n**Sources Referenced**\n"

  /** What separates two numbered results in the context. */
  const PartSeparator: string := "\n\n"

  // ---------------------------------------------------------------------------------------
  // Numbering
  // ---------------------------------------------------------------------------------------

  /** The label of the `n`-th result: `[Doc <n>]`. */
  function DocLabel(n: nat): (s: string)
    ensures |s| == 6 + |NatToString(n)|
    ensures s[..5] == "[Doc " && s[5..|s| - 1] == NatToString(n) && s[|s| - 1] == ']'
  {
    var s := "[Doc " + NatToString(n) + "]";
    assert s[5..|s| - 1] == NatToString(n);
    s
  }

  /** Different numbers give different labels, so a label names one result. */
  lemma DocLabelInjective(a: nat, b: nat)
    requires DocLabel(a) == DocLabel(b)
    ensures a == b
  {
    assert NatToString(a) == DocLabel(a)[5..|DocLabel(a)| - 1];
    NatToStringInjective(a, b);
  }

  /** One result as the context shows it: its label, source, section and text. */
  function ContextPart(n: nat, r: Retrieval.SearchResult): (s: string)
    ensures StartsWith(s, DocLabel(n))
    ensures EndsWith(s, r.text)
  {
    var head := DocLabel(n) + " Source: " + r.sourceFilename + " (Section " + r.chunkPosition + "):\n";
    var s := head + r.text;
    assert s[..|DocLabel(n)|] == DocLabel(n);
    assert s[|s| - |r.text|..] == r.text;
    s
  }

  /** One result as the sources footer lists it, under the same label. */
  function SourceLine(n: nat, r: Retrieval.SearchResult): (s: string)
    ensures StartsWith(s, "- " + DocLabel(n) + ": " + r.sourceFilename)
    ensures EndsWith(s, " (Section " + r.chunkPosition + ")\n")
  {
    var head := "- " + DocLabel(n) + ": " + r.sourceFilename;
    var tail := " (Section " + r.chunkPosition + ")\n";
    var s := head + tail;
    assert s[..|head|] == head;
    assert s[|s| - |tail|..] == tail;
    s
  }

  /** The context parts of the results, numbered from 1 in search order. */
  function ContextParts(rs: seq<Retrieval.SearchResult>): (ps: seq<string>)
    ensures |ps| == |rs|
    ensures forall i :: 0 <= i < |rs| ==> ps[i] == ContextPart(i + 1, rs[i])
  {
    seq(|rs|, i requires 0 <= i < |rs| => ContextPart(i + 1, rs[i]))
  }

  /** The source lines of the results, numbered as in the context. */
  function SourceLines(rs: seq<Retrieval.SearchResult>): (ls: seq<string>)
    ensures |ls| == |rs|
    ensures forall i :: 0 <= i < |rs| ==> ls[i] == SourceLine(i + 1, rs[i])
  {
    seq(|rs|, i requires 0 <= i < |rs| => SourceLine(i + 1, rs[i]))
  }

  /**
   * Each result keeps its number in both places: the `i`-th context part and the `i`-th source
   * line both carry label `i + 1`, and no two of the labels 1..n are the same.
   */
  lemma NumberingAgrees(rs: seq<Retrieval.SearchResult>)
    ensures forall i :: 0 <= i < |rs| ==>
              StartsWith(ContextParts(rs)[i], DocLabel(i + 1))
              && StartsWith(SourceLines(rs)[i], "- " + DocLabel(i + 1) + ": " + rs[i].sourceFilename)
    ensures forall a: nat, b: nat :: 1 <= a < b <= |rs| ==> DocLabel(a) != DocLabel(b)
  {
    forall a: nat, b: nat | 1 <= a < b <= |rs|
      ensures DocLabel(a) != DocLabel(b)
    {
      if DocLabel(a) == DocLabel(b) {
        DocLabelInjective(a, b);
      }
    }
  }

  // ---------------------------------------------------------------------------------------
  // Context and prompt
  // ---------------------------------------------------------------------------------------

  /** `sep.join(parts)`. */
  function JoinWith(parts: seq<string>, sep: string): (s: string)
    ensures |parts| == 0 ==> s == ""
    decreases |parts|
  {
    if |parts| == 0 then ""
    else if |parts| == 1 then parts[0]
    else parts[0] + sep + JoinWith(parts[1..], sep)
  }

  /** Every piece appears in the joined text. */
  lemma {:induction false} JoinWithHoldsParts(parts: seq<string>, sep: string, i: nat)
    requires i < |parts|
    ensures Contains(JoinWith(parts, sep), parts[i])
    decreases i
  {
    var s := JoinWith(parts, sep);
    if i == 0 {
      assert s[0..|parts[0]|] == parts[0];
      ContainsAt(s, parts[0], 0);
    } else {
      JoinWithHoldsParts(parts[1..], sep, i - 1);
      assert parts[1..][i - 1] == parts[i];
      ContainsInSuffix(parts[0] + sep, JoinWith(parts[1..], sep), parts[i]);
    }
  }

  /** The context: the numbered parts joined by blank lines. */
  function Context(rs: seq<Retrieval.SearchResult>): (c: string)
    ensures |rs| == 0 <==> c == ""
  {
    if |rs| == 0 then ""
    else
      assert ContextParts(rs)[0] == ContextPart(1, rs[0]);
      assert |JoinWith(ContextParts(rs), PartSeparator)| >= |ContextPart(1, rs[0])| by {
        JoinWithHoldsParts(ContextParts(rs), PartSeparator, 0);
        ContainsLength(JoinWith(ContextParts(rs), PartSeparator), ContextPart(1, rs[0]));
      }
      JoinWith(ContextParts(rs), PartSeparator)
  }

  /** The context shows every result under its number, with its text. */
  lemma ContextCitesEveryResult(rs: seq<Retrieval.SearchResult>)
    ensures forall i :: 0 <= i < |rs| ==> Contains(Context(rs), ContextPart(i + 1, rs[i]))
    ensures forall i :: 0 <= i < |rs| ==> Contains(Context(rs), rs[i].text)
  {
    forall i | 0 <= i < |rs|
      ensures Contains(Context(rs), ContextPart(i + 1, rs[i]))
      ensures Contains(Context(rs), rs[i].text)
    {
      JoinWithHoldsParts(ContextParts(rs), PartSeparator, i);
      var part := ContextPart(i + 1, rs[i]);
      var k := |part| - |rs[i].text|;
      assert part == part[..k] + rs[i].text;
      ContainsInSuffix(part[..k], rs[i].text, rs[i].text) by {
        ContainsAt(rs[i].text, rs[i].text, 0);
      }
      ContainsTransitive(Context(rs), part, rs[i].text);
    }
  }

  /** A piece of a piece of `s` is a piece of `s`. */
  lemma ContainsTransitive(s: string, p: string, q: string)
    requires Contains(s, p) && Contains(p, q)
    ensures Contains(s, q)
  {
    ContainsOccurs(s, p);
    ContainsOccurs(p, q);
    var i: nat :| OccursAt(s, p, i);
    var j: nat :| OccursAt(p, q, j);
    assert s[i..i + |p|] == p && p[j..j + |q|] == q;
    forall k | 0 <= k < |q|
      ensures s[i + j + k] == q[k]
    {
      assert s[i + j + k] == s[i..i + |p|][j + k] == p[j + k] == p[j..j + |q|][k];
    }
    assert s[i + j..i + j + |q|] == q;
    ContainsAt(s, q, i + j);
  }

  /**
   * A message sent to the model.  The system message is the prompt template filled with the
   * context and the number of results; it is kept as those two values.
   */
  datatype LlmMessage = SystemPrompt(context: string, numDocs: nat) | Turn(msg: StoredMsg)

  /** The message list: the system prompt, the conversation so far, then the question. */
  function Messages(query: string, history: seq<StoredMsg>, rs: seq<Retrieval.SearchResult>)
    : (ms: seq<LlmMessage>)
    ensures |ms| == |history| + 2
    ensures ms[0] == SystemPrompt(Context(rs), |rs|)
    ensures forall i :: 0 <= i < |history| ==> ms[i + 1] == Turn(history[i])
    ensures ms[|ms| - 1] == Turn(StoredMsg("user", query))
  {
    [SystemPrompt(Context(rs), |rs|)] + seq(|history|, i requires 0 <= i < |history| => Turn(history[i]))
    + [Turn(StoredMsg("user", query))]
  }

  /**
   * The model sees exactly one system message, first, and the conversation turns can be read
   * back from the rest of the list in their order.
   */
  lemma OneSystemMessage(query: string, history: seq<StoredMsg>, rs: seq<Retrieval.SearchResult>)
    ensures var ms := Messages(query, history, rs);
            (forall i :: 0 <= i < |ms| ==> (ms[i].SystemPrompt? <==> i == 0))
            && Turns(ms[1..]) == history + [StoredMsg("user", query)]
  {
    var ms := Messages(query, history, rs);
    var want := history + [StoredMsg("user", query)];
    assert |Turns(ms[1..])| == |want|;
    forall i | 0 <= i < |want|
      ensures Turns(ms[1..])[i] == want[i]
    {
      assert ms[1..][i] == ms[i + 1];
    }
  }

  /** The conversation turns of a message list, in order. */
  function Turns(ms: seq<LlmMessage>): (ts: seq<StoredMsg>)
    requires forall i :: 0 <= i < |ms| ==> ms[i].Turn?
    ensures |ts| == |ms| && forall i :: 0 <= i < |ms| ==> ms[i] == Turn(ts[i])
  {
    seq(|ms|, i requires 0 <= i < |ms| => ms[i].msg)
  }

  // ---------------------------------------------------------------------------------------
  // The generator
  // ---------------------------------------------------------------------------------------

  /** What the model's chat stream did: the chunks it yielded and the exception text after. */
  datatype LlmStream = LlmStream(chunks: seq<string>, failure: Option<string>)

  /**
   * One run of the generator: the collection query it issued, the messages it sent to the
   * model (if it called it), and what it yielded and raised.
   */
  datatype RagRun = RagRun(search: Option<Retrieval.QueryCall>, prompt: Option<seq<LlmMessage>>,
                           output: ChatEndpoint.Generation)

  /**
   * `generate_rag_response`.  The search runs over all documents with `topK`; its exception
   * propagates before anything is yielded.  No results: the fixed message alone, and the model
   * is not called.  Otherwise the model's chunks are forwarded as they come; if the stream
   * raises, the generator raises after them, else the sources follow.
   */
  function GenerateRagResponse(v: Variant, query: string, history: seq<StoredMsg>, topK: int,
                               embedding: Retrieval.Embedding, answer: Retrieval.Answer,
                               llm: LlmStream): (r: RagRun)
    ensures r.search == Retrieval.SearchDocuments(v, topK, None, embedding, answer).0
    ensures r.prompt.Some? <==> Retrieval.SearchDocuments(v, topK, None, embedding, answer).1.Ok?
                                && Retrieval.SearchDocuments(v, topK, None, embedding, answer).1.value != []
    ensures r.prompt.None? ==> |r.output.chunks| <= 1
    ensures r.prompt.Some? ==> |r.output.chunks| >= |llm.chunks| && r.output.chunks[..|llm.chunks|] == llm.chunks
  {
    var (call, found) := Retrieval.SearchDocuments(v, topK, None, embedding, answer);
    match found
    case Err(e) => RagRun(call, None, ChatEndpoint.Generation([], Some(e.message)))
    case Ok(rs) =>
      if rs == [] then RagRun(call, None, ChatEndpoint.Generation([NoDocuments], None))
      else
        var prompt := Messages(query, history, rs);
        match llm.failure
        case Some(msg) => RagRun(call, Some(prompt), ChatEndpoint.Generation(llm.chunks, Some(msg)))
        case None =>
          var out := llm.chunks + [SourcesHeader] + SourceLines(rs);
          assert out[..|llm.chunks|] == llm.chunks;
          RagRun(call, Some(prompt), ChatEndpoint.Generation(out, None))
  }

  /** The search always covers every document: it is issued with `topK` and no filter. */
  lemma SearchesAllDocuments(v: Variant, query: string, history: seq<StoredMsg>, topK: int,
                             answer: Retrieval.Answer, llm: LlmStream)
    ensures GenerateRagResponse(v, query, history, topK, Retrieval.Embedded, answer, llm).search
            == Some(Retrieval.QueryCall(topK, Retrieval.NoFilter))
  {
  }

  /** A failing search raises its message and yields nothing; the model is not called. */
  lemma SearchFailurePropagates(v: Variant, query: string, history: seq<StoredMsg>, topK: int,
                                embedding: Retrieval.Embedding, answer: Retrieval.Answer, llm: LlmStream)
    requires Retrieval.SearchDocuments(v, topK, None, embedding, answer).1.Err?
    ensures var r := GenerateRagResponse(v, query, history, topK, embedding, answer, llm);
            r.prompt.None?
            && r.output == ChatEndpoint.Generation([], Some(Retrieval.SearchDocuments(v, topK, None, embedding, answer).1.error.message))
  {
  }

  /** Nothing found: exactly the fixed message, no exception, and no model call. */
  lemma NothingFoundOneMessage(v: Variant, query: string, history: seq<StoredMsg>, topK: int, llm: LlmStream)
    ensures var r := GenerateRagResponse(v, query, history, topK, Retrieval.Embedded, Retrieval.Returned([]), llm);
            r.prompt.None? && r.output == ChatEndpoint.Generation([NoDocuments], None)
  {
  }

  /**
   * With results, the model gets the message list built from them, and what is yielded is the
   * model's chunks unchanged, then (if the stream completed) the header and one source line per
   * result in the numbering of the context.
   */
  lemma AnswerThenSources(v: Variant, query: string, history: seq<StoredMsg>, topK: int,
                          ms: seq<Retrieval.Match>, llm: LlmStream)
    requires ms != []
    ensures var r := GenerateRagResponse(v, query, history, topK, Retrieval.Embedded, Retrieval.Returned(ms), llm);
            var rs := Retrieval.Ranked(ms);
            r.prompt == Some(Messages(query, history, rs))
            && r.output.failure == llm.failure
            && (llm.failure.Some? ==> r.output.chunks == llm.chunks)
            && (llm.failure.None? ==>
                  |r.output.chunks| == |llm.chunks| + 1 + |ms|
                  && r.output.chunks[..|llm.chunks|] == llm.chunks
                  && r.output.chunks[|llm.chunks|] == SourcesHeader
                  && r.output.chunks[|llm.chunks| + 1..] == SourceLines(rs))
  {
    Retrieval.RankedAreMatches(ms);
    var rs := Retrieval.Ranked(ms);
    assert rs != [];
  }

  /**
   * End to end with the chat endpoint: a completed answer is saved as the model's whole text
   * followed by the sources, after the question.
   */
  lemma AnswerSavedWithSources(v: Variant, req: ChatEndpoint.ChatRequest, store: Store, ms: seq<Retrieval.Match>,
                               chunks: seq<string>, now: string)
    requires ms != []
    ensures var r := GenerateRagResponse(v, req.message, ChatEndpoint.PriorHistory(store, req.sessionId), req.topK,
                                         Retrieval.Embedded, Retrieval.Returned(ms), LlmStream(chunks, None));
            var saved := ChatEndpoint.ChatMessage(req, store, r.output, None, now).store;
            req.sessionId in saved
            && saved[req.sessionId].messages
               == ChatEndpoint.PriorHistory(store, req.sessionId)
                  + [StoredMsg("user", req.message),
                     StoredMsg("assistant", Concat(chunks) + SourcesHeader + Concat(SourceLines(Retrieval.Ranked(ms))))]
  {
    var history := ChatEndpoint.PriorHistory(store, req.sessionId);
    AnswerThenSources(v, req.message, history, req.topK, ms, LlmStream(chunks, None));
    var r := GenerateRagResponse(v, req.message, history, req.topK, Retrieval.Embedded, Retrieval.Returned(ms), LlmStream(chunks, None));
    var lines := SourceLines(Retrieval.Ranked(ms));
    assert r.output.chunks == chunks + [SourcesHeader] + lines;
    ConcatAppend(chunks + [SourcesHeader], lines);
    ConcatAppend(chunks, [SourcesHeader]);
    ConcatSingle(SourcesHeader);
    ChatEndpoint.SavedAfterDone(req, store, r.output.chunks, now);
  }

  /** When nothing is found, the session records the fixed message as the answer. */
  lemma NothingFoundSaved(v: Variant, req: ChatEndpoint.ChatRequest, store: Store, llm: LlmStream, now: string)
    ensures var r := GenerateRagResponse(v, req.message, ChatEndpoint.PriorHistory(store, req.sessionId), req.topK,
                                         Retrieval.Embedded, Retrieval.Returned([]), llm);
            var saved := ChatEndpoint.ChatMessage(req, store, r.output, None, now).store;
            req.sessionId in saved
            && saved[req.sessionId].messages
               == ChatEndpoint.PriorHistory(store, req.sessionId)
                  + [StoredMsg("user", req.message), StoredMsg("assistant", NoDocuments)]
  {
    ConcatSingle(NoDocuments);
    ChatEndpoint.SavedAfterDone(req, store, [NoDocuments], now);
  }

  /** A failing search ends the stream with its message and saves nothing. */
  lemma SearchFailureSavesNothing(v: Variant, req: ChatEndpoint.ChatRequest, store: Store, e: Raised,
                                  llm: LlmStream, now: string)
    ensures var r := GenerateRagResponse(v, req.message, ChatEndpoint.PriorHistory(store, req.sessionId), req.topK,
                                         Retrieval.EmbedRaised(e), Retrieval.Returned([]), llm);
            var reply := ChatEndpoint.ChatMessage(req, store, r.output, None, now);
            reply.frames == [Json.ErrorFrame(Retrieval.EmbeddingFailure(e).message)]
            && reply.store == store
  {
  }

  /**
   * As the program is written, a failed collection query other than an empty collection ends
   * the chat stream with the unbound-variable message, and nothing is saved.
   */
  lemma QueryErrorInChatAsWritten(req: ChatEndpoint.ChatRequest, store: Store, e: Raised,
                                  llm: LlmStream, now: string)
    requires !Retrieval.NoResultsError(e)
    ensures var r := GenerateRagResponse(AsWritten, req.message, ChatEndpoint.PriorHistory(store, req.sessionId),
                                         req.topK, Retrieval.Embedded, Retrieval.QueryRaised(e), llm);
            var reply := ChatEndpoint.ChatMessage(req, store, r.output, None, now);
            r.prompt.None?
            && reply.frames == [Json.ErrorFrame(Retrieval.UnboundResults)]
            && reply.store == store
  {
  }
}

=== FILE: retrieval.dfy ===
/**
 * The retrieval service: a query is embedded, the collection is asked for the nearest chunks
 * (restricted to the selected documents, if any), and each match is turned into a search
 * result carrying its text, its source and its position, most relevant first.  The
 * embedding call and the collection's answer are inputs.
 */
module Retrieval {
  import opened Wrappers
  import opened Text
  import opened Http
  import opened Variants
  import VectorStore
  import Sorting

  // ---------------------------------------------------------------------------------------
  // The document filter
  // ---------------------------------------------------------------------------------------

  /** The `where` argument of the collection query. */
  datatype Where = NoFilter | DocIdEq(id: string) | DocIdIn(ids: seq<string>)

  /** No filter for an absent or empty id list, `$eq` for one id, `$in` for several. */
  function WhereClause(docIds: Option<seq<string>>): (w: Where)
    ensures w == NoFilter <==> docIds.None? || |docIds.value| == 0
    ensures w.DocIdEq? <==> docIds.Some? && |docIds.value| == 1
    ensures w.DocIdEq? ==> w.id == docIds.value[0]
    ensures w.DocIdIn? ==> |docIds.value| >= 2 && w.ids == docIds.value
  {
    match docIds
    case None => NoFilter
    case Some(ids) =>
      if |ids| == 0 then NoFilter
      else if |ids| == 1 then DocIdEq(ids[0])
      else DocIdIn(ids)
  }

  /** Whether the collection lets a record of document `docId` through the filter. */
  predicate Admits(w: Where, docId: string)
  {
    match w
    case NoFilter => true
    case DocIdEq(id) => docId == id
    case DocIdIn(ids) => docId in ids
  }

  /** The filter lets through exactly the selected documents, or everything without a selection. */
  lemma FilterAdmitsSelection(docIds: Option<seq<string>>, docId: string)
    ensures docIds.Some? && |docIds.value| > 0 ==> (Admits(WhereClause(docIds), docId) <==> docId in docIds.value)
    ensures docIds.None? || |docIds.value| == 0 ==> Admits(WhereClause(docIds), docId)
  {
  }

  // ---------------------------------------------------------------------------------------
  // Formatting results
  // ---------------------------------------------------------------------------------------

  /** A cosine distance as the collection reports it: never negative. */
  type Distance = d: real | d >= 0.0

  /** One chunk the collection returned: its text, its metadata and its distance to the query. */
  datatype Match = Match(text: string, meta: VectorStore.ChunkMeta, distance: Distance)

  /** `SearchResult`. */
  datatype SearchResult = SearchResult(text: string, sourceFilename: string, sourceDocId: string,
                                       chunkPosition: string, relevance: real)

  /** `1 / (1 + distance)`: in (0, 1], and 1 exactly at distance 0. */
  function Relevance(d: Distance): (r: real)
    ensures 0.0 < r <= 1.0
    ensures r == 1.0 <==> d == 0.0
  {
    1.0 / (1.0 + d)
  }

  /** A nearer chunk is more relevant: relevance order is distance order reversed. */
  lemma RelevanceReversesDistance(a: Distance, b: Distance)
    ensures Relevance(a) >= Relevance(b) <==> a <= b
  {
    var x, y := 1.0 + a, 1.0 + b;
    var rx, ry := 1.0 / x, 1.0 / y;
    assert rx * x == 1.0 && ry * y == 1.0;
    assert rx * ry * y == rx && rx * ry * x == ry;
    var k := rx * ry;
    assert rx - ry == k * (y - x);
    assert k > 0.0;
    if a <= b {
      assert k * (y - x) >= 0.0;
    } else {
      assert k * (y - x) < 0.0;
    }
  }

  /** `chunk_position`: the 1-based chunk number, a slash, and the chunk count. */
  function ChunkPosition(chunkIndex: nat, totalChunks: nat): (p: string)
    ensures p == NatToString(chunkIndex + 1) + "/" + NatToString(totalChunks)
  {
    NatToString(chunkIndex + 1) + "/" + NatToString(totalChunks)
  }

  /** The first slash of a position separates the chunk number from the count. */
  lemma PositionParts(i: nat, n: nat)
    ensures IndexOf(ChunkPosition(i, n), '/') == |NatToString(i + 1)|
    ensures ChunkPosition(i, n)[..|NatToString(i + 1)|] == NatToString(i + 1)
    ensures ChunkPosition(i, n)[|NatToString(i + 1)| + 1..] == NatToString(n)
  {
    var a := NatToString(i + 1);
    var p := ChunkPosition(i, n);
    assert p == a + ("/" + NatToString(n));
    IndexOfFirst(a, '/');
    IndexOfAppend(a, "/" + NatToString(n), '/');
  }

  /** A position names its chunk number and count unambiguously. */
  lemma ChunkPositionInjective(i: nat, n: nat, j: nat, m: nat)
    requires ChunkPosition(i, n) == ChunkPosition(j, m)
    ensures i == j && n == m
  {
    PositionParts(i, n);
    PositionParts(j, m);
    NatToStringInjective(i + 1, j + 1);
    NatToStringInjective(n, m);
  }

  /**
   * A chunk stored by `add_chunks` gets a position whose number lies between 1 and the
   * document's chunk count.
   */
  lemma PositionInRange(docId: string, filename: string, n: nat, i: nat)
    requires i < n
    ensures var m := VectorStore.Metas(docId, filename, n)[i];
            ChunkPosition(m.chunkIndex, m.totalChunks) == NatToString(i + 1) + "/" + NatToString(n)
            && 1 <= i + 1 <= n
  {
  }

  /** The search result for one match. */
  function Format(m: Match): (r: SearchResult)
    ensures r.text == m.text && r.sourceFilename == m.meta.filename && r.sourceDocId == m.meta.docId
    ensures r.chunkPosition == ChunkPosition(m.meta.chunkIndex, m.meta.totalChunks)
    ensures r.relevance == Relevance(m.distance)
  {
    SearchResult(m.text, m.meta.filename, m.meta.docId,
                 ChunkPosition(m.meta.chunkIndex, m.meta.totalChunks), Relevance(m.distance))
  }

  function FormatAll(ms: seq<Match>): (rs: seq<SearchResult>)
    ensures |rs| == |ms| && forall i :: 0 <= i < |ms| ==> rs[i] == Format(ms[i])
  {
    seq(|ms|, i requires 0 <= i < |ms| => Format(ms[i]))
  }

  /** `x` may be listed before `y`: it is at least as relevant. */
  predicate MoreRelevant(x: SearchResult, y: SearchResult)
  {
    x.relevance >= y.relevance
  }

  lemma MoreRelevantOrder()
    ensures Sorting.Total(MoreRelevant) && Sorting.Transitive(MoreRelevant)
  {
  }

  /**
   * The formatted matches sorted by relevance, highest first, as `sort(reverse=True)` does.
   */
  function Ranked(ms: seq<Match>): (rs: seq<SearchResult>)
    ensures multiset(rs) == multiset(FormatAll(ms)) && |rs| == |ms|
    ensures forall i, j :: 0 <= i < j < |rs| ==> rs[i].relevance >= rs[j].relevance
  {
    var fs := FormatAll(ms);
    MoreRelevantOrder();
    var rs := Sorting.Sort(fs, MoreRelevant);
    Sorting.SortedEverywhere(rs, MoreRelevant);
    assert |rs| == |multiset(rs)| == |multiset(fs)| == |fs|;
    rs
  }

  /** Every result is the formatting of some match, and every match yields a result. */
  lemma RankedAreMatches(ms: seq<Match>)
    ensures forall r :: r in Ranked(ms) <==> exists m :: m in ms && r == Format(m)
  {
    var rs := Ranked(ms);
    var fs := FormatAll(ms);
    forall r
      ensures r in rs <==> exists m :: m in ms && r == Format(m)
    {
      calc {
        r in rs;
        multiset(rs)[r] > 0;
        multiset(fs)[r] > 0;
        r in fs;
      }
      if r in fs {
        var i :| 0 <= i < |fs| && fs[i] == r;
        assert ms[i] in ms;
      }
      if exists m :: m in ms && r == Format(m) {
        var m :| m in ms && r == Format(m);
        var i :| 0 <= i < |ms| && ms[i] == m;
        assert fs[i] == r;
      }
    }
  }

  // ---------------------------------------------------------------------------------------
  // The search
  // ---------------------------------------------------------------------------------------

  /** The query embedding was produced, or the embedding call raised. */
  datatype Embedding = Embedded | EmbedRaised(error: Raised)

  /** The collection's answer to the query: the nearest chunks (possibly none), or an exception. */
  datatype Answer = Returned(matches: seq<Match>) | QueryRaised(error: Raised)

  /** The collection query issued: at most `nResults` chunks through the filter `where`. */
  datatype QueryCall = QueryCall(nResults: int, where: Where)

  /** An embedding failure, reported as a `RuntimeError` that says a search cannot be made. */
  function EmbeddingFailure(e: Raised): (r: Raised)
    ensures e.kind == RuntimeErrorKind ==> r.kind == RuntimeErrorKind && StartsWith(r.message, "Cannot search: ")
    ensures e.kind == RuntimeErrorKind ==> r.message[|"Cannot search: "|..] == e.message
    ensures e.kind != RuntimeErrorKind ==> r == e
  {
    if e.kind == RuntimeErrorKind then Raised(RuntimeErrorKind, "Cannot search: " + e.message) else e
  }

  /** The collection reported an empty collection rather than a failure. */
  predicate NoResultsError(e: Raised)
  {
    Contains(Lower(e.message), "no results")
  }

  /**
   * The handler of a failed query as intended: an empty-collection error gives no results, any
   * other error is raised again unchanged.
   */
  function QueryFailure(e: Raised): (r: Result<seq<SearchResult>, Raised>)
    ensures r.Ok? <==> NoResultsError(e)
    ensures r.Ok? ==> r.value == []
    ensures r.Err? ==> r.error == e
  {
    if NoResultsError(e) then Ok([]) else Err(e)
  }

  /** The message CPython 3.11 and later give when a local variable is read before any assignment. */
  const UnboundResults: string := "cannot access local variable 'results' where it is not associated with a value"

  /**
   * The handler of a failed query as written: `results` was never assigned, so unless the
   * message mentions "no results", evaluating the rest of the condition raises
   * `UnboundLocalError` and the original exception is lost.
   */
  function QueryFailureAsWritten(e: Raised): (r: Result<seq<SearchResult>, Raised>)
    ensures r.Ok? <==> NoResultsError(e)
    ensures r.Err? ==> r.error == Raised(UnboundLocalErrorKind, UnboundResults)
  {
    if NoResultsError(e) then Ok([]) else Err(Raised(UnboundLocalErrorKind, UnboundResults))
  }

  /** The two handlers differ on every failure that is not an empty collection. */
  lemma UnboundResultsHidesError(e: Raised)
    requires !NoResultsError(e) && e.kind != UnboundLocalErrorKind
    ensures QueryFailureAsWritten(e) != QueryFailure(e)
    ensures QueryFailureAsWritten(e).error.kind == UnboundLocalErrorKind && QueryFailure(e).error == e
  {
  }

  /** A concrete case: a locked database turns into an unbound-variable error. */
  lemma LockedDatabaseExample()
    ensures var e := Raised(OtherErrorKind, "database is locked");
            QueryFailureAsWritten(e) == Err(Raised(UnboundLocalErrorKind, UnboundResults))
            && QueryFailure(e) == Err(e)
  {
    var low := Lower("database is locked");
    assert low == "database is locked";
    NoResultsAbsent(low);
  }

  /** A text without the letter n does not contain "no results". */
  lemma NoResultsAbsent(s: string)
    requires 'n' !in s
    ensures !Contains(s, "no results")
  {
    forall i: nat
      ensures !OccursAt(s, "no results", i)
    {
      if i + 10 <= |s| {
        assert s[i..i + 10][0] == s[i] != 'n';
      }
    }
    ContainsOccurs(s, "no results");
  }

  /**
   * The handler of a failed query in the chosen reading: as written, every failure other than
   * an empty collection surfaces as the unbound-variable error.
   */
  function HandleQueryFailure(v: Variant, e: Raised): (r: Result<seq<SearchResult>, Raised>)
    ensures r.Ok? <==> NoResultsError(e)
    ensures r.Ok? ==> r.value == []
    ensures r.Err? && v == Intended ==> r.error == e
    ensures r.Err? && v == AsWritten ==> r.error == Raised(UnboundLocalErrorKind, UnboundResults)
  {
    if v == AsWritten then QueryFailureAsWritten(e) else QueryFailure(e)
  }

  /**
   * `search_documents`, with the failure handler as written or as intended.  Returns the
   * query issued, if the embedding succeeded, and the results or the exception raised.
   */
  function SearchDocuments(v: Variant, topK: int, docIds: Option<seq<string>>, embedding: Embedding, answer: Answer)
    : (r: (Option<QueryCall>, Result<seq<SearchResult>, Raised>))
    ensures embedding.EmbedRaised? ==> r.0.None? && r.1 == Err(EmbeddingFailure(embedding.error))
    ensures embedding.Embedded? ==> r.0 == Some(QueryCall(topK, WhereClause(docIds)))
    ensures embedding.Embedded? && answer.QueryRaised? ==> r.1 == HandleQueryFailure(v, answer.error)
    ensures embedding.Embedded? && answer.Returned? ==> r.1 == Ok(Ranked(answer.matches))
  {
    match embedding
    case EmbedRaised(e) => (None, Err(EmbeddingFailure(e)))
    case Embedded =>
      var call := QueryCall(topK, WhereClause(docIds));
      match answer
      case QueryRaised(e) => (Some(call), HandleQueryFailure(v, e))
      case Returned(ms) => if |ms| == 0 then (Some(call), Ok([])) else (Some(call), Ok(Ranked(ms)))
  }

  /** An empty answer gives no results. */
  lemma EmptyAnswerNoResults(v: Variant, topK: int, docIds: Option<seq<string>>)
    ensures SearchDocuments(v, topK, docIds, Embedded, Returned([])).1 == Ok([])
  {
  }
}

=== FILE: search_api.dfy ===
/**
 * The search endpoint: query parameters are checked and parsed, the retrieval service is
 * called, and a failure of the embedding service becomes a 503.
 */
module SearchApi {
  import opened Wrappers
  import opened Text
  import opened Http
  import opened Retrieval
  import opened Variants

  // ---------------------------------------------------------------------------------------
  // `doc_ids`
  // ---------------------------------------------------------------------------------------

  /** Each piece with surrounding whitespace stripped. */
  function Stripped(parts: seq<string>): (ts: seq<string>)
    ensures |ts| == |parts| && forall i :: 0 <= i < |parts| ==> ts[i] == Strip(parts[i], PyWhitespace)
  {
    seq(|parts|, i requires 0 <= i < |parts| => Strip(parts[i], PyWhitespace))
  }

  /** The strings that are not empty, in order. */
  function NonEmpty(xs: seq<string>): (ys: seq<string>)
    ensures |ys| <= |xs|
    ensures forall i :: 0 <= i < |ys| ==> ys[i] != "" && ys[i] in xs
    ensures forall x :: x != "" ==> multiset(ys)[x] == multiset(xs)[x]
  {
    if |xs| == 0 then []
    else if xs[0] == "" then
      assert xs == [xs[0]] + xs[1..];
      NonEmpty(xs[1..])
    else
      assert xs == [xs[0]] + xs[1..];
      [xs[0]] + NonEmpty(xs[1..])
  }

  /** Filtering keeps the order: the kept strings of `a + b` are those of `a`, then of `b`. */
  lemma {:induction false} NonEmptyAppend(a: seq<string>, b: seq<string>)
    ensures NonEmpty(a + b) == NonEmpty(a) + NonEmpty(b)
  {
    if |a| == 0 {
      assert a + b == b;
    } else {
      assert (a + b)[1..] == a[1..] + b;
      NonEmptyAppend(a[1..], b);
    }
  }

  /** A single string is kept exactly when it is not empty. */
  lemma NonEmptySingle(x: string)
    ensures NonEmpty([x]) == if x == "" then [] else [x]
  {
    assert [x][1..] == [];
  }

  /** A list without empty strings is kept whole. */
  lemma {:induction false} NonEmptyKeepsAll(xs: seq<string>)
    requires forall i :: 0 <= i < |xs| ==> xs[i] != ""
    ensures NonEmpty(xs) == xs
  {
    if |xs| > 0 {
      NonEmptyKeepsAll(xs[1..]);
      assert xs == [xs[0]] + xs[1..];
    }
  }

  /** A list of empty strings is dropped entirely. */
  lemma {:induction false} NonEmptyDropsAll(xs: seq<string>)
    requires forall i :: 0 <= i < |xs| ==> xs[i] == ""
    ensures NonEmpty(xs) == []
  {
    if |xs| > 0 {
      NonEmptyDropsAll(xs[1..]);
    }
  }

  /** The stripped pieces that are not empty, in order: each is one of the pieces, stripped. */
  function Kept(parts: seq<string>): (ids: seq<string>)
    ensures |ids| <= |parts|
    ensures forall i :: 0 <= i < |ids| ==> ids[i] != "" && ids[i] in Stripped(parts)
    ensures forall x :: x != "" ==> multiset(ids)[x] == multiset(Stripped(parts))[x]
  {
    NonEmpty(Stripped(parts))
  }

  /** The ids of `a + b` are those of `a` followed by those of `b`. */
  lemma KeptAppend(a: seq<string>, b: seq<string>)
    ensures Kept(a + b) == Kept(a) + Kept(b)
  {
    StrippedAppend(a, b);
    NonEmptyAppend(Stripped(a), Stripped(b));
  }

  /**
   * A single piece gives its stripped form unless that is empty; with `KeptAppend`, every
   * non-empty stripped piece is kept, in order.
   */
  lemma KeptSingle(p: string)
    ensures Kept([p]) == if Strip(p, PyWhitespace) == "" then [] else [Strip(p, PyWhitespace)]
  {
    assert Stripped([p]) == [Strip(p, PyWhitespace)];
    NonEmptySingle(Strip(p, PyWhitespace));
  }

  lemma StrippedAppend(a: seq<string>, b: seq<string>)
    ensures Stripped(a + b) == Stripped(a) + Stripped(b)
  {
    var l, sa, sb := Stripped(a + b), Stripped(a), Stripped(b);
    assert |l| == |sa + sb|;
    forall i | 0 <= i < |l|
      ensures l[i] == (sa + sb)[i]
    {
      if i < |a| {
        assert (a + b)[i] == a[i] && (sa + sb)[i] == sa[i];
      } else {
        assert (a + b)[i] == b[i - |a|] && (sa + sb)[i] == sb[i - |a|];
      }
    }
    assert l == sa + sb;
  }

  /** No kept id begins or ends with whitespace. */
  lemma KeptUnpaddedIds(parts: seq<string>)
    ensures forall i :: 0 <= i < |Kept(parts)| ==> Unpadded(Kept(parts)[i])
  {
    var ts := Stripped(parts);
    forall t | t in ts
      ensures Unpadded(t)
    {
      var j :| 0 <= j < |ts| && ts[j] == t;
      StripEnds(parts[j]);
    }
  }

  /** `t` neither begins nor ends with whitespace. */
  predicate Unpadded(t: string)
  {
    t == "" || (!PyWhitespace(t[0]) && !PyWhitespace(t[|t| - 1]))
  }

  lemma StripEnds(p: string)
    ensures Unpadded(Strip(p, PyWhitespace))
  {
  }

  /**
   * `doc_ids`: absent or empty gives no list; otherwise the comma-separated pieces, stripped,
   * with the empty ones dropped.
   */
  function ParseDocIds(raw: Option<string>): (r: Option<seq<string>>)
    ensures r.None? <==> raw.None? || raw.value == ""
    ensures r.Some? ==> forall i :: 0 <= i < |r.value| ==> r.value[i] != "" && ',' !in r.value[i]
    ensures r.Some? ==> r.value == Kept(Split(raw.value, ','))
  {
    match raw
    case None => None
    case Some(s) =>
      if s == "" then None
      else
        var parts := Split(s, ',');
        SplitPiecesSeparatorFree(s, ',');
        var ids := Kept(parts);
        forall i | 0 <= i < |ids|
          ensures ',' !in ids[i]
        {
          var j :| 0 <= j < |parts| && Stripped(parts)[j] == ids[i];
          StripInside(parts[j], PyWhitespace, ',');
        }
        Some(ids)
  }

  /** Stripping keeps only characters of the stripped text. */
  lemma StripInside(s: string, isWs: char -> bool, c: char)
    requires c !in s
    ensures c !in Strip(s, isWs)
  {
  }

  /**
   * Ids that are non-empty, comma-free and unpadded survive being joined with commas and
   * parsed again.
   */
  lemma ParseJoined(ids: seq<string>)
    requires |ids| >= 1
    requires forall i :: 0 <= i < |ids| ==> ids[i] != "" && ',' !in ids[i]
    requires forall i :: 0 <= i < |ids| ==> Unpadded(ids[i])
    ensures ParseDocIds(Some(Join(ids, ','))) == Some(ids)
  {
    SplitJoin(ids, ',');
    KeptUnpadded(ids);
    assert Join(ids, ',') != "" by {
      JoinNonEmpty(ids, ',');
    }
  }

  lemma JoinNonEmpty(parts: seq<string>, sep: char)
    requires |parts| >= 1 && parts[0] != ""
    ensures |Join(parts, sep)| >= |parts[0]| > 0
  {
  }

  /** Non-empty unpadded pieces are all kept as they are. */
  lemma KeptUnpadded(parts: seq<string>)
    requires forall i :: 0 <= i < |parts| ==> parts[i] != ""
    requires forall i :: 0 <= i < |parts| ==> Unpadded(parts[i])
    ensures Kept(parts) == parts
  {
    forall i | 0 <= i < |parts|
      ensures Stripped(parts)[i] == parts[i]
    {
      StripFixed(parts[i], PyWhitespace);
    }
    assert Stripped(parts) == parts;
    NonEmptyKeepsAll(parts);
  }

  /** A non-empty value made only of commas and spaces parses to an empty list, not to none. */
  lemma CommasAndSpacesOnly(s: string)
    requires s != "" && forall i :: 0 <= i < |s| ==> s[i] == ',' || s[i] == ' '
    ensures ParseDocIds(Some(s)) == Some([])
  {
    var parts := Split(s, ',');
    SplitPiecesFrom(s, ',');
    SplitPiecesSeparatorFree(s, ',');
    forall j | 0 <= j < |parts|
      ensures forall k :: 0 <= k < |parts[j]| ==> PyWhitespace(parts[j][k])
    {
      forall k | 0 <= k < |parts[j]|
        ensures PyWhitespace(parts[j][k])
      {
        var c := parts[j][k];
        assert c in parts[j];
        assert c in s;
        var i :| 0 <= i < |s| && s[i] == c;
        assert c != ',';
      }
    }
    KeptBlank(parts);
  }

  /** Pieces of whitespace only are all dropped. */
  lemma KeptBlank(parts: seq<string>)
    requires forall j :: 0 <= j < |parts| ==> forall k :: 0 <= k < |parts[j]| ==> PyWhitespace(parts[j][k])
    ensures Kept(parts) == []
  {
    NonEmptyDropsAll(Stripped(parts));
  }

  // ---------------------------------------------------------------------------------------
  // The endpoint
  // ---------------------------------------------------------------------------------------

  /** The query string as received: each parameter absent or given. */
  datatype Params = Params(q: Option<string>, topK: Option<int>, docIds: Option<string>)

  /** Why the endpoint did not answer with results. */
  datatype Failure = Unprocessable | Http(error: HttpError) | Uncaught(raised: Raised)

  datatype SearchResponse = SearchResponse(query: string, results: seq<SearchResult>, totalResults: int)

  const DefaultTopK: int := 5
  const MinTopK: int := 1
  const MaxTopK: int := 20

  const Unavailable: HttpError := HttpError(503, "Embedding service unavailable. Please ensure Ollama is running.")

  /** The parameters pass validation: `q` is present and `top_k`, when given, is within 1..20. */
  predicate ValidParams(p: Params)
  {
    p.q.Some? && (p.topK.None? || MinTopK <= p.topK.value <= MaxTopK)
  }

  /** The error is the embedding service's: a `RuntimeError` naming Ollama or embedding. */
  predicate EmbeddingServiceError(e: Raised)
  {
    e.kind == RuntimeErrorKind && (Contains(e.message, "Ollama") || Contains(Lower(e.message), "embedding"))
  }

  /**
   * `search`.  Returns the collection query issued, if any, and the response or the failure.
   */
  function Search(v: Variant, p: Params, embedding: Embedding, answer: Answer): (r: (Option<QueryCall>, Result<SearchResponse, Failure>))
    ensures !ValidParams(p) <==> r.1 == Err(Unprocessable)
    ensures !ValidParams(p) ==> r.0.None?
    ensures r.0.Some? ==> MinTopK <= r.0.value.nResults <= MaxTopK
    ensures ValidParams(p) && embedding.Embedded? ==>
              r.0 == Some(QueryCall(p.topK.GetOr(DefaultTopK), WhereClause(ParseDocIds(p.docIds))))
    ensures r.1.Ok? ==> r.1.value.query == p.q.value && r.1.value.totalResults == |r.1.value.results|
    ensures r.1.Err? && r.1.error.Http? ==> r.1.error.error == Unavailable
    ensures ValidParams(p) ==> (r.1.Ok? <==> embedding.Embedded? && (answer.Returned? || NoResultsError(answer.error)))
    ensures ValidParams(p) && embedding.Embedded? && answer.Returned? ==>
              r.1 == Ok(SearchResponse(p.q.value, Ranked(answer.matches), |answer.matches|))
    ensures ValidParams(p) && embedding.Embedded? && answer.QueryRaised? && NoResultsError(answer.error) ==>
              r.1 == Ok(SearchResponse(p.q.value, [], 0))
  {
    if !ValidParams(p) then (None, Err(Unprocessable))
    else
      var (call, outcome) := SearchDocuments(v, p.topK.GetOr(DefaultTopK), ParseDocIds(p.docIds), embedding, answer);
      match outcome
      case Ok(results) => (call, Ok(SearchResponse(p.q.value, results, |results|)))
      case Err(e) =>
        if EmbeddingServiceError(e) then (call, Err(Http(Unavailable)))
        else (call, Err(Uncaught(e)))
  }

  /**
   * A successful search answers with exactly the chunks the collection returned, each
   * formatted once, most relevant first, and counts them.
   */
  lemma SearchReturnsMatches(v: Variant, p: Params, ms: seq<Match>)
    requires ValidParams(p)
    ensures var r := Search(v, p, Embedded, Returned(ms)).1;
            r.Ok? && r.value.query == p.q.value && r.value.totalResults == |ms|
            && (forall x :: x in r.value.results <==> exists m :: m in ms && x == Format(m))
            && forall i, j :: 0 <= i < j < |r.value.results| ==> r.value.results[i].relevance >= r.value.results[j].relevance
  {
    RankedAreMatches(ms);
  }

  /**
   * An unreachable embedding service: when the embedding call raises a `RuntimeError` that
   * names Ollama or embedding, the endpoint answers 503 and queries nothing.
   */
  lemma EmbeddingDownIs503(v: Variant, p: Params, msg: string, answer: Answer)
    requires ValidParams(p)
    requires Contains(msg, "Ollama") || Contains(Lower(msg), "embedding")
    ensures Search(v, p, EmbedRaised(Raised(RuntimeErrorKind, msg)), answer) == (None, Err(Http(Unavailable)))
  {
    var e := Raised(RuntimeErrorKind, msg);
    WrappedNamesService(msg);
    assert SearchDocuments(v, p.topK.GetOr(DefaultTopK), ParseDocIds(p.docIds), EmbedRaised(e), answer)
           == (None, Err(EmbeddingFailure(e)));
  }

  /** The "Cannot search: " wrapping keeps the words the endpoint looks for. */
  lemma WrappedNamesService(msg: string)
    requires Contains(msg, "Ollama") || Contains(Lower(msg), "embedding")
    ensures EmbeddingServiceError(EmbeddingFailure(Raised(RuntimeErrorKind, msg)))
  {
    if Contains(msg, "Ollama") {
      ContainsInSuffix("Cannot search: ", msg, "Ollama");
    } else {
      LowerAppend("Cannot search: ", msg);
      ContainsInSuffix(Lower("Cannot search: "), Lower(msg), "embedding");
    }
  }

  /** Every other failure of the retrieval service passes through unchanged. */
  lemma OtherErrorsPropagate(v: Variant, p: Params, embedding: Embedding, answer: Answer)
    requires ValidParams(p)
    requires SearchDocuments(v, p.topK.GetOr(DefaultTopK), ParseDocIds(p.docIds), embedding, answer).1.Err?
    requires !EmbeddingServiceError(SearchDocuments(v, p.topK.GetOr(DefaultTopK), ParseDocIds(p.docIds), embedding, answer).1.error)
    ensures Search(v, p, embedding, answer).1
            == Err(Uncaught(SearchDocuments(v, p.topK.GetOr(DefaultTopK), ParseDocIds(p.docIds), embedding, answer).1.error))
  {
  }

  /**
   * As the program is written, a failed collection query other than an empty collection
   * escapes the endpoint as the unbound-variable error, an internal server error, whatever
   * the original failure said.
   */
  lemma QueryErrorUncaughtAsWritten(p: Params, e: Raised)
    requires ValidParams(p) && !NoResultsError(e)
    ensures Search(AsWritten, p, Embedded, QueryRaised(e)).1 == Err(Uncaught(Raised(UnboundLocalErrorKind, UnboundResults)))
    ensures Search(Intended, p, Embedded, QueryRaised(e)).1 == Err(if EmbeddingServiceError(e) then Http(Unavailable) else Uncaught(e))
  {
  }

  /** A `doc_ids` value of only commas and spaces searches every document. */
  lemma BlankSelectionSearchesAll(v: Variant, p: Params)
    requires ValidParams(p) && p.docIds.Some? && p.docIds.value != ""
    requires forall i :: 0 <= i < |p.docIds.value| ==> p.docIds.value[i] == ',' || p.docIds.value[i] == ' '
    ensures Search(v, p, Embedded, Returned([])).0 == Some(QueryCall(p.topK.GetOr(DefaultTopK), NoFilter))
  {
    CommasAndSpacesOnly(p.docIds.value);
  }
}

=== FILE: selector_view.dfy ===
/**
 * `DocumentContextSelector`: what the document dropdown shows for a document list and a
 * selection, and which selection change each click asks for.  An empty selection means
 * "all documents".
 */
module SelectorView {
  import opened Text
  import ChatController

  /** The fields of a listed document the selector reads. */
  datatype DocEntry = DocEntry(id: string, filename: string)

  /** One checkbox row of the dropdown. */
  datatype Row = Row(id: string, filename: string, checked: bool)

  datatype View = View(caption: string, toggleAllText: string, showDefaultNote: bool, showEmptyNote: bool,
                       rows: seq<Row>)

  /** `allSelected`: nothing is selected, which stands for every document. */
  predicate AllSelected(sel: set<string>)
  {
    |sel| == 0
  }

  /** The trigger button's text: "All", or the count with "doc" pluralised. */
  function Label(sel: set<string>): (r: string)
    ensures r == "All" <==> AllSelected(sel)
    ensures |sel| == 1 ==> r == "1 doc"
    ensures |sel| >= 2 ==> r == NatToString(|sel|) + " docs"
    ensures !AllSelected(sel) ==> StartsWith(r, NatToString(|sel|)) && (EndsWith(r, "s") <==> |sel| != 1)
  {
    if AllSelected(sel) then "All"
    else
      var n := NatToString(|sel|);
      assert n[0] != 'A';
      assert NatToString(1) == "1";
      CountLabelParts(n, if |sel| != 1 then "s" else "");
      n + " doc" + (if |sel| != 1 then "s" else "")
  }

  lemma CountLabelParts(n: string, suffix: string)
    requires suffix == "s" || suffix == ""
    ensures StartsWith(n + " doc" + suffix, n)
    ensures EndsWith(n + " doc" + suffix, "s") <==> suffix == "s"
  {
    CutAppend(n, " doc" + suffix);
    AppendAssoc(n, " doc", suffix);
    var w := n + " doc" + suffix;
    assert w[|w| - 1] == if suffix == "s" then 's' else 'c';
    assert EndsWith(w, "s") <==> w[|w| - 1] == 's';
  }

  /** The toggle-all button's text. */
  function ToggleAllText(sel: set<string>): (r: string)
    ensures r == "Deselect All" <==> AllSelected(sel)
    ensures r == "Select All" <==> !AllSelected(sel)
  {
    if AllSelected(sel) then "Deselect All" else "Select All"
  }

  function Rows(docs: seq<DocEntry>, sel: set<string>): (rows: seq<Row>)
    ensures |rows| == |docs|
    ensures forall i :: 0 <= i < |docs| ==> rows[i] == Row(docs[i].id, docs[i].filename, docs[i].id in sel)
  {
    seq(|docs|, i requires 0 <= i < |docs| => Row(docs[i].id, docs[i].filename, docs[i].id in sel))
  }

  /** The open dropdown for a document list and a selection. */
  function Render(docs: seq<DocEntry>, sel: set<string>): (v: View)
    ensures v.caption == Label(sel) && v.toggleAllText == ToggleAllText(sel)
    ensures v.showDefaultNote <==> AllSelected(sel)
    ensures v.showEmptyNote <==> |docs| == 0
    ensures |v.rows| == |docs|
    ensures forall i :: 0 <= i < |docs| ==> v.rows[i].id == docs[i].id && (v.rows[i].checked <==> docs[i].id in sel)
  {
    View(Label(sel), ToggleAllText(sel), AllSelected(sel), |docs| == 0, Rows(docs, sel))
  }

  function Ids(docs: seq<DocEntry>): (ids: seq<string>)
    ensures |ids| == |docs| && forall i :: 0 <= i < |docs| ==> ids[i] == docs[i].id
  {
    seq(|docs|, i requires 0 <= i < |docs| => docs[i].id)
  }

  /**
   * Clicking row `k`'s checkbox toggles that id in the selection: the rows with that id flip,
   * every other row stays as it was.
   */
  lemma ClickRowFlips(docs: seq<DocEntry>, sel: set<string>, k: int)
    requires 0 <= k < |docs|
    ensures var after := Render(docs, ChatController.Toggle(sel, docs[k].id)).rows;
            var before := Render(docs, sel).rows;
            forall i :: 0 <= i < |docs| ==>
              (after[i].checked <==> if docs[i].id == docs[k].id then !before[i].checked else before[i].checked)
  {
  }

  /**
   * The toggle-all button: from "all documents" every row becomes checked; from any explicit
   * selection, every row becomes unchecked and the label returns to "All".
   */
  lemma ToggleAllRows(docs: seq<DocEntry>, sel: set<string>)
    ensures var v := Render(docs, ChatController.ToggleAll(sel, Ids(docs)));
            (AllSelected(sel) ==> forall i :: 0 <= i < |docs| ==> v.rows[i].checked)
            && (!AllSelected(sel) ==> v.caption == "All" && forall i :: 0 <= i < |docs| ==> !v.rows[i].checked)
  {
    var ids := Ids(docs);
    assert forall i :: 0 <= i < |docs| ==> docs[i].id == ids[i];
  }

  /** Two selections with the same label have the same size. */
  lemma {:induction false} LabelDeterminesCount(a: set<string>, b: set<string>)
    requires Label(a) == Label(b)
    ensures |a| == |b|
  {
    if !AllSelected(a) && !AllSelected(b) {
      var na, nb := NatToString(|a|), NatToString(|b|);
      var l := Label(a);
      assert l == na + " doc" + (if |a| != 1 then "s" else "");
      assert l == nb + " doc" + (if |b| != 1 then "s" else "");
      DigitsThenSpace(na, " doc" + (if |a| != 1 then "s" else ""), l);
      DigitsThenSpace(nb, " doc" + (if |b| != 1 then "s" else ""), l);
      assert na == l[..|na|];
      assert nb == l[..|nb|];
      NatToStringInjective(|a|, |b|);
    }
  }

  /** In `n + rest` with `n` all digits and `rest` starting with a space, `n` ends at the first non-digit. */
  lemma DigitsThenSpace(n: string, rest: string, l: string)
    requires l == n + rest && |rest| > 0 && rest[0] == ' '
    requires forall i :: 0 <= i < |n| ==> '0' <= n[i] <= '9'
    ensures |n| == FirstNonDigit(l) && n == l[..|n|]
  {
    assert n == (n + rest)[..|n|];
    FirstNonDigitAt(l, |n|);
  }

  /** The index of the first character of `s` that is not a decimal digit, or `|s|`. */
  function FirstNonDigit(s: string): (k: nat)
    ensures k <= |s|
    decreases |s|
  {
    if |s| == 0 || !('0' <= s[0] <= '9') then 0 else 1 + FirstNonDigit(s[1..])
  }

  lemma {:induction false} FirstNonDigitAt(s: string, k: nat)
    requires k < |s| && !('0' <= s[k] <= '9')
    requires forall i :: 0 <= i < k ==> '0' <= s[i] <= '9'
    ensures FirstNonDigit(s) == k
    decreases k
  {
    if k > 0 {
      FirstNonDigitAt(s[1..], k - 1);
    }
  }
}

=== FILE: session_store.dfy ===
/**
 * The chat-session table as a map from session id to its record.  Ids (random UUIDs) and
 * the current time are inputs.
 */
module SessionStore {
  import opened Wrappers

  /** One stored chat message. */
  datatype StoredMsg = StoredMsg(role: string, content: string)

  datatype Session = Session(createdAt: string, updatedAt: string, messages: seq<StoredMsg>)

  type Store = map<string, Session>

  /** `create_session`: a new row with empty history; inserting an existing key fails. */
  function Create(store: Store, id: string, now: string): (r: Result<Store, string>)
    ensures id in store <==> r.Err?
    ensures r.Ok? ==> id in r.value && r.value[id] == Session(now, now, [])
    ensures r.Ok? ==> r.value - {id} == store - {id}
  {
    if id in store then Err("duplicate session id") else Ok(store[id := Session(now, now, [])])
  }

  /** `get_session`. */
  function Get(store: Store, id: string): (r: Option<Session>)
    ensures r.Some? <==> id in store
    ensures r.Some? ==> r.value == store[id]
  {
    if id in store then Some(store[id]) else None
  }

  /**
   * `update_session_messages`: sets the history of `id`, creating the session when it does
   * not exist; an existing session keeps its creation time.
   */
  function UpdateMessages(store: Store, id: string, ms: seq<StoredMsg>, now: string): (r: Store)
    ensures id in r && r[id].messages == ms && r[id].updatedAt == now
    ensures id in store ==> r[id].createdAt == store[id].createdAt
    ensures id !in store ==> r[id].createdAt == now
    ensures r - {id} == store - {id}
  {
    if id in store then store[id := store[id].(messages := ms, updatedAt := now)]
    else store[id := Session(now, now, ms)]
  }

  /** `delete_session`: whether the session existed, and the store without it. */
  function Delete(store: Store, id: string): (r: (bool, Store))
    ensures r.0 <==> id in store
    ensures id !in r.1
    ensures r.1 - {id} == store - {id}
  {
    (id in store, store - {id})
  }

  /** A second deletion of the same id finds nothing. */
  lemma DeleteTwice(store: Store, id: string)
    ensures !Delete(Delete(store, id).1, id).0
  {
  }

  /** Whatever the store held, a read after an update returns the new history. */
  lemma GetAfterUpdate(store: Store, id: string, ms: seq<StoredMsg>, now: string)
    ensures Get(UpdateMessages(store, id, ms, now), id).Some?
    ensures Get(UpdateMessages(store, id, ms, now), id).value.messages == ms
  {
  }

  /** A created session reads back with empty history and equal timestamps. */
  lemma GetAfterCreate(store: Store, id: string, now: string)
    requires id !in store
    ensures Create(store, id, now).Ok?
    ensures Get(Create(store, id, now).value, id) == Some(Session(now, now, []))
  {
  }
}

=== FILE: sidebar.dfy ===
/**
 * `useSidebarState`: whether the sidebar is open, which is persisted under `sidebar_open`,
 * and whether a closed sidebar is being shown temporarily ("peeking"), which is not.
 */
module Sidebar {
  import opened Wrappers
  import opened LocalStorage

  const OpenKey: string := "sidebar_open"

  /** The hook's state: the persisted open flag, the transient peek flag, and the storage. */
  datatype Panel = Panel(open: Cell<bool>, isPeeking: bool, storage: Storage)

  /** The open flag lives under its key and defaults to open. */
  predicate Wellformed(p: Panel)
  {
    p.open.key == OpenKey && p.open.initial == true
  }

  /** Peeking shows a closed sidebar, so it never holds while the sidebar is open. */
  predicate PeekOnlyWhenClosed(p: Panel)
  {
    p.isPeeking ==> !p.open.value
  }

  /** The first render: open unless storage holds a readable `false`, and not peeking. */
  function Init(storage: Storage, access: Access, codec: Codec<bool>): (p: Panel)
    ensures Wellformed(p) && PeekOnlyWhenClosed(p)
    ensures !p.isPeeking && p.storage == storage
    ensures !p.open.value <==> access.Available? && OpenKey in storage && codec.parse(storage[OpenKey]) == Some(false)
  {
    Panel(Load(storage, access, OpenKey, true, codec), false, storage)
  }

  function Not(b: bool): bool
  {
    !b
  }

  /**
   * `toggle`: the open flag becomes the negation of `snapshot`, the value the setter saw at
   * the last render, and peeking stops.
   */
  function Toggle(p: Panel, snapshot: bool, w: WriteOutcome, codec: Codec<bool>): (q: Panel)
    ensures q.open == p.open.(value := !snapshot) && !q.isPeeking
    ensures w.Stored? ==> q.storage == p.storage[p.open.key := codec.serialize(!snapshot)]
    ensures !w.Stored? ==> q.storage == p.storage
    ensures PeekOnlyWhenClosed(q)
  {
    var r := SetValue(p.open, snapshot, Apply(Not), p.storage, w, codec);
    Panel(r.0, false, r.1)
  }

  /** `close`: closed and not peeking. */
  function Close(p: Panel, w: WriteOutcome, codec: Codec<bool>): (q: Panel)
    ensures q.open == p.open.(value := false) && !q.isPeeking
    ensures w.Stored? ==> q.storage == p.storage[p.open.key := codec.serialize(false)]
    ensures !w.Stored? ==> q.storage == p.storage
    ensures PeekOnlyWhenClosed(q)
  {
    var r := SetValue(p.open, p.open.value, Replace(false), p.storage, w, codec);
    Panel(r.0, false, r.1)
  }

  /** `startPeek`: starts peeking only when the sidebar is closed; storage is not touched. */
  function StartPeek(p: Panel): (q: Panel)
    ensures q.open == p.open && q.storage == p.storage
    ensures q.isPeeking <==> p.isPeeking || !p.open.value
    ensures PeekOnlyWhenClosed(p) ==> PeekOnlyWhenClosed(q)
  {
    if !p.open.value then p.(isPeeking := true) else p
  }

  /** `stopPeek`: stops peeking and touches nothing else. */
  function StopPeek(p: Panel): (q: Panel)
    ensures q == p.(isPeeking := false)
    ensures PeekOnlyWhenClosed(q)
  {
    p.(isPeeking := false)
  }

  /** Toggling twice, with a render between, restores the open flag. */
  lemma ToggleTwice(p: Panel, w1: WriteOutcome, w2: WriteOutcome, codec: Codec<bool>)
    ensures var q := Toggle(p, p.open.value, w1, codec);
            Toggle(q, q.open.value, w2, codec).open == p.open
  {
  }

  /** Closing a closed sidebar changes nothing more. */
  lemma CloseIdempotent(p: Panel, w: WriteOutcome, codec: Codec<bool>)
    ensures Close(Close(p, Stored, codec), w, codec) == Close(p, Stored, codec)
  {
  }

  /** A stored toggle survives a reload: the next first render sees the new flag. */
  lemma ToggleSurvivesReload(p: Panel, codec: Codec<bool>)
    requires Wellformed(p) && Lawful(codec)
    ensures var q := Toggle(p, p.open.value, Stored, codec);
            Init(q.storage, Available, codec).open == q.open
  {
    WriteReadBack(p.open, p.open.value, Apply(Not), p.storage, codec);
  }
}

=== FILE: sorting.dfy ===
/**
 * Insertion sort by a comparison, the model of Python's `list.sort(key=…, reverse=True)`
 * where `before(x, y)` says `x` may stand in front of `y`.  The result is stated as a sorted
 * permutation; the order among elements that compare equal is not stated.
 */
module Sorting {

  /** Any two elements may be put in order one way or the other. */
  ghost predicate Total<T(!new)>(before: (T, T) -> bool)
  {
    forall x, y :: before(x, y) || before(y, x)
  }

  ghost predicate Transitive<T(!new)>(before: (T, T) -> bool)
  {
    forall x, y, z :: before(x, y) && before(y, z) ==> before(x, z)
  }

  /** Each element may stand in front of its successor. */
  predicate Sorted<T>(s: seq<T>, before: (T, T) -> bool)
  {
    forall i :: 0 <= i < |s| - 1 ==> before(s[i], s[i + 1])
  }

  /** `x` placed in front of the first element of `s` it may precede. */
  function Insert<T(!new)>(x: T, s: seq<T>, before: (T, T) -> bool): (r: seq<T>)
    requires Total(before)
    ensures |r| == |s| + 1 && multiset(r) == multiset(s) + multiset{x}
    ensures |s| > 0 ==> r[0] == x || r[0] == s[0]
    ensures Sorted(s, before) ==> Sorted(r, before)
    decreases |s|
  {
    if |s| == 0 then [x]
    else if before(x, s[0]) then [x] + s
    else
      var t := Insert(x, s[1..], before);
      assert s == [s[0]] + s[1..];
      [s[0]] + t
  }

  /** The elements of `s`, rearranged so that each may stand in front of the next. */
  function Sort<T(!new)>(s: seq<T>, before: (T, T) -> bool): (r: seq<T>)
    requires Total(before)
    ensures multiset(r) == multiset(s)
    ensures Sorted(r, before)
    decreases |s|
  {
    if |s| == 0 then []
    else
      assert s == [s[0]] + s[1..];
      Insert(s[0], Sort(s[1..], before), before)
  }

  /** For a transitive order, a sequence sorted pair by pair is sorted throughout. */
  lemma {:induction false} SortedEverywhere<T(!new)>(s: seq<T>, before: (T, T) -> bool)
    requires Transitive(before) && Sorted(s, before)
    ensures forall i, j :: 0 <= i < j < |s| ==> before(s[i], s[j])
    decreases |s|
  {
    if |s| > 1 {
      SortedEverywhere(s[1..], before);
      forall j | 1 < j < |s|
        ensures before(s[0], s[j])
      {
        assert before(s[1], s[j]) by { assert s[1..][0] == s[1] && s[1..][j - 1] == s[j]; }
      }
      forall i, j | 0 <= i < j < |s|
        ensures before(s[i], s[j])
      {
        if i > 0 {
          assert s[1..][i - 1] == s[i] && s[1..][j - 1] == s[j];
        }
      }
    }
  }
}

=== FILE: stream_decoder.dfy ===
/**
 * The client half of the chat stream: the loop in `sendChatMessage` that appends every
 * received chunk to a text buffer, cuts the buffer at `\n`, keeps the unterminated tail and
 * turns each complete `data: ` line into at most one callback.
 *
 * This is the reduced subset of the server-sent-events format (section 9.2 of the WHATWG
 * HTML Living Standard) the client implements: no blank-line dispatch, no joining of
 * several `data` lines, no carriage-return handling, and the space after `data:` is
 * required.
 */
module StreamDecoder {
  import opened Wrappers
  import opened Text
  import opened Json

  /** The three callbacks `sendChatMessage` receives, in the order they are invoked. */
  datatype Callback = OnChunk(text: string) | OnComplete | OnError(message: string)

  const DataPrefix: string := "data: "

  /**
   * The dispatch on one parsed payload: a truthy `content` wins, then a truthy `done`, then
   * a truthy `error`; a payload with none of them calls nothing.
   */
  function Dispatch(p: Payload): (cbs: seq<Callback>)
    ensures |cbs| <= 1
    ensures cbs == [] <==> p.content == "" && !p.done && p.error == ""
    ensures forall t :: cbs == [OnChunk(t)] ==> t == p.content && t != ""
    ensures cbs == [OnComplete] ==> p.content == "" && p.done
    ensures forall m :: cbs == [OnError(m)] ==> p.content == "" && !p.done && m == p.error && m != ""
  {
    if p.content != "" then [OnChunk(p.content)]
    else if p.done then [OnComplete]
    else if p.error != "" then [OnError(p.error)]
    else []
  }

  /** What one complete line produces. */
  function HandleLine(line: string): (cbs: seq<Callback>)
    ensures |cbs| <= 1
    ensures !StartsWith(line, DataPrefix) ==> cbs == []
  {
    if StartsWith(line, DataPrefix) then
      match ParsePayload(line[|DataPrefix|..])
      case None => []
      case Some(p) => Dispatch(p)
    else []
  }

  /** The callbacks of a run of complete lines, each line's in turn. */
  function HandleLines(lines: seq<string>): (cbs: seq<Callback>)
    ensures |cbs| <= |lines|
  {
    if |lines| == 0 then [] else HandleLine(lines[0]) + HandleLines(lines[1..])
  }

  lemma {:induction false} HandleLinesAppend(a: seq<string>, b: seq<string>)
    ensures HandleLines(a + b) == HandleLines(a) + HandleLines(b)
  {
    if |a| == 0 {
      assert a + b == b;
    } else {
      assert (a + b)[1..] == a[1..] + b;
      HandleLinesAppend(a[1..], b);
      AppendAssoc(HandleLine(a[0]), HandleLines(a[1..]), HandleLines(b));
    }
  }

  /** The decoder's state between two reads: the unterminated tail and the callbacks so far. */
  datatype Decoder = Decoder(buffer: string, emitted: seq<Callback>)

  const Initial: Decoder := Decoder("", [])

  /**
   * One read: append the chunk to the buffer, split on `\n`, keep the last piece as the new
   * buffer (`lines.pop() || ''`) and handle the others in order.
   */
  function Feed(d: Decoder, chunk: string): (d': Decoder)
    ensures '\n' !in d'.buffer
    ensures |d'.emitted| >= |d.emitted| && d'.emitted[..|d.emitted|] == d.emitted
  {
    var parts := Split(d.buffer + chunk, '\n');
    var d' := Decoder(parts[|parts| - 1], d.emitted + HandleLines(parts[..|parts| - 1]));
    FeedBuffer(d.buffer + chunk, parts);
    CutAppend(d.emitted, HandleLines(parts[..|parts| - 1]));
    d'
  }

  /** The piece `Split` leaves last is the remainder after the last separator. */
  lemma FeedBuffer(text: string, parts: seq<string>)
    requires parts == Split(text, '\n')
    ensures '\n' !in parts[|parts| - 1]
    ensures parts[..|parts| - 1] == Lines(text, '\n')
    ensures parts[|parts| - 1] == Rest(text, '\n')
  {
    SplitLines(text, '\n');
    CutAppend(Lines(text, '\n'), [Rest(text, '\n')]);
    RestSuffix(text, '\n');
  }

  /** A read step in terms of the text's terminated lines and its remainder. */
  lemma FeedLines(d: Decoder, chunk: string)
    ensures Feed(d, chunk)
         == Decoder(Rest(d.buffer + chunk, '\n'), d.emitted + HandleLines(Lines(d.buffer + chunk, '\n')))
  {
    FeedBuffer(d.buffer + chunk, Split(d.buffer + chunk, '\n'));
  }

  /** The whole read loop over the chunks the reader delivers, in order. */
  function FeedAll(d: Decoder, chunks: seq<string>): (d': Decoder)
    ensures '\n' !in d.buffer ==> '\n' !in d'.buffer
    ensures |d'.emitted| >= |d.emitted| && d'.emitted[..|d.emitted|] == d.emitted
    decreases |chunks|
  {
    if |chunks| == 0 then d else FeedAll(Feed(d, chunks[0]), chunks[1..])
  }

  /**
   * Reading a run of chunks is reading their concatenation: the buffer is the remainder of
   * everything received and the callbacks are those of every terminated line.
   */
  lemma {:induction false} FeedAllText(b: string, e: seq<Callback>, chunks: seq<string>)
    requires '\n' !in b
    ensures FeedAll(Decoder(b, e), chunks)
         == Decoder(Rest(b + Concat(chunks), '\n'), e + HandleLines(Lines(b + Concat(chunks), '\n')))
    decreases |chunks|
  {
    if |chunks| == 0 {
      assert b + Concat(chunks) == b;
      IndexOfFirst(b, '\n');
      assert e + HandleLines([]) == e;
    } else {
      var c := chunks[0];
      var text := b + c;
      var tail := Concat(chunks[1..]);
      FeedLines(Decoder(b, e), c);
      RestSuffix(text, '\n');
      FeedAllText(Rest(text, '\n'), e + HandleLines(Lines(text, '\n')), chunks[1..]);
      assert b + Concat(chunks) == text + tail by {
        AppendAssoc(b, c, tail);
      }
      RestAppend(text, tail, '\n');
      LinesAppend(text, tail, '\n');
      HandleLinesAppend(Lines(text, '\n'), Lines(Rest(text, '\n') + tail, '\n'));
      AppendAssoc(e, HandleLines(Lines(text, '\n')), HandleLines(Lines(Rest(text, '\n') + tail, '\n')));
    }
  }

  /**
   * Chunk-boundary independence: any two ways of cutting the same text into chunks leave
   * the decoder in the same state, so in particular they produce the same callbacks.
   */
  lemma BoundaryIndependence(cs1: seq<string>, cs2: seq<string>)
    requires Concat(cs1) == Concat(cs2)
    ensures FeedAll(Initial, cs1) == FeedAll(Initial, cs2)
  {
    FeedAllText("", [], cs1);
    FeedAllText("", [], cs2);
  }

  /** Reading chunks one by one is the same as reading them as one chunk. */
  lemma OneChunk(cs: seq<string>)
    ensures FeedAll(Initial, cs) == FeedAll(Initial, [Concat(cs)])
  {
    ConcatSingle(Concat(cs));
    BoundaryIndependence(cs, [Concat(cs)]);
  }

  /** After any run of reads the buffer is exactly what followed the last `\n` received. */
  lemma BufferIsTail(cs: seq<string>)
    ensures '\n' !in FeedAll(Initial, cs).buffer
    ensures FeedAll(Initial, cs).buffer == Concat(cs)[LastIndexOf(Concat(cs), '\n') + 1..]
  {
    FeedAllText("", [], cs);
    assert "" + Concat(cs) == Concat(cs);
    RestAfterLast(Concat(cs), '\n');
    RestSuffix(Concat(cs), '\n');
  }

  /** Blank separator lines and lines of any other field call nothing. */
  lemma NonDataLineSilent(line: string)
    requires !StartsWith(line, DataPrefix)
    ensures HandleLines([line]) == []
  {
  }

  /**
   * A `data: ` line whose payload does not parse is skipped: the lines around it are
   * handled as if it were absent.
   */
  lemma UnparsableSkipped(before: seq<string>, line: string, after: seq<string>)
    requires StartsWith(line, DataPrefix) && ParsePayload(line[|DataPrefix|..]).None?
    ensures HandleLines(before + [line] + after) == HandleLines(before) + HandleLines(after)
  {
    UnparsableLineSilent(line);
    HandleLinesAppend(before + [line], after);
    HandleLinesAppend(before, [line]);
  }

  lemma UnparsableLineSilent(line: string)
    requires StartsWith(line, DataPrefix) && ParsePayload(line[|DataPrefix|..]).None?
    ensures HandleLines([line]) == []
  {
    assert HandleLine(line) == [];
    assert HandleLines([line]) == HandleLine(line) + HandleLines([]);
  }

  /**
   * Text with no `\n` at the end of the stream is never handled: it only extends the
   * buffer, which the loop drops when the reader reports the end.
   */
  lemma UnterminatedTailIgnored(cs: seq<string>, tail: string)
    requires '\n' !in tail
    ensures FeedAll(Initial, cs + [tail]).emitted == FeedAll(Initial, cs).emitted
  {
    var text := Concat(cs);
    FeedAllText("", [], cs);
    FeedAllText("", [], cs + [tail]);
    ConcatAppend(cs, [tail]);
    ConcatSingle(tail);
    assert "" + Concat(cs + [tail]) == text + tail;
    assert "" + text == text;
    LinesAppend(text, tail, '\n');
    RestSuffix(text, '\n');
    NoSeparatorNoLines(Rest(text, '\n') + tail);
    assert Lines(text + tail, '\n') == Lines(text, '\n');
  }

  /** A text without `\n` has no terminated line. */
  lemma NoSeparatorNoLines(s: string)
    requires '\n' !in s
    ensures Lines(s, '\n') == []
  {
    IndexOfFirst(s, '\n');
  }
}

=== FILE: text.dfy ===
/**
 * String helpers with the semantics of the JavaScript and Python standard library calls the
 * system relies on: `split` on one separator character, prefix/suffix/substring tests,
 * ASCII lower-casing, whitespace trimming and decimal formatting of naturals.
 */
module Text {

  // ---------------------------------------------------------------------------------------
  // Sequence facts, stated once for every element type
  // ---------------------------------------------------------------------------------------

  lemma AppendAssoc<T>(a: seq<T>, b: seq<T>, c: seq<T>)
    ensures a + (b + c) == (a + b) + c
  {
  }

  /** A left-nested concatenation of four pieces, regrouped to the right. */
  lemma AppendAssoc4<T>(a: seq<T>, b: seq<T>, c: seq<T>, d: seq<T>)
    ensures ((a + b) + c) + d == a + (b + (c + d))
  {
  }

  /** A left-nested concatenation of five pieces, regrouped to the right. */
  lemma AppendAssoc5<T>(a: seq<T>, b: seq<T>, c: seq<T>, d: seq<T>, e: seq<T>)
    ensures (((a + b) + c) + d) + e == a + (b + (c + (d + e)))
  {
  }

  /** The head and tail of a sequence built by putting `x` in front of `s`. */
  lemma ConsParts<T>(x: T, s: seq<T>)
    ensures |[x] + s| == |s| + 1 && ([x] + s)[0] == x && ([x] + s)[1..] == s
  {
  }

  /** A two-element prefix is one element in front of another. */
  lemma PairCons<T>(a: T, b: T, w: seq<T>)
    ensures [a, b] + w == [a] + ([b] + w)
  {
  }

  /** Cutting a concatenation where its first part ends gives back both parts. */
  lemma CutAppend<T>(a: seq<T>, b: seq<T>)
    ensures (a + b)[..|a|] == a && (a + b)[|a|..] == b
  {
  }

  /** A non-empty sequence is its head in front of its tail. */
  lemma HeadTail<T>(s: seq<T>)
    requires |s| > 0
    ensures [s[0]] + s[1..] == s
  {
  }

  /** Concatenation of a sequence of strings (`"".join(ss)`, `ss.join("")`). */
  function Concat(ss: seq<string>): string
  {
    if |ss| == 0 then "" else ss[0] + Concat(ss[1..])
  }

  lemma {:induction false} ConcatAppend(a: seq<string>, b: seq<string>)
    ensures Concat(a + b) == Concat(a) + Concat(b)
    decreases |a|
  {
    if |a| == 0 {
      assert a + b == b;
    } else {
      assert (a + b)[1..] == a[1..] + b;
      ConcatAppend(a[1..], b);
    }
  }

  lemma ConcatSingle(s: string)
    ensures Concat([s]) == s
  {
    assert [s][1..] == [];
  }

  /** `s.startsWith(p)` / `s.startswith(p)`. */
  predicate StartsWith(s: string, p: string)
  {
    |p| <= |s| && s[..|p|] == p
  }

  /** `s.endsWith(p)` / `s.endswith(p)`. */
  predicate EndsWith(s: string, p: string)
  {
    |p| <= |s| && s[|s| - |p|..] == p
  }

  /** `p in s` for strings: `p` occurs as a contiguous piece of `s`. */
  predicate Contains(s: string, p: string)
    decreases |s|
  {
    StartsWith(s, p) || (|s| > 0 && Contains(s[1..], p))
  }

  /** Only a string at least as long as `p` contains it. */
  lemma {:induction false} ContainsLength(s: string, p: string)
    requires Contains(s, p)
    ensures |p| <= |s|
    decreases |s|
  {
    if !StartsWith(s, p) {
      ContainsLength(s[1..], p);
    }
  }

  /** A string containing `p + q` contains `p`. */
  lemma {:induction false} ContainsPrefixOf(s: string, p: string, q: string)
    requires Contains(s, p + q)
    ensures Contains(s, p)
    decreases |s|
  {
    if StartsWith(s, p + q) {
      assert s[..|p|] == s[..|p + q|][..|p|] == (p + q)[..|p|] == p;
    } else {
      ContainsPrefixOf(s[1..], p, q);
    }
  }

  lemma {:induction false} ContainsAt(s: string, p: string, i: nat)
    requires i + |p| <= |s| && s[i..i + |p|] == p
    ensures Contains(s, p)
    decreases i
  {
    if i > 0 {
      assert s[1..][i - 1..i - 1 + |p|] == s[i..i + |p|];
      ContainsAt(s[1..], p, i - 1);
    }
  }

  /** `p` occurs in `s` at position `i`. */
  predicate OccursAt(s: string, p: string, i: nat)
  {
    i + |p| <= |s| && s[i..i + |p|] == p
  }

  /** Text kept at the end of a longer text is still contained in it. */
  lemma ContainsInSuffix(a: string, b: string, p: string)
    requires Contains(b, p)
    ensures Contains(a + b, p)
  {
    ContainsOccurs(b, p);
    var i: nat :| OccursAt(b, p, i);
    assert (a + b)[|a| + i..|a| + i + |p|] == b[i..i + |p|];
    ContainsAt(a + b, p, |a| + i);
  }

  /** Containment is occurrence at some position. */
  lemma {:induction false} ContainsOccurs(s: string, p: string)
    ensures Contains(s, p) <==> exists i: nat :: OccursAt(s, p, i)
    decreases |s|
  {
    if exists i: nat :: OccursAt(s, p, i) {
      var i: nat :| OccursAt(s, p, i);
      ContainsAt(s, p, i);
    }
    if Contains(s, p) && !StartsWith(s, p) {
      ContainsOccurs(s[1..], p);
      var i: nat :| OccursAt(s[1..], p, i);
      assert s[i + 1..i + 1 + |p|] == s[1..][i..i + |p|];
      assert OccursAt(s, p, i + 1);
    } else if Contains(s, p) {
      assert OccursAt(s, p, 0);
    }
  }

  /** Lower-cases the ASCII letters A-Z and leaves every other character alone. */
  function LowerChar(c: char): (r: char)
  {
    if 'A' <= c <= 'Z' then (c as int + 32) as char else c
  }

  /** `s.lower()` restricted to ASCII letters; see README for why this is exact where it is used. */
  function Lower(s: string): (r: string)
    ensures |r| == |s|
    ensures forall i :: 0 <= i < |s| ==> r[i] == LowerChar(s[i])
  {
    seq(|s|, i requires 0 <= i < |s| => LowerChar(s[i]))
  }

  lemma LowerIdempotent(s: string)
    ensures Lower(Lower(s)) == Lower(s)
  {
  }

  lemma LowerAppend(a: string, b: string)
    ensures Lower(a + b) == Lower(a) + Lower(b)
  {
  }

  lemma LowerSuffix(s: string, k: nat)
    requires k <= |s|
    ensures Lower(s[k..]) == Lower(s)[k..]
  {
  }

  // ---------------------------------------------------------------------------------------
  // Splitting on one separator character
  // ---------------------------------------------------------------------------------------

  /** `s.indexOf(c)` / `s.find(c)`: the index of the first occurrence of `c`, or -1. */
  function IndexOf(s: string, c: char): (r: int)
    ensures -1 <= r < |s|
    ensures r >= 0 ==> s[r] == c
    decreases |s|
  {
    if |s| == 0 then -1
    else if s[0] == c then 0
    else
      var k := IndexOf(s[1..], c);
      if k < 0 then -1 else k + 1
  }

  /** `IndexOf` finds the first occurrence, and finds none exactly when there is none. */
  lemma {:induction false} IndexOfFirst(s: string, c: char)
    ensures IndexOf(s, c) < 0 <==> c !in s
    ensures IndexOf(s, c) >= 0 ==> c !in s[..IndexOf(s, c)]
    decreases |s|
  {
    if |s| > 0 && s[0] != c {
      IndexOfFirst(s[1..], c);
      assert s == [s[0]] + s[1..];
      var k := IndexOf(s[1..], c);
      if k >= 0 {
        assert s[..k + 1] == [s[0]] + s[1..][..k];
      }
    }
  }

  /** The first occurrence in `x + y` is the first in `x`, or else the first in `y` shifted. */
  lemma {:induction false} IndexOfAppend(x: string, y: string, c: char)
    ensures IndexOf(x + y, c)
      == if IndexOf(x, c) >= 0 then IndexOf(x, c)
         else if IndexOf(y, c) >= 0 then |x| + IndexOf(y, c)
         else -1
    decreases |x|
  {
    if |x| == 0 {
      assert x + y == y;
    } else if x[0] != c {
      assert (x + y)[1..] == x[1..] + y;
      IndexOfAppend(x[1..], y, c);
    }
  }

  /**
   * `s.split(sep)` for a single-character separator, as both JavaScript and Python define
   * it: the maximal separator-free pieces between separators, so "" gives [""] and a
   * trailing separator gives a trailing "".
   */
  function Split(s: string, sep: char): (parts: seq<string>)
    ensures |parts| >= 1
    decreases |s|
  {
    var i := IndexOf(s, sep);
    if i < 0 then [s] else [s[..i]] + Split(s[i + 1..], sep)
  }

  /** The inverse of `Split`: the pieces glued back with the separator between them. */
  function Join(parts: seq<string>, sep: char): string
    requires |parts| >= 1
  {
    if |parts| == 1 then parts[0] else parts[0] + [sep] + Join(parts[1..], sep)
  }

  /** No piece produced by `Split` contains the separator. */
  lemma {:induction false} SplitPiecesSeparatorFree(s: string, sep: char)
    ensures forall i :: 0 <= i < |Split(s, sep)| ==> sep !in Split(s, sep)[i]
    decreases |s|
  {
    var i := IndexOf(s, sep);
    IndexOfFirst(s, sep);
    if i >= 0 {
      SplitPiecesSeparatorFree(s[i + 1..], sep);
    }
  }

  /** Joining the pieces restores the string. */
  lemma {:induction false} JoinSplit(s: string, sep: char)
    ensures Join(Split(s, sep), sep) == s
    decreases |s|
  {
    var i := IndexOf(s, sep);
    if i >= 0 {
      var rest := Split(s[i + 1..], sep);
      JoinSplit(s[i + 1..], sep);
      assert ([s[..i]] + rest)[1..] == rest;
      assert s == s[..i] + [sep] + s[i + 1..];
    }
  }

  /** Every character of every piece comes from the split string. */
  lemma {:induction false} SplitPiecesFrom(s: string, sep: char)
    ensures forall i, c :: 0 <= i < |Split(s, sep)| && c in Split(s, sep)[i] ==> c in s
    decreases |s|
  {
    var k := IndexOf(s, sep);
    if k >= 0 {
      SplitPiecesFrom(s[k + 1..], sep);
      var parts := Split(s, sep);
      forall i, c | 0 <= i < |parts| && c in parts[i]
        ensures c in s
      {
        if i > 0 {
          assert parts[i] == Split(s[k + 1..], sep)[i - 1];
          assert c in s[k + 1..];
        } else {
          assert c in s[..k];
        }
      }
    }
  }

  /** Joining separator-free parts and splitting again gives the parts back. */
  lemma {:induction false} SplitJoin(parts: seq<string>, sep: char)
    requires |parts| >= 1 && forall i :: 0 <= i < |parts| ==> sep !in parts[i]
    ensures Split(Join(parts, sep), sep) == parts
    decreases |parts|
  {
    var a := parts[0];
    IndexOfFirst(a, sep);
    if |parts| > 1 {
      var rest := Join(parts[1..], sep);
      var s := a + [sep] + rest;
      IndexOfAppend(a, [sep] + rest, sep);
      assert s == a + ([sep] + rest);
      assert IndexOf(s, sep) == |a|;
      assert s[..|a|] == a && s[|a| + 1..] == rest;
      SplitJoin(parts[1..], sep);
      assert parts == [a] + parts[1..];
    }
  }

  /** The separator-terminated pieces of `s`: every piece `Split` gives but the last. */
  function Lines(s: string, sep: char): (ls: seq<string>)
    decreases |s|
  {
    var i := IndexOf(s, sep);
    if i < 0 then [] else [s[..i]] + Lines(s[i + 1..], sep)
  }

  /** What follows the last separator of `s`: the last piece `Split` gives. */
  function Rest(s: string, sep: char): (r: string)
    decreases |s|
  {
    var i := IndexOf(s, sep);
    if i < 0 then s else Rest(s[i + 1..], sep)
  }

  lemma SplitLinesStep(s: string, sep: char, i: int)
    requires IndexOf(s, sep) == i >= 0
    requires Split(s[i + 1..], sep) == Lines(s[i + 1..], sep) + [Rest(s[i + 1..], sep)]
    ensures Split(s, sep) == Lines(s, sep) + [Rest(s, sep)]
  {
    LinesUnfold(s, sep, i);
    AppendAssoc([s[..i]], Lines(s[i + 1..], sep), [Rest(s, sep)]);
  }

  lemma SplitLinesNoSeparator(s: string, sep: char)
    requires IndexOf(s, sep) < 0
    ensures Split(s, sep) == Lines(s, sep) + [Rest(s, sep)]
  {
  }

  /** `Split` is the terminated pieces followed by the unterminated remainder. */
  lemma {:induction false} SplitLines(s: string, sep: char)
    ensures Split(s, sep) == Lines(s, sep) + [Rest(s, sep)]
    decreases |s|
  {
    var i := IndexOf(s, sep);
    if i >= 0 {
      SplitLines(s[i + 1..], sep);
      SplitLinesStep(s, sep, i);
    } else {
      SplitLinesNoSeparator(s, sep);
    }
  }

  /** The remainder never holds the separator, and is a suffix of the text. */
  lemma {:induction false} RestSuffix(s: string, sep: char)
    ensures sep !in Rest(s, sep)
    ensures |Rest(s, sep)| <= |s| && Rest(s, sep) == s[|s| - |Rest(s, sep)|..]
    ensures |Rest(s, sep)| < |s| ==> s[|s| - |Rest(s, sep)| - 1] == sep
    decreases |s|
  {
    var i := IndexOf(s, sep);
    IndexOfFirst(s, sep);
    if i >= 0 {
      RestSuffix(s[i + 1..], sep);
    }
  }

  /** The remainder is exactly the text after the last separator (all of it when none). */
  lemma RestAfterLast(s: string, sep: char)
    ensures Rest(s, sep) == s[LastIndexOf(s, sep) + 1..]
  {
    RestSuffix(s, sep);
    var r := Rest(s, sep);
    var k := |s| - |r|;
    var j := LastIndexOf(s, sep);
    if k == 0 {
      assert r == s;
      assert j == -1 by {
        if j >= 0 {
          assert false;
        }
      }
    } else {
      assert s[k - 1] == sep;
      assert j >= k - 1;
      assert j <= k - 1 by {
        if j >= k {
          assert false;
        }
      }
    }
  }


  /** The first separator of a text is where it was in a prefix that already held one. */
  lemma StepAppend(x: string, y: string, sep: char, i: int)
    requires IndexOf(x, sep) == i >= 0
    ensures IndexOf(x + y, sep) == i
    ensures (x + y)[..i] == x[..i]
    ensures (x + y)[i + 1..] == x[i + 1..] + y
  {
    IndexOfAppend(x, y, sep);
  }

  /** `Lines` past the first separator. */
  lemma LinesUnfold(s: string, sep: char, i: int)
    requires IndexOf(s, sep) == i >= 0
    ensures Lines(s, sep) == [s[..i]] + Lines(s[i + 1..], sep)
    ensures Rest(s, sep) == Rest(s[i + 1..], sep)
  {
  }

  /** Text appended after the last separator only extends the remainder. */
  lemma {:induction false} RestAppend(x: string, y: string, sep: char)
    ensures Rest(x + y, sep) == Rest(Rest(x, sep) + y, sep)
    decreases |x|
  {
    var i := IndexOf(x, sep);
    if i >= 0 {
      StepAppend(x, y, sep, i);
      RestAppend(x[i + 1..], y, sep);
      LinesUnfold(x, sep, i);
      LinesUnfold(x + y, sep, i);
    }
  }

  lemma LinesAppendNoSeparator(x: string, y: string, sep: char)
    requires IndexOf(x, sep) < 0
    ensures Lines(x + y, sep) == Lines(x, sep) + Lines(Rest(x, sep) + y, sep)
  {
    assert Lines(x, sep) == [];
  }

  lemma LinesAppendStep(x: string, y: string, sep: char, i: int)
    requires IndexOf(x, sep) == i >= 0
    requires Lines(x[i + 1..] + y, sep) == Lines(x[i + 1..], sep) + Lines(Rest(x[i + 1..], sep) + y, sep)
    ensures Lines(x + y, sep) == Lines(x, sep) + Lines(Rest(x, sep) + y, sep)
  {
    var x' := x[i + 1..];
    StepAppend(x, y, sep, i);
    LinesUnfold(x, sep, i);
    LinesUnfold(x + y, sep, i);
    AppendAssoc([x[..i]], Lines(x', sep), Lines(Rest(x', sep) + y, sep));
  }

  /**
   * The terminated pieces of `x + y` are those of `x`, then those of `x`'s remainder continued
   * by `y`.  This is what makes line splitting independent of where a text is cut.
   */
  lemma {:induction false} LinesAppend(x: string, y: string, sep: char)
    ensures Lines(x + y, sep) == Lines(x, sep) + Lines(Rest(x, sep) + y, sep)
    decreases |x|
  {
    var i := IndexOf(x, sep);
    if i >= 0 {
      LinesAppend(x[i + 1..], y, sep);
      LinesAppendStep(x, y, sep, i);
    } else {
      LinesAppendNoSeparator(x, y, sep);
    }
  }

  // ---------------------------------------------------------------------------------------
  // Trimming
  // ---------------------------------------------------------------------------------------

  /** The number of leading characters that satisfy `isWs`. */
  function LeadingCount(s: string, isWs: char -> bool): (k: nat)
    ensures k <= |s|
    ensures forall i :: 0 <= i < k ==> isWs(s[i])
    ensures k < |s| ==> !isWs(s[k])
    decreases |s|
  {
    if |s| > 0 && isWs(s[0]) then 1 + LeadingCount(s[1..], isWs) else 0
  }

  /** Drops the leading characters that satisfy `isWs`. */
  function TrimStart(s: string, isWs: char -> bool): (r: string)
    ensures |r| > 0 ==> !isWs(r[0])
  {
    s[LeadingCount(s, isWs)..]
  }

  /** Drops the trailing characters that satisfy `isWs`. */
  function TrimEnd(s: string, isWs: char -> bool): (r: string)
    ensures |r| <= |s| && r == s[..|r|]
    ensures |r| > 0 ==> !isWs(r[|r| - 1])
    ensures forall i :: |r| <= i < |s| ==> isWs(s[i])
    decreases |s|
  {
    if |s| > 0 && isWs(s[|s| - 1]) then TrimEnd(s[..|s| - 1], isWs) else s
  }

  /**
   * `s.trim()` / `s.strip()` for the given notion of whitespace: the piece of `s` that starts
   * after its leading whitespace, with no whitespace at either end.
   */
  function Strip(s: string, isWs: char -> bool): (r: string)
    ensures |r| > 0 ==> !isWs(r[0]) && !isWs(r[|r| - 1])
    ensures LeadingCount(s, isWs) + |r| <= |s|
    ensures r == s[LeadingCount(s, isWs)..LeadingCount(s, isWs) + |r|]
    ensures forall i :: LeadingCount(s, isWs) + |r| <= i < |s| ==> isWs(s[i])
    ensures r == "" <==> forall i :: 0 <= i < |s| ==> isWs(s[i])
  {
    var t := TrimStart(s, isWs);
    var r := TrimEnd(t, isWs);
    var k := LeadingCount(s, isWs);
    assert r == s[k..k + |r|];
    r
  }

  /** A string with no whitespace at either end is left as it is. */
  lemma StripFixed(s: string, isWs: char -> bool)
    requires |s| > 0 && !isWs(s[0]) && !isWs(s[|s| - 1])
    ensures Strip(s, isWs) == s
  {
    assert LeadingCount(s, isWs) == 0;
    assert TrimStart(s, isWs) == s;
    assert TrimEnd(s, isWs) == s;
  }

  /** Stripping twice is stripping once. */
  lemma StripIdempotent(s: string, isWs: char -> bool)
    ensures Strip(Strip(s, isWs), isWs) == Strip(s, isWs)
  {
    var r := Strip(s, isWs);
    if |r| > 0 {
      StripFixed(r, isWs);
    }
  }

  /** ECMAScript WhiteSpace and LineTerminator code points, the set `String.prototype.trim` removes. */
  predicate JsWhitespace(c: char)
  {
    c == '\t' || c == '\n' || c == '\U{B}' || c == '\U{C}' || c == '\r' || c == ' '
    || c == '\U{A0}' || c == '\U{1680}' || ('\U{2000}' <= c <= '\U{200A}')
    || c == '\U{2028}' || c == '\U{2029}' || c == '\U{202F}' || c == '\U{205F}'
    || c == '\U{3000}' || c == '\U{FEFF}'
  }

  /** The characters for which Python's `str.isspace` holds, the set `str.strip()` removes. */
  predicate PyWhitespace(c: char)
  {
    ('\t' <= c <= '\r') || ('\U{1C}' <= c <= ' ') || c == '\U{85}' || c == '\U{A0}'
    || c == '\U{1680}' || ('\U{2000}' <= c <= '\U{200A}') || c == '\U{2028}' || c == '\U{2029}'
    || c == '\U{202F}' || c == '\U{205F}' || c == '\U{3000}'
  }

  // ---------------------------------------------------------------------------------------
  // Searching
  // ---------------------------------------------------------------------------------------

  /** `s.rfind(c)`: the index of the last occurrence of `c`, or -1. */
  function LastIndexOf(s: string, c: char): (r: int)
    ensures -1 <= r < |s|
    ensures r >= 0 ==> s[r] == c
    ensures forall i :: r < i < |s| ==> s[i] != c
    decreases |s|
  {
    if |s| == 0 then -1
    else if s[|s| - 1] == c then |s| - 1
    else LastIndexOf(s[..|s| - 1], c)
  }

  /** An occurrence with no other occurrence after it is the last one. */
  lemma LastIndexOfAt(s: string, c: char, k: nat)
    requires k < |s| && s[k] == c
    requires forall j :: k < j < |s| ==> s[j] != c
    ensures LastIndexOf(s, c) == k
  {
  }

  // ---------------------------------------------------------------------------------------
  // Ordering
  // ---------------------------------------------------------------------------------------

  /** `a <= b` for Python strings: lexicographic by code point, a prefix first. */
  predicate StrLe(a: string, b: string)
    decreases |a|
  {
    |a| == 0 || (|b| > 0 && (a[0] < b[0] || (a[0] == b[0] && StrLe(a[1..], b[1..]))))
  }

  lemma {:induction false} StrLeTotal(a: string, b: string)
    ensures StrLe(a, b) || StrLe(b, a)
    decreases |a|
  {
    if |a| > 0 && |b| > 0 && a[0] == b[0] {
      StrLeTotal(a[1..], b[1..]);
    }
  }

  lemma {:induction false} StrLeTransitive(a: string, b: string, c: string)
    requires StrLe(a, b) && StrLe(b, c)
    ensures StrLe(a, c)
    decreases |a|
  {
    if |a| > 0 && a[0] == b[0] && b[0] == c[0] {
      StrLeTransitive(a[1..], b[1..], c[1..]);
    }
  }

  /** Two strings each at most the other are equal. */
  lemma {:induction false} StrLeAntisymmetric(a: string, b: string)
    requires StrLe(a, b) && StrLe(b, a)
    ensures a == b
    decreases |a|
  {
    if |a| > 0 {
      StrLeAntisymmetric(a[1..], b[1..]);
      assert a == [a[0]] + a[1..] && b == [b[0]] + b[1..];
    }
  }

  // ---------------------------------------------------------------------------------------
  // Decimal formatting
  // ---------------------------------------------------------------------------------------

  function DigitChar(d: nat): char
    requires d < 10
  {
    ('0' as int + d) as char
  }

  /** `str(n)` / `${n}` for a natural number: its decimal digits without leading zeros. */
  function NatToString(n: nat): (r: string)
    ensures |r| >= 1
    ensures forall i :: 0 <= i < |r| ==> '0' <= r[i] <= '9'
    ensures n >= 10 <==> |r| >= 2
  {
    if n < 10 then [DigitChar(n)] else NatToString(n / 10) + [DigitChar(n % 10)]
  }

  /** Different numbers print differently. */
  lemma {:induction false} NatToStringInjective(a: nat, b: nat)
    requires NatToString(a) == NatToString(b)
    ensures a == b
    decreases a
  {
    var sa, sb := NatToString(a), NatToString(b);
    if a >= 10 && b >= 10 {
      assert sa[|sa| - 1] == DigitChar(a % 10);
      assert sb[|sb| - 1] == DigitChar(b % 10);
      assert sa[..|sa| - 1] == NatToString(a / 10);
      assert sb[..|sb| - 1] == NatToString(b / 10);
      NatToStringInjective(a / 10, b / 10);
    } else {
      assert sa[0] == sb[0];
    }
  }

  /** Two strings that agree after a common prefix agree entirely. */
  lemma SuffixCancel(x: string, y: string, p: string)
    requires x + p == y + p
    ensures x == y
  {
    assert x == (x + p)[..|x|];
    assert y == (y + p)[..|y|];
  }

  lemma PrefixCancel(p: string, x: string, y: string)
    requires p + x == p + y
    ensures x == y
  {
    assert x == (p + x)[|p|..];
    assert y == (p + y)[|p|..];
  }
}

=== FILE: text_reader.dfy ===
/**
 * CPython's text-mode `read(n)` on a file opened with `encoding='utf-8'` and the default
 * universal newlines, as the upload check uses it with `n` = 1024.  The text layer asks the
 * buffered file for 8192 bytes at a time, decodes each chunk with an incremental UTF-8
 * decoder (strict errors), passes the characters through the newline decoder, and stops as
 * soon as it holds `n` characters or a read returns nothing.  Only the read that returns
 * nothing decodes finally, so an unfinished sequence at the end of the bytes read raises only
 * when the end of the file was reached first.
 */
module TextReader {
  import opened Utf8

  /** `_CHUNK_SIZE`: the bytes the text layer asks for per read; a regular file delivers them. */
  const ChunkSize: nat := 8192

  /** The `n` of `read(n)` in the upload check. */
  const ReadLimit: nat := 1024

  function Min(a: nat, b: nat): nat
  {
    if a <= b then a else b
  }

  /** The bytes the first read returns. */
  function FirstChunk(file: seq<Byte>): (c: seq<Byte>)
    ensures |c| == Min(ChunkSize, |file|) && c == file[..|c|]
  {
    file[..Min(ChunkSize, |file|)]
  }

  /** Universal-newline translation: `\r\n` and a lone `\r` each become `\n`. */
  function Translate(t: string): (u: string)
    ensures '\r' !in u
    ensures |u| <= |t| <= 2 * |u|
  {
    if |t| == 0 then ""
    else if t[0] == '\r' && |t| > 1 && t[1] == '\n' then "\n" + Translate(t[2..])
    else if t[0] == '\r' then "\n" + Translate(t[1..])
    else [t[0]] + Translate(t[1..])
  }

  /** Text without a carriage return passes the translation unchanged. */
  lemma {:induction false} TranslateCarriageFree(t: string)
    requires '\r' !in t
    ensures Translate(t) == t
  {
    if |t| > 0 {
      assert '\r' !in t[1..] by {
        forall i | 0 <= i < |t[1..]| ensures t[1..][i] != '\r' {
          assert t[1..][i] == t[i + 1];
        }
      }
      TranslateCarriageFree(t[1..]);
    }
  }

  /** The newline decoder's output for one decoded piece, and whether it now holds a `\r`. */
  datatype Newlines = Newlines(out: string, pendingCr: bool)

  /**
   * `IncrementalNewlineDecoder.decode` with translation: a held `\r` goes in front of the new
   * text; unless this is the final call, a `\r` at the end is held back, since a `\n` may
   * follow in the next piece; the rest is translated.
   */
  function NewlineDecode(pendingCr: bool, text: string, final: bool): (r: Newlines)
    ensures r.pendingCr ==> !final
    ensures '\r' !in r.out
    ensures |text| <= 2 * |r.out| + 1
  {
    var t := (if pendingCr then "\r" else "") + text;
    if !final && |t| > 0 && t[|t| - 1] == '\r' then Newlines(Translate(t[..|t| - 1]), true)
    else Newlines(Translate(t), false)
  }

  /** The number of characters the first read yields when it decodes without error. */
  function FirstCount(c: seq<Byte>): nat
    requires ValidStream(c)
  {
    |NewlineDecode(false, StreamText(c), false).out|
  }

  /**
   * `read(1024)` raises no `UnicodeDecodeError`: the first chunk decodes, and either it already
   * yields 1024 characters or the whole file is well-formed (the next read hits the end).
   */
  predicate Readable(file: seq<Byte>)
  {
    var c := FirstChunk(file);
    ValidStream(c) && (FirstCount(c) >= ReadLimit || Valid(file))
  }

  /** A full first chunk that decodes always yields the 1024 characters. */
  lemma FullChunkEnough(c: seq<Byte>)
    requires ValidStream(c)
    ensures |c| >= ChunkSize ==> FirstCount(c) >= ReadLimit
  {
    StreamTextLength(c);
  }

  /**
   * The read loop, with the decoder state between reads.  Later reads ask for more than 8192
   * bytes when the text is dense in bytes, but a second read only happens once the first has
   * reached the end of the file, so every later read returns nothing.
   */
  method ReadText(file: seq<Byte>) returns (ok: bool)
    ensures ok == Readable(file)
  {
    var pos := 0;
    var pending: seq<Byte> := [];
    var cr := false;
    var got := 0;
    while got < ReadLimit
      invariant pos == 0 || pos == Min(ChunkSize, |file|)
      invariant pos == 0 ==> pending == [] && !cr && got == 0
      invariant pos > 0 ==> ValidStream(FirstChunk(file)) && pending == Pending(FirstChunk(file))
                            && got == FirstCount(FirstChunk(file))
      decreases |file| - pos
    {
      var chunk := file[pos..Min(pos + ChunkSize, |file|)];
      var eof := chunk == [];
      var bytes := pending + chunk;
      if pos == 0 {
        assert bytes == FirstChunk(file);
      } else {
        var c := FirstChunk(file);
        FullChunkEnough(c);
        ValidIffNothingPending(c);
        assert c == file && eof && bytes == Pending(c);
        assert ValidStream(bytes);
      }
      if !ValidStream(bytes) || (eof && !Valid(bytes)) {
        return false;
      }
      var decoded := NewlineDecode(cr, StreamText(bytes), eof);
      if eof {
        return true;
      }
      pending, cr, got, pos := Pending(bytes), decoded.pendingCr, got + |decoded.out|, pos + |chunk|;
    }
    return true;
  }
}

=== FILE: utf8.dfy ===
/**
 * Well-formed UTF-8 byte sequences, following Table 3-7 of the Unicode Standard, and the
 * encoder from text to bytes.  `ValidStream` is what CPython's incremental decoder, fed a
 * part of a file, accepts without raising: well-formed bytes, possibly ending in the
 * unfinished start of a sequence or in the first two bytes of an encoded surrogate.
 */
module Utf8 {

  type Byte = x: int | 0 <= x < 256

  predicate Continuation(b: Byte)
  {
    0x80 <= b <= 0xBF
  }

  /** The length of the sequence a lead byte opens, or 0 for a byte that opens none. */
  function Need(lead: Byte): nat
  {
    if lead <= 0x7F then 1
    else if 0xC2 <= lead <= 0xDF then 2
    else if 0xE0 <= lead <= 0xEF then 3
    else if 0xF0 <= lead <= 0xF4 then 4
    else 0
  }

  /** The bounds Table 3-7 puts on the byte after `lead`; narrower than 80..BF for E0, ED, F0, F4. */
  function SecondLow(lead: Byte): Byte
  {
    if lead == 0xE0 then 0xA0 else if lead == 0xF0 then 0x90 else 0x80
  }

  function SecondHigh(lead: Byte): Byte
  {
    if lead == 0xED then 0x9F else if lead == 0xF4 then 0x8F else 0xBF
  }

  /** The first `n` bytes of `b` agree with the well-formed pattern opened by `b[0]`. */
  predicate Fits(b: seq<Byte>, n: nat)
    requires 0 < n <= |b|
  {
    (n >= 2 ==> SecondLow(b[0]) <= b[1] <= SecondHigh(b[0]))
    && (forall k :: 2 <= k < n ==> Continuation(b[k]))
  }

  /** `b` starts with one complete well-formed sequence. */
  predicate CompleteHead(b: seq<Byte>)
  {
    |b| > 0 && 0 < Need(b[0]) <= |b| && Fits(b, Need(b[0]))
  }

  /** `b` is a proper, so far well-formed, beginning of one sequence. */
  predicate Unfinished(b: seq<Byte>)
  {
    0 < |b| < Need(b[0]) && Fits(b, |b|)
  }

  /**
   * `ED` followed by `A0..BF`: the start of the encoding of a surrogate, which is never
   * well-formed.  CPython's decoder, when more input may follow, still holds these two bytes
   * back instead of raising when they are the last of its input.
   */
  predicate HeldSurrogate(b: seq<Byte>)
  {
    |b| == 2 && b[0] == 0xED && 0xA0 <= b[1] <= 0xBF
  }

  /** What a decode that expects more input holds back at the end instead of raising. */
  predicate Held(b: seq<Byte>)
  {
    Unfinished(b) || HeldSurrogate(b)
  }

  /** `b` is well-formed UTF-8: decoding it to the end raises no error. */
  predicate Valid(b: seq<Byte>)
    decreases |b|
  {
    |b| == 0 || (CompleteHead(b) && Valid(b[Need(b[0])..]))
  }

  /** `b` decodes without error when more bytes may follow: only its end may be held back. */
  predicate ValidStream(b: seq<Byte>)
    decreases |b|
  {
    |b| == 0 || Held(b) || (CompleteHead(b) && ValidStream(b[Need(b[0])..]))
  }

  /** The UTF-8 encoding of one Unicode scalar value. */
  function EncodeChar(c: char): (e: seq<Byte>)
    ensures 1 <= |e| <= 4 && Need(e[0]) == |e|
    ensures Fits(e, |e|)
  {
    var v := c as int;
    if v < 0x80 then [v]
    else if v < 0x800 then [0xC0 + v / 64, 0x80 + v % 64]
    else if v < 0x10000 then
      assert v < 0xD800 || 0xE000 <= v;
      [0xE0 + v / 4096, 0x80 + (v / 64) % 64, 0x80 + v % 64]
    else [0xF0 + v / 262144, 0x80 + (v / 4096) % 64, 0x80 + (v / 64) % 64, 0x80 + v % 64]
  }

  /** The UTF-8 encoding of a string: its characters' encodings, one after the other. */
  function Encode(s: string): seq<Byte>
  {
    if |s| == 0 then [] else EncodeChar(s[0]) + Encode(s[1..])
  }

  /** A character takes at most four bytes. */
  lemma {:induction false} EncodeLength(s: string)
    ensures |Encode(s)| <= 4 * |s|
  {
    if |s| > 0 {
      EncodeLength(s[1..]);
    }
  }

  /** Every encoded string is well-formed: a file of UTF-8 text decodes without error. */
  lemma {:induction false} EncodeValid(s: string)
    ensures Valid(Encode(s))
  {
    if |s| > 0 {
      var e := EncodeChar(s[0]);
      var b := Encode(s);
      EncodeValid(s[1..]);
      assert b[..|e|] == e;
      assert b[|e|..] == Encode(s[1..]);
    }
  }

  /** Everything well-formed is also accepted when more bytes may follow. */
  lemma {:induction false} ValidIsStream(b: seq<Byte>)
    requires Valid(b)
    ensures ValidStream(b)
    decreases |b|
  {
    if |b| > 0 {
      ValidIsStream(b[Need(b[0])..]);
    }
  }

  /** Cutting well-formed bytes anywhere leaves bytes that decode as a stream. */
  lemma {:induction false} PrefixIsStream(b: seq<Byte>, n: nat)
    requires Valid(b) && n <= |b|
    ensures ValidStream(b[..n])
    decreases |b|
  {
    if n > 0 {
      var k := Need(b[0]);
      var p := b[..n];
      if n < k {
        assert p[0] == b[0];
        assert Fits(p, n);
      } else {
        assert p[..k] == b[..k];
        assert CompleteHead(p);
        assert p[k..] == b[k..n] == b[k..][..n - k];
        PrefixIsStream(b[k..], n - k);
      }
    }
  }
  /** The scalar value a complete well-formed sequence stands for. */
  function DecodeHead(b: seq<Byte>): (c: char)
    requires CompleteHead(b)
    ensures EncodeChar(c) == b[..Need(b[0])]
  {
    var n := Need(b[0]);
    var b0: int := b[0];
    if n == 1 then
      (b0 as char)
    else
      var b1: int := b[1];
      if n == 2 then
        var v := (b0 - 0xC0) * 64 + (b1 - 0x80);
        Split64(b0 - 0xC0, b1 - 0x80);
        (v as char)
      else
        var b2: int := b[2];
        if n == 3 then
          var hi := (b0 - 0xE0) * 64 + (b1 - 0x80);
          var v := hi * 64 + (b2 - 0x80);
          Split64(b0 - 0xE0, b1 - 0x80);
          Split64(hi, b2 - 0x80);
          assert v / 4096 == b0 - 0xE0;
          (v as char)
        else
          var b3: int := b[3];
          var hi := (b0 - 0xF0) * 64 + (b1 - 0x80);
          var mid := hi * 64 + (b2 - 0x80);
          var v := mid * 64 + (b3 - 0x80);
          Split64(b0 - 0xF0, b1 - 0x80);
          Split64(hi, b2 - 0x80);
          Split64(mid, b3 - 0x80);
          assert v / 4096 == hi;
          assert v / 262144 == b0 - 0xF0;
          (v as char)
  }

  lemma Split64(a: nat, r: nat)
    requires r < 64
    ensures (a * 64 + r) / 64 == a && (a * 64 + r) % 64 == r
  {
  }

  /** The text well-formed bytes stand for. */
  function Decode(b: seq<Byte>): string
    requires Valid(b)
    decreases |b|
  {
    if |b| == 0 then "" else [DecodeHead(b)] + Decode(b[Need(b[0])..])
  }

  /**
   * Decoding then encoding gives the bytes back, so exactly the encodings of text are
   * well-formed: with `EncodeValid`, `Valid(b)` holds iff `b == Encode(s)` for some `s`.
   */
  lemma {:induction false} EncodeDecode(b: seq<Byte>)
    requires Valid(b)
    ensures Encode(Decode(b)) == b
    decreases |b|
  {
    if |b| > 0 {
      var k := Need(b[0]);
      EncodeDecode(b[k..]);
      EncodeCons(DecodeHead(b), Decode(b[k..]));
      assert b == b[..k] + b[k..];
    }
  }

  lemma EncodeCons(c: char, t: string)
    ensures Encode([c] + t) == EncodeChar(c) + Encode(t)
  {
    assert ([c] + t)[0] == c && ([c] + t)[1..] == t;
  }

  /** Encoding one character and reading it back gives the character. */
  lemma DecodeEncodeChar(c: char, rest: seq<Byte>)
    ensures CompleteHead(EncodeChar(c) + rest)
    ensures Need(EncodeChar(c)[0]) == |EncodeChar(c)|
    ensures DecodeHead(EncodeChar(c) + rest) == c
  {
    var e := EncodeChar(c);
    var b := e + rest;
    assert b[..|e|] == e;
    var v := c as int;
    if v >= 0x800 {
      assert (v / 64) / 64 == v / 4096;
      assert (v / 4096) / 64 == v / 262144;
    }
  }

  /** Encoding then decoding gives the text back. */
  lemma {:induction false} DecodeEncode(s: string)
    ensures Valid(Encode(s)) && Decode(Encode(s)) == s
  {
    EncodeValid(s);
    if |s| > 0 {
      var e := EncodeChar(s[0]);
      var b := Encode(s);
      DecodeEncodeChar(s[0], Encode(s[1..]));
      assert b[|e|..] == Encode(s[1..]);
      DecodeEncode(s[1..]);
      assert s == [s[0]] + s[1..];
    }
  }
  /** The characters of the complete sequences a stream input starts with. */
  function StreamText(b: seq<Byte>): string
    requires ValidStream(b)
    decreases |b|
  {
    if |b| == 0 || Held(b) then "" else [DecodeHead(b)] + StreamText(b[Need(b[0])..])
  }

  /** The bytes a stream input ends with that the decoder holds back for later bytes. */
  function Pending(b: seq<Byte>): (p: seq<Byte>)
    requires ValidStream(b)
    ensures |p| <= 3 && (p == [] || Held(p))
    decreases |b|
  {
    if |b| == 0 then [] else if Held(b) then b else Pending(b[Need(b[0])..])
  }

  /** A stream input is well-formed to its end exactly when nothing is left pending. */
  lemma {:induction false} ValidIffNothingPending(b: seq<Byte>)
    requires ValidStream(b)
    ensures Valid(b) <==> Pending(b) == []
    decreases |b|
  {
    if |b| > 0 && !Held(b) {
      ValidIffNothingPending(b[Need(b[0])..]);
    }
  }

  /** Every complete sequence is at most four bytes and the held tail at most three. */
  lemma {:induction false} StreamTextLength(b: seq<Byte>)
    requires ValidStream(b)
    ensures |b| <= 4 * |StreamText(b)| + 3
    decreases |b|
  {
    if |b| > 0 && !Held(b) {
      StreamTextLength(b[Need(b[0])..]);
    }
  }

  /** After well-formed bytes the decoder is back at a boundary: what follows is judged alone. */
  lemma {:induction false} AfterWellFormed(a: seq<Byte>, t: seq<Byte>)
    requires Valid(a)
    ensures ValidStream(a + t) <==> ValidStream(t)
    ensures ValidStream(t) ==> StreamText(a + t) == Decode(a) + StreamText(t) && Pending(a + t) == Pending(t)
    decreases |a|
  {
    if |a| == 0 {
      assert a + t == t;
    } else {
      var k := Need(a[0]);
      HeadOfLonger(a, t);
      assert (a + t)[k..] == a[k..] + t;
      StreamPastHead(a + t);
      AfterWellFormed(a[k..], t);
    }
  }

  /** A stream input that starts with a complete sequence decodes it and goes on after it. */
  lemma StreamPastHead(b: seq<Byte>)
    requires CompleteHead(b)
    ensures ValidStream(b) <==> ValidStream(b[Need(b[0])..])
    ensures ValidStream(b) ==> StreamText(b) == [DecodeHead(b)] + StreamText(b[Need(b[0])..])
                               && Pending(b) == Pending(b[Need(b[0])..])
  {
    assert !Held(b);
  }

  /** Bytes after a complete sequence do not change how it decodes. */
  lemma HeadOfLonger(a: seq<Byte>, t: seq<Byte>)
    requires CompleteHead(a)
    ensures CompleteHead(a + t) && Need((a + t)[0]) == Need(a[0])
    ensures DecodeHead(a + t) == DecodeHead(a)
  {
    var k := Need(a[0]);
    var c := DecodeHead(a);
    assert a == EncodeChar(c) + a[k..];
    assert a + t == EncodeChar(c) + (a[k..] + t);
    DecodeEncodeChar(c, a[k..] + t);
  }
}

=== FILE: variants.dfy ===
/**
 * Two readings of a program line that does not do what it evidently means to do: the line
 * as the program has it, and the line as intended.  A function built on such a line takes
 * the reading as a parameter, so that both behaviours are stated.
 */
module Variants {
  datatype Variant = AsWritten | Intended
}

=== FILE: vector_store.dfy ===
/**
 * The vector collection: records keyed by chunk id, each holding the chunk's text, its
 * embedding and its metadata.  Adding a document's chunks builds one id and one metadata
 * record per chunk; deleting a document removes every record whose metadata names it.
 */
module VectorStore {
  import opened Wrappers
  import opened Text

  /** A chunk's metadata: its document, the document's name, its index and the chunk count. */
  datatype ChunkMeta = ChunkMeta(docId: string, filename: string, chunkIndex: nat, totalChunks: nat)

  datatype Record = Record(text: string, embedding: seq<real>, meta: ChunkMeta)

  type Store = map<string, Record>

  const ChunkInfix: string := "_chunk_"

  /** The id of chunk `i` of a document: `<doc_id>_chunk_<i>`. */
  function ChunkId(docId: string, i: nat): (id: string)
    ensures StartsWith(id, docId + ChunkInfix) && EndsWith(id, NatToString(i))
    ensures |id| == |docId| + |ChunkInfix| + |NatToString(i)|
  {
    var id := docId + ChunkInfix + NatToString(i);
    assert id[..|docId + ChunkInfix|] == docId + ChunkInfix;
    assert id[|id| - |NatToString(i)|..] == NatToString(i);
    id
  }

  /** The last underscore of a chunk id is the one in front of the chunk number. */
  lemma ChunkIdParts(docId: string, i: nat)
    ensures LastIndexOf(ChunkId(docId, i), '_') == |docId| + |ChunkInfix| - 1
    ensures ChunkId(docId, i)[|docId| + |ChunkInfix|..] == NatToString(i)
    ensures ChunkId(docId, i)[..|docId| + |ChunkInfix|] == docId + ChunkInfix
  {
    var id := ChunkId(docId, i);
    var k := |docId| + |ChunkInfix|;
    var digits := NatToString(i);
    assert id == (docId + ChunkInfix) + digits;
    assert id[k - 1] == '_';
    forall j | k - 1 < j < |id|
      ensures id[j] != '_'
    {
      assert id[j] == digits[j - k];
    }
    LastIndexOfAt(id, '_', k - 1);
  }

  /** Different (document, index) pairs never share a chunk id. */
  lemma ChunkIdInjective(a: string, i: nat, b: string, j: nat)
    requires ChunkId(a, i) == ChunkId(b, j)
    ensures a == b && i == j
  {
    ChunkIdParts(a, i);
    ChunkIdParts(b, j);
    var id := ChunkId(a, i);
    assert |a| == |b|;
    assert NatToString(i) == NatToString(j);
    NatToStringInjective(i, j);
    SuffixCancel(a, b, ChunkInfix);
  }

  /** The ids built for a document with `n` chunks: one per chunk, in order, all different. */
  function ChunkIds(docId: string, n: nat): (ids: seq<string>)
    ensures |ids| == n && forall i :: 0 <= i < n ==> ids[i] == ChunkId(docId, i)
  {
    seq(n, i requires 0 <= i < n => ChunkId(docId, i))
  }

  lemma ChunkIdsDistinct(docId: string, n: nat)
    ensures forall i, j :: 0 <= i < j < n ==> ChunkIds(docId, n)[i] != ChunkIds(docId, n)[j]
  {
    forall i, j | 0 <= i < j < n
      ensures ChunkIds(docId, n)[i] != ChunkIds(docId, n)[j]
    {
      if ChunkId(docId, i) == ChunkId(docId, j) {
        ChunkIdInjective(docId, i, docId, j);
      }
    }
  }

  /** The metadata built for each of a document's `n` chunks. */
  function Metas(docId: string, filename: string, n: nat): (ms: seq<ChunkMeta>)
    ensures |ms| == n
    ensures forall i :: 0 <= i < n ==> ms[i] == ChunkMeta(docId, filename, i, n)
  {
    seq(n, i requires 0 <= i < n => ChunkMeta(docId, filename, i, n))
  }

  /** Every chunk's index lies below the chunk count. */
  lemma MetasInRange(docId: string, filename: string, n: nat)
    ensures forall m :: m in Metas(docId, filename, n) ==> m.chunkIndex < m.totalChunks == n && m.docId == docId
  {
    var ms := Metas(docId, filename, n);
    forall m | m in ms
      ensures m.chunkIndex < m.totalChunks == n && m.docId == docId
    {
      var i :| 0 <= i < |ms| && ms[i] == m;
    }
  }

  /**
   * `add_chunks`: the batch of records for a document's chunks, added to the collection under
   * their ids.  The embeddings must come one per chunk.  The collection's `add` (unlike its
   * `upsert`) skips an id it already holds, so an existing record is kept as it was.
   */
  function AddChunks(store: Store, docId: string, filename: string, chunks: seq<string>,
                     embeddings: seq<seq<real>>): (s: Store)
    requires |embeddings| == |chunks|
    ensures forall i :: 0 <= i < |chunks| && ChunkId(docId, i) !in store ==>
              ChunkId(docId, i) in s
              && s[ChunkId(docId, i)] == Record(chunks[i], embeddings[i], ChunkMeta(docId, filename, i, |chunks|))
    ensures forall id :: id in s <==> id in store || id in ChunkIds(docId, |chunks|)
    ensures forall id :: id in store ==> s[id] == store[id]
  {
    var ids := ChunkIds(docId, |chunks|);
    var ms := Metas(docId, filename, |chunks|);
    ChunkIdsDistinct(docId, |chunks|);
    var batch := map i | 0 <= i < |chunks| :: ids[i] := Record(chunks[i], embeddings[i], ms[i]);
    assert forall id :: id in batch <==> id in ids;
    forall i | 0 <= i < |chunks|
      ensures batch[ids[i]] == Record(chunks[i], embeddings[i], ms[i])
    {
      assert ids[i] in batch;
      var j :| 0 <= j < |chunks| && ids[j] == ids[i] && batch[ids[i]] == Record(chunks[j], embeddings[j], ms[j]);
      assert i == j;
    }
    batch + store
  }

  /** The ids whose records belong to `docId`: what `get(where doc_id == docId)` returns. */
  function Matching(store: Store, docId: string): (ids: set<string>)
    ensures forall id :: id in ids <==> id in store && store[id].meta.docId == docId
  {
    set id | id in store && store[id].meta.docId == docId
  }

  /**
   * `delete_document_vectors`: when no record belongs to the document, no delete is issued;
   * otherwise exactly the matching ids are deleted.  The first component is the id set passed
   * to the delete call, if one is made.
   */
  function DeleteDocumentVectors(store: Store, docId: string): (r: (Option<set<string>>, Store))
    ensures r.0.None? <==> forall id :: id in store ==> store[id].meta.docId != docId
    ensures r.0.None? ==> r.1 == store
    ensures r.0.Some? ==> r.0.value != {} && forall id :: id in r.0.value <==> id in store && store[id].meta.docId == docId
    ensures forall id :: id in r.1 <==> id in store && store[id].meta.docId != docId
    ensures forall id :: id in r.1 ==> r.1[id] == store[id]
  {
    var ids := Matching(store, docId);
    if ids == {} then (None, store) else (Some(ids), store - ids)
  }

  /**
   * Adding a new document's chunks and then deleting the document gives back the collection
   * as it was, provided none of its records or chunk ids were there before.
   */
  lemma AddThenDelete(store: Store, docId: string, filename: string, chunks: seq<string>,
                      embeddings: seq<seq<real>>)
    requires |embeddings| == |chunks|
    requires forall id :: id in store ==> store[id].meta.docId != docId
    requires forall i :: 0 <= i < |chunks| ==> ChunkId(docId, i) !in store
    ensures DeleteDocumentVectors(AddChunks(store, docId, filename, chunks, embeddings), docId).1 == store
  {
    var added := AddChunks(store, docId, filename, chunks, embeddings);
    var after := DeleteDocumentVectors(added, docId).1;
    var ids := ChunkIds(docId, |chunks|);
    forall id | id in ids
      ensures id in added && added[id].meta.docId == docId
    {
      var i :| 0 <= i < |ids| && ids[i] == id;
    }
    assert after.Keys == store.Keys;
  }
}

=== FILE: wrappers.dfy ===
/** Optional values and success/failure results shared by every module of the model. */
module Wrappers {

  /** A value that may be absent: Python's `None`, JavaScript's `undefined`/`null`. */
  datatype Option<+T> = None | Some(value: T) {

    /** The carried value, or `default` when there is none. */
    function GetOr(default: T): T {
      match this
      case Some(v) => v
      case None => default
    }
  }

  /** The outcome of an operation that either yields a value or raises an error. */
  datatype Result<+T, +E> = Ok(value: T) | Err(error: E)
}
